=== FILE: README.md ===
# Segmented, resumable video download — a Dafny model

async-udemy-dl downloads a video stream of a Udemy course in nested byte ranges.

- The stream is cut into *parts* of `CHUNKSIZE * PART_NUMBER` bytes, and each part into *chunks* of `CHUNKSIZE` bytes.
- Every chunk is fetched with an HTTP `Range` request and appended to a chunk file of its own.
- Once all chunks of a part are fetched, they are appended in ascending order to a part file and then removed. Once all parts are in place, the same happens at stream level: they are appended to the video file and then removed.
- Files already present are trusted, so an interrupted run resumes without fetching again the bytes it already stored.
- Every level is wrapped in a retry combinator.

The repository holds two versions of this downloader:

- `UdemyStream` in `async_udemy_dl.py`: 1-based ranges, names `<part path>P` and `<part path>P.chunkC`, `coroutine_retry`.
- The older one in `udemy-dl.py`: 0-based ranges, digit-concatenated names `<temp path>PC`, recursive retry with a counter.

Both are modelled here, each with the small pure rules around it:

- the `partition` generator and the older list-comprehension ranges;
- `coroutine_retry`;
- grouping the flat curriculum listing into chapters;
- the chapter and lecture windows chosen on the command line;
- the choice of the best non-HLS stream;
- reading `access_token` from a cookies file;
- finding a course by its published title;
- zero-padded indices and the paths of the video and its temporary files.

Layout, one module per file:

| file | module | models |
|---|---|---|
| `common.dfy` | `Common` | bytes, `Option`, `Min`/`Max`, `Flatten`, `Repeat`, map helpers |
| `partition.dfy` | `Partition` | `partition` and the older range lists |
| `retry.dfy` | `Retry` | `coroutine_retry` |
| `naming.dfy` | `Naming` | `str(n)`, zero padding, temporary file names (both schemes) |
| `paths.dfy` | `Paths` | `file_path`, `part_file_path`, chapter directories |
| `files.dfy` | `Files` | the working directory (class `FileSystem`) and the origin server (class `Server`) |
| `ranges.dfy` | `Ranges` | the resumed `Range` request and its arithmetic |
| `stream.dfy` | `AsyncStream` | `UdemyStream.download` / `download_part` / `download_chunk` |
| `legacy_stream.dfy` | `LegacyStream` | the older `download` / `download_part` / `_download_part` |
| `curriculum.dfy` | `Curriculum` | grouping, windows, stream choice, course lookup |
| `cookies.dfy` | `Cookies` | the access-token parser |

How the environment is represented:

- **Working directory.** A `FileSystem` object holds a `map<string, seq<byte>>`, which its methods update in place. It also keeps a ghost log of copies and removals.
- **Server.** A `Server` object holds the stream's bytes, a script of replies (`Deliver`, or `Cut(n)` for a connection dropped after `n` bytes) and the log of requests received. Byte ranges follow section 2.1 of RFC 7233: positions count from zero, the last position is inclusive and is clipped to the resource.
- **Sleeps.** Each `asyncio.sleep` is recorded by its duration in a `naps` sequence.
- **`asyncio.gather`.** It becomes a sequential loop over the tasks. Their order does not matter, because within one `gather` every task writes a file no other task touches, as the naming lemmas prove. What a failure leaves behind, and what tasks still running after it do, is where the two differ; see "## Left out".

Two behaviours of the code worth keeping in mind, both followed by the model:

- A video or part file that exists is trusted *at any size* (`async_udemy_dl.py:417` and `:454`). Its contents are never checked, so the contracts of `DownloadOnce`, `Download`, `PartOnce` and `DownloadPart` cover that case without assuming anything about such a file.
- Only the chunks of a part are gathered concurrently, as the docstring of `download_part` (`async_udemy_dl.py:443-450`) says. The parts of a stream are awaited one after another inside a list comprehension (`async_udemy_dl.py:423-425`).

## Model

| member | source | states |
|---|---|---|
| Partition.Partition | async_udemy_dl.py:62-76 | The generator's loop yields exactly `Intervals(start, stop, size)`. These tile `[start, stop]`: indices 0, 1, …; the first starts at `start` and the last ends at `stop`; consecutive triples are adjacent; every triple but the last is `size` long and none is longer; nothing when `start > stop`. |
| Partition.IntervalsCount | async-udemy-dl/utils.py:51-55 | The number of triples is `ceil((stop - start + 1) / size)`, and 0 when `start > stop`. |
| Partition.ChopAt | async-udemy-dl/utils.py:51-55 | The k-th triple yielded from loop state `(index, start)` is `(index + k, start + k*size, min(start + k*size + size - 1, stop))`. |
| Partition.IntervalAt | async-udemy-dl/utils.py:53 | Every yielded triple lies inside `[start, stop]` and is at most `size` long. |
| Partition.IntervalsCover | async-udemy-dl/utils.py:44-55 | Every position of `[start, stop]` lies in exactly one triple: the one numbered `(x - start) / size`. |
| Partition.EnumeratedRangeIsPartition | udemy-dl.py:290-292 | The older `enumerate(range(lo, hi + 1, step))` comprehension, capped at `hi`, yields the same triples as `partition(lo, hi, step)`. |
| Partition.LegacyPartRanges | udemy-dl.py:265-268 | The older part ranges over `[0, L - 1]` are `partition(0, L - 1, CHUNKSIZE * PART_NUMBER)`, so they tile the 0-based stream. |
| Partition.SmallExample | async-udemy-dl/utils.py:41-55 | `partition(1, 2500, 1000)` yields `(0,1,1000), (1,1001,2000), (2,2001,2500)`. |
| Partition.TwoLevelExample | async_udemy_dl.py:423-425 | Two-level cutting on small sizes: the parts of `[1, 12000]`, ten chunks in a full part, and a short last part's chunks numbered from 0 again. |
| Retry.CoroutineRetry | async_udemy_dl.py:46-55 | The wrapper's `for` loop ends with the verdict and the sequence of calls and sleeps given by `Attempts`. |
| Retry.FirstOk | async_udemy_dl.py:48-50 | The first call in `i..last` that returns, with every earlier call in that range raising; `None` exactly when all of them raise. |
| Retry.AttemptsCharacterised | async_udemy_dl.py:48-55 | The wrapper without its loop. With `retry_times < 0` it falls through with no call. Otherwise it returns the first success among calls `0..retry_times`, or re-raises the last call's error unchanged, alternating calls and sleeps. |
| Retry.ScheduleShape | async_udemy_dl.py:48-55 | Calls and sleeps alternate, starting and ending with a call: a sleep comes only between two calls, never after the final one. |
| Retry.ScheduleCounts | async_udemy_dl.py:48-55 | `n` calls come with exactly `n - 1` sleeps. |
| Retry.RetryBudget | async-udemy-dl/utils.py:24-31 | At most `retry_times + 1` calls, one sleep fewer than calls, and the last step is a call. A re-raise happens only after all `retry_times + 1` calls, with the error of the last one. A returned value is the one the last call returned. |
| Retry.ErrorKindsAlike | async-udemy-dl/utils.py:27 | The bare `except`: two operations that succeed on the same calls with the same values are retried identically, whatever errors they raise. |
| Retry.AlwaysFailing | async_udemy_dl.py:48-54 | With three retries, an operation that always raises `e` is called exactly four times and `e` itself is re-raised. |
| Retry.ScheduleNaps | async_udemy_dl.py:48-54 | Every sleep between the calls of a schedule lasts `pause` seconds, one fewer sleep than calls. |
| Retry.RetryNaps | async_udemy_dl.py:46-55 | With `retry_times >= 0` the coroutine is called between 1 and `retry_times + 1` times, all of them unless a call returns, with `pause`-second sleeps one fewer than the calls. `AsyncStream.Stream.DownloadChunk` and `LegacyStream.Stream.FetchChunk` promise exactly this shape of their attempts and `naps`; `AsyncStream.Stream.DownloadPart` promises it of its 3-second sleeps. |
| Naming.Str | async_udemy_dl.py:453 | `str(n)` is a nonempty run of decimal digits that starts with '0' only for 0. |
| Naming.StrValue | async_udemy_dl.py:453 | Reading back the digits of `str(n)` gives `n`. |
| Naming.StrInjective | async_udemy_dl.py:453 | `str(m) == str(n)` exactly when `m == n`. |
| Naming.ZeroPadSound | async_udemy_dl.py:229 | `f'{n:0wd}'` has `max(w, len(str(n)))` digits and denotes `n`, so padding never truncates or changes the index. |
| Naming.PartNameInjective | async_udemy_dl.py:453 | Two part files share a name exactly when they are the same part. |
| Naming.ChunkNameInjective | async_udemy_dl.py:482-483 | Two chunk files share a name exactly when they have the same part and chunk indices. |
| Naming.ChunkNameIsNotPartName | async_udemy_dl.py:482-483 | No chunk file of any part has the name of any part file. |
| Naming.OwnedDisjoint | async_udemy_dl.py:482-483 | The names of distinct parts (each part file with its chunk files) are disjoint, so parts never touch each other's files. |
| Naming.LegacyPartChunkCollision | udemy-dl.py:328 | The older scheme gives chunk 0 of part 0 the same name as the file of part index 10 (`<temp>11`). |
| Naming.LegacyChunkChunkCollision | udemy-dl.py:328 | The older scheme gives chunk (0, 10) and chunk (10, 0) the same name; a part never has an eleventh chunk, so this one stays latent. |
| Naming.LegacyChunkNameInjectiveBelowTen | udemy-dl.py:328 | With chunk indices below ten, as every part has, the older chunk names are distinct exactly when the index pairs are. |
| Naming.LegacyChunkNameIsNotEarlierPartName | udemy-dl.py:328 | An older chunk name never equals the name of its own part or of any earlier part; only later parts can collide. |
| Paths.JoinExtends | async_udemy_dl.py:404-407 | Joining a directory with a name and then appending a suffix is joining with the extended name. |
| Paths.LastSegmentSound | async_udemy_dl.py:403 | `type.split('/')[-1]` is the longest suffix without '/', preceded by '/' unless it is the whole text. |
| Paths.PartPathExtendsVideoPath | async_udemy_dl.py:404-407 | `part_file_path` is `file_path + ".part"`, so every temporary name extends the video's path. |
| Paths.VideoNamesDistinct | async_udemy_dl.py:404-405 | Two lectures' video names coincide exactly when their indices and their `title.extension` agree. |
| Files.CopiedBeforeRemovedStep | async_udemy_dl.py:437-438 | Removing a file whose contents were already copied keeps "no file removed before being copied" true. |
| Files.CopyThenRemove | async_udemy_dl.py:429-438 | Appending a list of files and then removing them keeps every removal after its copy. |
| Files.FileSystem.Size | async_udemy_dl.py:486 | `os.stat(path).st_size` is the length of the file's contents. |
| Files.FileSystem.Open | async_udemy_dl.py:496 | `open(path, 'ab')` creates an empty file when there is none and leaves an existing one unchanged. |
| Files.FileSystem.Write | async_udemy_dl.py:501 | `f.write(data)` appends `data` and changes no other file. |
| Files.FileSystem.AppendFrom | async_udemy_dl.py:431-432 | Appending one file to another: exactly the source's contents are added, and a missing source changes nothing and fails. |
| Files.FileSystem.Concatenate | async_udemy_dl.py:429-432 | The destination gains the sources' contents in list order, and the log records one copy per source. |
| Files.FileSystem.RemoveEach | async_udemy_dl.py:437-438 | Exactly the listed files are gone, and the log records their removal in order. |
| Files.FileSystem.Remove | async_udemy_dl.py:438 | `os.remove` deletes exactly that file, and fails exactly when it is absent. |
| Files.ServedSatisfiable | async_udemy_dl.py:495 | A satisfiable byte range is answered with positions `first..min(last, length - 1)` of the resource, in order (section 2.1 of RFC 7233). |
| Files.DeliveredPrefix | async_udemy_dl.py:497-502 | Reading a body until it ends yields a prefix of what was sent; the read completes exactly when the connection is not cut, and then the whole body arrives. |
| Files.Server.Head | async_udemy_dl.py:419-421 | The probe is logged, and `content_length` is the resource's length unless the probe fails; a faithful server always answers it. |
| Files.Server.Get | async_udemy_dl.py:497-502 | A ranged GET is logged and answers the served range, possibly cut short; a faithful server always answers in full. |
| Ranges.Resume | async_udemy_dl.py:485-502 | When a chunk file holds a correct prefix of its range, the resumed request starts right after the stored bytes. Stored bytes plus whatever arrives stay a prefix of the range, and a complete read finishes it exactly. |
| Ranges.ResumeSplit | async_udemy_dl.py:492 | A range is its stored prefix followed by exactly the bytes of the resumed request. |
| Ranges.ConcatenationJoined | async_udemy_dl.py:462-465 | Concatenating files that hold consecutive ranges, in ascending order, gives the bytes of those ranges joined. |
| Ranges.JoinedIntervals | async_udemy_dl.py:423-432 | The ranges `partition` yields, joined in ascending order, are exactly the bytes of the whole range. |
| Ranges.AppendBody | async_udemy_dl.py:499-501 | Appending a response body to a file changes only that file and never truncates it. |
| Ranges.ResumeOnce | async_udemy_dl.py:485-502 | One chunk fetch. A file already holding the whole range sends no request and changes nothing. Otherwise exactly one request for `[start + stored, end]` goes out, and the body is appended to what was stored; the fetch succeeds exactly when the read completes. |
| Ranges.ResumeChunk | udemy-dl.py:330-347 | One resumed attempt at a chunk: a single ranged request (or none), without retry. The file only grows and stays a prefix of its range, and success means the file holds the whole range. A full file costs no request; otherwise only resumed requests go out. A faithful server makes it succeed. |
| AsyncStream.Stream.constructor | async_udemy_dl.py:402-407 | `file_path` and `part_file_path` are built from the directory, lecture index, title and content type. |
| AsyncStream.Stream.DownloadChunk | async_udemy_dl.py:475-507 | `download_chunk` under `coroutine_retry(sleep=5)`: at most six attempts, a 5-second sleep between attempts, failure only after all six. The chunk file only grows, stays a prefix of its range and, on success, holds it exactly. A full file costs no request and one attempt. Every request asks for `[chunk_start - 1 + stored, chunk_end - 1]` or later, so stored bytes are never fetched again. |
| AsyncStream.Stream.ChunkNames | async_udemy_dl.py:456-458 | `gather` returns one chunk path per chunk. |
| AsyncStream.Stream.ChunkNamesAt | async_udemy_dl.py:482-483 | The j-th returned path is chunk j's file. |
| AsyncStream.Stream.ChunkNamesDistinct | async_udemy_dl.py:482-483 | The chunk paths of a part are pairwise distinct. |
| AsyncStream.Stream.GatherChunks | async_udemy_dl.py:456-458 | Fetching all chunks touches only the part's own files and leaves every chunk file a prefix of its chunk. On success each chunk file holds exactly its chunk. A faithful server makes it succeed without sleeping. |
| AsyncStream.Stream.ConcatChunks | async_udemy_dl.py:462-465 | The part file becomes the chunk files' contents in ascending chunk order: exactly the part's bytes. |
| AsyncStream.Stream.RemoveChunks | async_udemy_dl.py:469-470 | Exactly the part's chunk files are removed, in ascending order. |
| AsyncStream.Stream.PartOnce | async_udemy_dl.py:453-474 | One attempt at a part. An existing part file, whatever its size and whatever the chunk files hold, means no work at all. Otherwise, with every present chunk file a prefix of its chunk, on success the part file holds the part and every chunk file was appended before any was removed; on failure there is no part file and the log is unchanged. |
| AsyncStream.Stream.DownloadPart | async_udemy_dl.py:440-474 | `download_part` under `coroutine_retry(sleep=3)`: at most six attempts, with exactly one 3-second sleep fewer than attempts (every sleep beneath it lasts 5 seconds); success exactly when the part file is present. An existing part file is trusted at any size; a part file made by the call holds exactly the part's bytes, and a sound part stays sound. Chunk files are removed only after being appended, and none remains after a fresh success. |
| AsyncStream.Stream.PartNames | async_udemy_dl.py:423-425 | One part path per part. |
| AsyncStream.Stream.PartNamesAt | async_udemy_dl.py:453 | The j-th part path is `part_file_path + str(j + 1)`. |
| AsyncStream.Stream.PartNamesDistinct | async_udemy_dl.py:453 | The part paths of a stream are pairwise distinct. |
| AsyncStream.Stream.FileNotOwned | async_udemy_dl.py:404-407 | The video path is no part's or chunk's temporary file. |
| AsyncStream.Stream.FreshDirectory | async_udemy_dl.py:404-407 | A directory with nothing named after this video is a consistent starting state. |
| AsyncStream.Stream.StreamDone | async_udemy_dl.py:429-438 | Writing the video and removing the part files leaves a consistent directory holding the video and no part file. |
| AsyncStream.Stream.GatherParts | async_udemy_dl.py:423-425 | Parts are processed in ascending order and the directory stays consistent. On success every part file is present; removals always follow copies. A faithful server makes it succeed without sleeping. |
| AsyncStream.Stream.ConcatParts | async_udemy_dl.py:429-432 | The video file becomes the part files in ascending order: bytes `1..content_length` of the stream. |
| AsyncStream.Stream.RemoveParts | async_udemy_dl.py:437-438 | Exactly the part files are removed, in ascending order. |
| AsyncStream.Stream.DownloadOnce | async_udemy_dl.py:416-438 | One attempt at the stream. An existing video file, whatever it holds, means no request, no change and success. Otherwise, from a consistent directory, the first request is the probe. Success means the video is present and no part file remains; every temporary file is removed only after being appended; a faithful server makes it succeed. |
| AsyncStream.Stream.Download | async_udemy_dl.py:408-438 | `download` under `coroutine_retry(sleep=3)`: at most six attempts; success exactly when the video file is present. An existing video, whatever it holds, means one attempt and no work; a video made by the call is byte-for-byte the stream, and a consistent directory stays consistent. A faithful server means success at the first attempt without sleeping. |
| LegacyStream.AtMostTenChunks | udemy-dl.py:290-292 | A part of at most `CHUNKSIZE * PART_NUMBER` bytes has at most ten chunks. |
| LegacyStream.Stream.constructor | udemy-dl.py:252-256 | `file_path` and `temp_file_path` are built as in the newer downloader. |
| LegacyStream.Stream.FetchChunk | udemy-dl.py:327-354 | `_download_part` with its own `retry - 1` recursion: at most `retry + 1` attempts with a 3-second sleep before each retry. The chunk file only grows and stays a prefix of `[start, end]`, and holds it on success. A full file costs no request. Requests ask for `[start + stored, end]` or later. |
| LegacyStream.BufferedFetch | udemy-dl.py:327-354 | `_download_part` as written, with the retry awaited inside the failed attempt's open buffered handle: the chunk file only grows, whatever the replies. |
| LegacyStream.BufferedRetryDuplicatesTail | udemy-dl.py:338-352 | A four-byte chunk whose first connection drops after two still-buffered bytes ends, after a successful retry, with six bytes: the chunk followed by its first two bytes again, and the call returns normally. |
| LegacyStream.ClosedBeforeRetry | udemy-dl.py:338-352 | If every byte received reaches the file before the retry reads its size, the file stays a prefix of the chunk and holds it all when the call returns, which is what `Stream.FetchChunk` promises. |
| LegacyStream.Stream.ChunkFiles | udemy-dl.py:297-298 | One chunk path per chunk of the part. |
| LegacyStream.Stream.ChunkFilesAt | udemy-dl.py:297-298 | The b-th path is `temp_file_path + str(a + 1) + str(b + 1)`. |
| LegacyStream.Stream.ChunkFilesDistinct | udemy-dl.py:328 | Within one part of at most ten chunks, chunk files are distinct from each other and from the part's own file. |
| LegacyStream.Stream.GatherChunks | udemy-dl.py:293-294 | Fetching all chunks changes only the part's chunk files, each staying a prefix of its chunk and holding it exactly on success; a faithful server makes it succeed. |
| LegacyStream.Stream.ConcatChunks | udemy-dl.py:295-300 | The part file becomes the chunk files in ascending order: exactly the part's bytes. |
| LegacyStream.Stream.RemoveChunks | udemy-dl.py:301-303 | Exactly the part's chunk files are removed, in ascending order. |
| LegacyStream.Stream.PartOnce | udemy-dl.py:286-303 | `download_part`. An existing part file means no work. Otherwise, on success the chunk files are replaced by the part file holding the part, appended before removal; on failure only chunk files changed. |
| LegacyStream.Stream.PartFiles | udemy-dl.py:273 | One part path per part. |
| LegacyStream.Stream.PartFilesAt | udemy-dl.py:273 | The j-th path is `temp_file_path + str(j + 1)`. |
| LegacyStream.Stream.FreshDirectory | udemy-dl.py:258-277 | A directory with nothing named after this video is resumable from the first part. |
| LegacyStream.Stream.PartBounds | udemy-dl.py:265-268 | Every part lies inside `[0, content_length - 1]`, is at most `CHUNKSIZE * PART_NUMBER` bytes long and has at most ten chunks. |
| LegacyStream.Stream.PartSuccess | udemy-dl.py:286-303 | Finishing part k from a stage-k directory gives a stage-(k+1) directory. |
| LegacyStream.Stream.PartFailure | udemy-dl.py:293-294 | A failed part that only touched its chunk files leaves the directory at the same stage. |
| LegacyStream.Stream.StreamDone | udemy-dl.py:272-277 | After the last part, writing the video and removing the part files leaves the video equal to the stream and no temporary file. |
| LegacyStream.Stream.GatherParts | udemy-dl.py:269-270 | Parts are processed in ascending order and the directory stays at a resumable stage; success means every part is done. A faithful server makes it succeed. |
| LegacyStream.Stream.ConcatParts | udemy-dl.py:272-275 | The video file becomes the part files in ascending order: exactly the stream. |
| LegacyStream.Stream.RemoveParts | udemy-dl.py:276-277 | Exactly the part files are removed, in ascending order. |
| LegacyStream.Stream.Finish | udemy-dl.py:272-277 | From the final stage, the video equals the stream, no temporary file remains, and removals follow copies. |
| LegacyStream.Stream.FetchAll | udemy-dl.py:265-277 | After the probe: success leaves the video and no temporary file. An empty stream always fails, because `i` is unbound after an empty loop. A faithful server makes a nonempty stream succeed. |
| LegacyStream.Stream.DownloadOnce | udemy-dl.py:259-277 | One pass of `download`'s `try` body. An existing video, whatever it holds, means no request and no change; a resumable directory stays resumable. Otherwise the first request is the probe. Success leaves the video and no temporary file. |
| LegacyStream.Stream.Download | udemy-dl.py:258-284 | `download` as written. An existing video, whatever it holds, means one attempt and no work. A video the call finishes equals the stream, and a resumable directory stays resumable. A re-raise happens only when the caller passed `retry = 0`, because the recursion passes no `retry`. |
| LegacyStream.Stream.DownloadWithCountdown | udemy-dl.py:278-284 | The recursion with `retry - 1` passed on: it always ends, after at most `retry + 1` attempts, either finished or re-raising after exactly `retry + 1` attempts. An existing video, whatever it holds, means one attempt and no work; a video the call finishes equals the stream. |
| LegacyStream.Stream.StaleChunkPoisonsPart | udemy-dl.py:287 | A leftover chunk 0 of part 0, on a stream of at least eleven full parts, is taken for the file of part 10 while holding a chunk's bytes instead of a whole part's. |
| Curriculum.Extend | async_udemy_dl.py:183-189 | The grouping loop on top of given groups. It fails exactly when there is no group yet and a lecture comes before every chapter. Otherwise the groups stay well-shaped, keep their first head, and hold the old entries followed by the kept chapters and lectures in order. |
| Curriculum.Place | async_udemy_dl.py:186-189 | One item: a chapter opens a group, a lecture joins the last group, anything else is skipped. It fails exactly when a lecture comes with no group at all. |
| Curriculum.OrphanMeans | async_udemy_dl.py:189 | The `IndexError` case, read step by step, is exactly "some lecture precedes every chapter". |
| Curriculum.GroupChapters | async_udemy_dl.py:171-189 | `fill_course_chapters_and_lectures` fails exactly when a lecture precedes every chapter. Otherwise every group is a chapter followed only by lectures, and the groups hold the chapters and lectures of the listing, in order. |
| Curriculum.GroupingUnique | async_udemy_dl.py:183-189 | Only one grouping holds a given sequence of entries, so `GroupChapters`' contract fixes its result. |
| Curriculum.LegacyGroupChapters | udemy-dl.py:51-61 | `get_course_detail`: the first item heads the first group whatever its kind, and fails only on an empty listing. Later chapters open groups and later lectures join the last group. |
| Curriculum.LegacyAgreesWhenChapterFirst | udemy-dl.py:60-61 | When the listing starts with a chapter, the older grouping meets the newer one's contract, so both yield the same groups. |
| Curriculum.SliceIndex | async_udemy_dl.py:219 | A Python slice bound lands inside the list and is kept as is when already inside. |
| Curriculum.WindowOne | async_udemy_dl.py:203-219 | `chapter = n` selects exactly element `n - 1` when `1 <= n <= len`, and nothing for 0 or past the end, whatever the other bounds. |
| Curriculum.WindowAll | async_udemy_dl.py:203-219 | No option selects every chapter. |
| Curriculum.WindowRange | async_udemy_dl.py:247-263 | 1-based inclusive bounds `s..e` select the slice `[s - 1, e)`, and nothing when `e < s`. |
| Curriculum.WindowFrom | async_udemy_dl.py:247-263 | Only a start `s` selects everything from position `s` on. |
| Curriculum.WindowUpTo | async_udemy_dl.py:247-263 | Only an end `e` selects the first `e` elements. |
| Curriculum.WindowContiguous | async_udemy_dl.py:217-219 | Every window is one contiguous run of the list, in order. |
| Curriculum.LegacyWindowSelects | udemy-dl.py:69-83 | The older window is the newer one with no single-element override. |
| Curriculum.Best | async_udemy_dl.py:350-351 | The chosen position holds a non-HLS stream with the highest label among non-HLS streams, and no earlier non-HLS stream ties it. There is none exactly when every stream is HLS. |
| Curriculum.ChooseStream | async_udemy_dl.py:346-353 | The chosen stream is a non-HLS stream of the lecture whose label no other non-HLS stream exceeds; no choice (`max` raising) exactly when all streams are HLS. |
| Curriculum.FindCourse | async-udemy-dl/utils.py:93-96 | The position of the first course whose `published_title` is the name; `None` exactly when no course has it. |
| Curriculum.CourseByName | async_udemy_dl.py:107-118 | The course returned is one of the listing with that published title; `None` exactly when no course has it. |
| Cookies.Split | async-udemy-dl/utils.py:66 | `split(';')` always yields at least one piece. |
| Cookies.SplitJoin | async-udemy-dl/utils.py:66 | Rejoining the pieces with ';' gives back the text, and no piece contains ';'. |
| Cookies.JoinSplit | async-udemy-dl/utils.py:66 | Splitting pieces joined with ';', none containing ';', gives back the pieces. |
| Cookies.SplitOnce | async-udemy-dl/utils.py:66 | `split('=', 1)` yields two halves exactly when there is a '='; they are the text before the first '=' and everything after it. |
| Cookies.StripSound | async-udemy-dl/utils.py:67 | `strip()` removes the longest leading and trailing whitespace: the result is a slice of the text with only whitespace around it, and it neither starts nor ends with whitespace. |
| Cookies.StripIdempotent | async-udemy-dl/utils.py:67 | Stripping twice is stripping once. |
| Cookies.Pairs | async-udemy-dl/utils.py:66-67 | The stripped key and value of every item, in order; unpacking fails exactly when some item has no '='. |
| Cookies.KeyIn | async-udemy-dl/utils.py:67 | A key is in the dictionary exactly when some pair carries it. |
| Cookies.LastPairWins | async-udemy-dl/utils.py:67 | A key maps to the value of its last pair: later duplicates override earlier ones. |
| Cookies.TokenSound | async-udemy-dl/utils.py:66-68 | There is no token exactly when some item lacks '=' or no stripped key is `access_token`. Otherwise the token is the stripped value of the last such item. |
| Cookies.TrailingSemicolonRejected | async-udemy-dl/utils.py:66-67 | Text ending in ';' is always rejected: its last item is empty and has no '='. |

## Left out

- Each HTTP exchange is reduced to its effect: a probe, a ranged GET answered in full or cut short, and the `Range` arithmetic. Headers, status codes, the user agent and the `aiohttp`/`requests` sessions are not modelled.
- A missing `content_length` (`None`) is treated as a failed probe. It would fail the attempt in the source as well.
- The real filesystem (`os.path.exists`, `os.stat`, `open`, `os.remove`, `os.mkdir`) is replaced by the `FileSystem` map. Directory creation is not modelled.
- A process killed in the middle of an operation is not modelled. A file left truncated by such a kill (a partial video, part or chunk file) is exactly what the source trusts by name, and no contract covers it.
- AsyncStream.Stream.Download: when the video file is absent, requires a consistent directory: every present chunk file must be a prefix of its chunk and every present part file must hold its part. The source checks none of this and trusts files by name.
- AsyncStream.Stream.Download: its own 3-second sleeps between attempts go into `naps` together with the 3-second sleeps of `download_part`, so they are not counted separately. Only `old(naps) <= naps`, and no sleep at all with a faithful server, are stated.
- AsyncStream.Stream.DownloadOnce: the same requirement, for the same reason.
- LegacyStream.Stream.DownloadOnce: when the video file is absent, requires the directory to be at a stage `k`: parts `0..k-1` hold their parts and the only other temporary files are chunk files of part `k`, each a prefix of its chunk. The source checks none of this and trusts files by name.
- LegacyStream.Stream.Download: the same requirement as `DownloadOnce`, for the same reason.
- LegacyStream.Stream.DownloadWithCountdown: the same requirement as `DownloadOnce`, for the same reason.
- AsyncStream.Stream.GatherChunks: `asyncio.gather` runs the chunk tasks concurrently, and on the first failure it does not cancel the others, which keep running and appending. The model runs the tasks in order and stops at the first failure, with nothing left running. Only a first attempt that succeeds behaves the same in both.
- AsyncStream.Stream.GatherChunks: requires every present chunk file of the part to hold a prefix of its chunk. The source appends to whatever such a file holds.
- AsyncStream.Stream.DownloadPart: "success means the part file holds exactly the part" holds only without concurrency. After a failed attempt, `coroutine_retry` sleeps and starts a new `gather` while tasks of the old one may still be appending to the same chunk files. The new tasks read a file size the old tasks are still growing, so a chunk file can end up with bytes twice or out of order, and the part file inherits them. The model has no interleaving and does not capture this.
- AsyncStream.Stream.DownloadPart: when the part file is absent, requires every present chunk file to hold a prefix of its chunk, as `GatherChunks` does. A present part file is trusted with no requirement, as in the source.
- AsyncStream.Stream.DownloadChunk: requires the chunk file, when present, to hold a prefix of its chunk. The source appends to whatever it holds.
- AsyncStream.Stream.GatherParts: requires a consistent directory and no video file. Its only caller, `DownloadOnce`, establishes both.
- LegacyStream.Stream.GatherChunks: sequential in the same way.
- LegacyStream.Stream.Download: the same race. A failed `gather` at `udemy-dl.py:293` leaves its other chunk tasks running while `download` retries at line 282, so "a finished video equals the stream" holds only without concurrency.
- LegacyStream.Stream.FetchChunk: retries as if the failed attempt's file were closed first, so the retry sees every byte received. The source awaits the retry inside the still-open buffered handle (`udemy-dl.py:338-352`). `LegacyStream.BufferedFetch` models that, and "## Findings" shows the duplicated tail it can leave.
- LegacyStream.Stream.Download: the unbounded recursion is cut off by a `fuel` bound, reported as `Unfinished`. Python's own recursion limit is not modelled.
- Curriculum.ChooseStream: labels are taken as integers already. The `ValueError` of `int(label)` on a non-numeric label is not modelled.
- Sleep durations are recorded but no time passes. Logging and `print` output are left out.
- Caption, article and external-link downloads are left out. They only write fetched or constant text.
- Left out as well: argument parsing, `get_output_directory` (`os.getcwd`, `realpath`, `expanduser`), `entry` and `main`, and the JSON fetching around the grouping and the course lookup.
- `Cookies.IsSpace` lists the characters Python's `str.isspace` accepts; no other Unicode processing is involved.

## Findings

| source | as written | input that shows it | evidently intended | confidence | as-written member | corrected member |
|---|---|---|---|---|---|---|
| udemy-dl.py:328 | Chunk `b` of part `a` is named `temp_file_path + str(a + 1) + str(b + 1)`, and part `p` is named `temp_file_path + str(p + 1)` (line 287). | Chunk 0 of part 0 and part index 10 are both `<temp>11`. A stream of more than 52,428,800 bytes has eleven parts, so the two names collide. If a run stops after part 0 is concatenated but before its chunks are removed, the leftover chunk is taken as part 10 complete. With eleven full parts (57,671,680 bytes or more) part 10 is longer than the chunk, so the video receives the wrong bytes. | Names that separate the two indices, as the newer downloader does with `.chunk`. | high, not executed | Naming.LegacyPartChunkCollision | Naming.ChunkNameIsNotPartName |
| udemy-dl.py:278-284 | On an error, `download` sleeps and calls `self.download(session)`, so `retry` is back at its default of 5 on every retry. | A server that keeps cutting every connection: with `retry = 5` the download is retried forever (until Python's recursion limit) and never re-raises. | Pass `retry - 1`, as `_download_part` does at line 352, so at most `retry + 1` attempts are made before the error is re-raised. | high, not executed | LegacyStream.Stream.Download | LegacyStream.Stream.DownloadWithCountdown |
| udemy-dl.py:338-352 | The retry `await self._download_part(..., retry - 1)` runs inside the `with open(part_temp_path, 'ab')` block of the failed attempt, whose writes may still be buffered (`f.flush()` is commented out at line 347). | A chunk of four bytes and no chunk file. The first connection drops after two bytes still held in the buffer. The retry reads size 0, asks for the whole chunk and gets it. The outer handle then closes and appends the two buffered bytes: the chunk file holds six bytes, and `download_part` copies them into the part. | Close the file before retrying, as the newer downloader does by retrying the whole `download_chunk` through `coroutine_retry`. | medium, not executed | LegacyStream.BufferedRetryDuplicatesTail | LegacyStream.Stream.FetchChunk |

=== FILE: common.dfy ===
/** Small vocabulary shared by every other module: bytes, optional values,
    and a few sequence helpers. */
module Common {

  /** One octet of a file or of an HTTP body. */
  newtype byte = x: int | 0 <= x < 256

  datatype Option<+T> = None | Some(value: T)

  function Min(a: int, b: int): int
  {
    if a <= b then a else b
  }

  function Max(a: int, b: int): int
  {
    if a <= b then b else a
  }

  /** The concatenation of a list of byte strings, first to last. */
  function Flatten<T>(parts: seq<seq<T>>): (r: seq<T>)
  {
    if parts == [] then [] else Flatten(parts[..|parts| - 1]) + parts[|parts| - 1]
  }

  /** `n` copies of `x`. */
  function Repeat<T>(x: T, n: nat): (r: seq<T>)
    ensures |r| == n
    ensures forall i :: 0 <= i < n ==> r[i] == x
  {
    if n == 0 then [] else Repeat(x, n - 1) + [x]
  }

  /** `t` is `s` followed by nothing but copies of `x`. */
  ghost predicate GrownWith<T>(s: seq<T>, t: seq<T>, x: T)
  {
    s <= t && forall i :: |s| <= i < |t| ==> t[i] == x
  }

  lemma GrownWithTrans<T>(s: seq<T>, t: seq<T>, u: seq<T>, x: T)
    requires GrownWith(s, t, x) && GrownWith(t, u, x)
    ensures GrownWith(s, u, x)
  {
  }

  /** Growing a sequence only with copies of `x` leaves the number of
      occurrences of any other value as it was. */
  lemma OccurrencesKept<T>(s: seq<T>, t: seq<T>, x: T, y: T)
    requires GrownWith(s, t, x) && x != y
    ensures multiset(t)[y] == multiset(s)[y]
  {
    var tail := t[|s|..];
    assert t == s + tail;
    assert y !in tail;
  }

  /** The value a key maps to, or None: the same question `os.path.exists`
      followed by a read answers. */
  function Lookup<K, V>(m: map<K, V>, k: K): Option<V>
  {
    if k in m then Some(m[k]) else None
  }

  /** `m` and `m'` agree on every key outside `touched`. */
  ghost predicate AgreeOutside<K(!new), V>(m: map<K, V>, m': map<K, V>, touched: set<K>)
  {
    forall k :: k !in touched ==> Lookup(m, k) == Lookup(m', k)
  }
}

=== FILE: cookies.dfy ===
/** Reading the access token out of the text of a cookies file: the text
    is cut at ';', each item at its first '=', both halves are stripped of
    whitespace and collected in a dictionary, and the token is the value
    stored under `access_token`. */
module Cookies {
  import opened Common

  /** `s.split(sep)`: the pieces between the separators, in order; there is
      always at least one, and a separator at either end yields an empty
      piece there. */
  function Split(s: string, sep: char): (parts: seq<string>)
    ensures |parts| >= 1
  {
    if s == [] then [[]]
    else
      var rest := Split(s[1..], sep);
      if s[0] == sep then [[]] + rest else [[s[0]] + rest[0]] + rest[1..]
  }

  /** `sep.join(parts)` */
  function JoinWith(parts: seq<string>, sep: char): string
    requires |parts| >= 1
  {
    if |parts| == 1 then parts[0] else parts[0] + [sep] + JoinWith(parts[1..], sep)
  }

  /** Splitting loses nothing and leaves no separator inside a piece. */
  lemma {:induction false} SplitJoin(s: string, sep: char)
    ensures JoinWith(Split(s, sep), sep) == s
    ensures forall i :: 0 <= i < |Split(s, sep)| ==> sep !in Split(s, sep)[i]
    decreases |s|
  {
    if s != [] {
      SplitJoin(s[1..], sep);
      var rest := Split(s[1..], sep);
      if s[0] != sep {
        var parts := Split(s, sep);
        assert parts[1..] == rest[1..];
        if |rest| == 1 {
          assert JoinWith(parts, sep) == [s[0]] + rest[0];
        } else {
          assert JoinWith(rest, sep) == rest[0] + [sep] + JoinWith(rest[1..], sep);
        }
        assert s == [s[0]] + s[1..];
      }
    }
  }

  /** Splitting at a separator in the middle splits the two sides apart. */
  lemma {:induction false} SplitAppend(s: string, t: string, sep: char)
    requires sep !in s
    ensures Split(s + [sep] + t, sep) == [s] + Split(t, sep)
    decreases |s|
  {
    if s == [] {
      assert [] + [sep] + t == [sep] + t;
      assert ([sep] + t)[1..] == t;
    } else {
      SplitAppend(s[1..], t, sep);
      assert (s + [sep] + t)[1..] == s[1..] + [sep] + t;
      assert [s[0]] + s[1..] == s;
    }
  }

  /** Joining pieces that hold no separator and splitting again gives the
      pieces back. */
  lemma {:induction false} JoinSplit(parts: seq<string>, sep: char)
    requires |parts| >= 1 && forall i :: 0 <= i < |parts| ==> sep !in parts[i]
    ensures Split(JoinWith(parts, sep), sep) == parts
    decreases |parts|
  {
    if |parts| == 1 {
      SplitNoSeparator(parts[0], sep);
    } else {
      JoinSplit(parts[1..], sep);
      SplitAppend(parts[0], JoinWith(parts[1..], sep), sep);
    }
  }

  lemma {:induction false} SplitNoSeparator(s: string, sep: char)
    requires sep !in s
    ensures Split(s, sep) == [s]
    decreases |s|
  {
    if s != [] {
      SplitNoSeparator(s[1..], sep);
      assert [s[0]] + s[1..] == s;
    }
  }

  /** `item.split(sep, 1)` when it yields two halves: the text before the
      first separator and everything after it; `None` when there is no
      separator, where Python yields one half only. */
  function SplitOnce(item: string, sep: char): (r: Option<(string, string)>)
    ensures r.None? <==> sep !in item
    ensures r.Some? ==> item == r.value.0 + [sep] + r.value.1 && sep !in r.value.0
  {
    if item == [] then None
    else if item[0] == sep then Some(([], item[1..]))
    else match SplitOnce(item[1..], sep)
      case None => None
      case Some((k, v)) => Some(([item[0]] + k, v))
  }

  /** Python's `str.isspace` on one character. */
  predicate IsSpace(c: char)
  {
    || c == ' ' || ('\t' <= c <= '\r') || ('\U{1c}' <= c <= '\U{1f}')
    || c == '\U{85}' || c == '\U{a0}' || c == '\U{1680}' || ('\U{2000}' <= c <= '\U{200a}')
    || c == '\U{2028}' || c == '\U{2029}' || c == '\U{202f}' || c == '\U{205f}' || c == '\U{3000}'
  }

  function StripStart(s: string): string
  {
    if s != [] && IsSpace(s[0]) then StripStart(s[1..]) else s
  }

  function StripEnd(s: string): string
  {
    if s != [] && IsSpace(s[|s| - 1]) then StripEnd(s[..|s| - 1]) else s
  }

  /** `s.strip()` */
  function Strip(s: string): string
  {
    StripEnd(StripStart(s))
  }

  lemma {:induction false} StripStartSound(s: string) returns (i: nat)
    ensures i <= |s| && StripStart(s) == s[i..]
    ensures forall k :: 0 <= k < i ==> IsSpace(s[k])
    ensures i < |s| ==> !IsSpace(s[i])
    decreases |s|
  {
    if s != [] && IsSpace(s[0]) {
      var i' := StripStartSound(s[1..]);
      i := i' + 1;
      assert s[1..][i'..] == s[i..];
      assert forall k :: 1 <= k < i ==> s[k] == s[1..][k - 1];
    } else {
      i := 0;
    }
  }

  lemma {:induction false} StripEndSound(s: string) returns (j: nat)
    ensures j <= |s| && StripEnd(s) == s[..j]
    ensures forall k :: j <= k < |s| ==> IsSpace(s[k])
    ensures 0 < j ==> !IsSpace(s[j - 1])
    decreases |s|
  {
    if s != [] && IsSpace(s[|s| - 1]) {
      j := StripEndSound(s[..|s| - 1]);
      assert s[..|s| - 1][..j] == s[..j];
    } else {
      j := |s|;
    }
  }

  /** `strip` removes the longest whitespace prefix and suffix: the result
      is a slice of `s` with only whitespace around it, and it neither
      starts nor ends with whitespace. */
  lemma StripSound(s: string) returns (i: nat, j: nat)
    ensures i <= j <= |s| && Strip(s) == s[i..j]
    ensures forall k :: 0 <= k < i || j <= k < |s| ==> IsSpace(s[k])
    ensures i < j ==> !IsSpace(s[i]) && !IsSpace(s[j - 1])
  {
    i := StripStartSound(s);
    var t := s[i..];
    var j' := StripEndSound(t);
    j := i + j';
    assert t[..j'] == s[i..j];
    assert forall k :: j <= k < |s| ==> s[k] == t[k - i];
  }

  /** Stripping twice is stripping once. */
  lemma StripIdempotent(s: string)
    ensures Strip(Strip(s)) == Strip(s)
  {
    var i, j := StripSound(s);
    var t := Strip(s);
    var a, b := StripSound(t);
    if t != [] {
      assert !IsSpace(t[0]) && !IsSpace(t[|t| - 1]);
      assert a == 0 && b == |t|;
    }
  }

  /** `key.strip(), value.strip()` for an item cut at its first '='. */
  function Pair(item: string): (string, string)
    requires '=' in item
  {
    var (k, v) := SplitOnce(item, '=').value;
    (Strip(k), Strip(v))
  }

  /** The stripped (key, value) pairs of the items, or `None` when some
      item has no '=' (unpacking its single half raises `ValueError`). */
  function Pairs(items: seq<string>): (r: Option<seq<(string, string)>>)
    ensures r.None? <==> exists i :: 0 <= i < |items| && '=' !in items[i]
    ensures r.Some? ==> |r.value| == |items| && forall i :: 0 <= i < |items| ==> r.value[i] == Pair(items[i])
  {
    if items == [] then Some([])
    else
      var rest := Pairs(items[1..]);
      assert forall i :: 1 <= i < |items| ==> items[i] == items[1..][i - 1];
      if '=' !in items[0] || rest.None? then None
      else Some([Pair(items[0])] + rest.value)
  }

  /** The dictionary comprehension: later pairs overwrite earlier ones. */
  function ToMap(ps: seq<(string, string)>): map<string, string>
  {
    if ps == [] then map[]
    else ToMap(ps[..|ps| - 1])[ps[|ps| - 1].0 := ps[|ps| - 1].1]
  }

  /** A key is in the dictionary exactly when some pair carries it. */
  lemma {:induction false} KeyIn(ps: seq<(string, string)>, key: string)
    ensures key in ToMap(ps) <==> exists i :: 0 <= i < |ps| && ps[i].0 == key
    decreases |ps|
  {
    if ps != [] {
      var init := ps[..|ps| - 1];
      KeyIn(init, key);
      assert forall i :: 0 <= i < |init| ==> init[i] == ps[i];
    }
  }

  /** The key maps to the value of the last pair that carries it. */
  lemma {:induction false} LastPairWins(ps: seq<(string, string)>, key: string, i: nat)
    requires i < |ps| && ps[i].0 == key && forall j :: i < j < |ps| ==> ps[j].0 != key
    ensures key in ToMap(ps) && ToMap(ps)[key] == ps[i].1
    decreases |ps|
  {
    var n := |ps| - 1;
    if i < n {
      var init := ps[..n];
      assert forall j :: i < j < n ==> init[j] == ps[j];
      LastPairWins(init, key, i);
    }
  }

  /** The value under `access_token` in the dictionary built from the
      items; `None` stands for the `ValueError` of an item without '=' and
      for the `KeyError` of a missing `access_token`. */
  function Token(items: seq<string>): Option<string>
  {
    match Pairs(items)
    case None => None
    case Some(ps) =>
      var d := ToMap(ps);
      if "access_token" in d then Some(d["access_token"]) else None
  }

  /** `get_udemy_accss_token` on the text of the file. */
  function AccessToken(text: string): Option<string>
  {
    Token(Split(text, ';'))
  }

  /** The token is the stripped value of the last item whose stripped key
      is `access_token`; there is none exactly when some item lacks '=' or
      no key is `access_token`. */
  lemma TokenSound(items: seq<string>)
    ensures Token(items).None? <==>
      (exists i :: 0 <= i < |items| && '=' !in items[i]) ||
      (forall i :: 0 <= i < |items| ==> Pair(items[i]).0 != "access_token")
    ensures (forall i :: 0 <= i < |items| ==> '=' in items[i]) ==>
      forall i :: (0 <= i < |items| && Pair(items[i]).0 == "access_token" &&
        (forall j :: i < j < |items| ==> Pair(items[j]).0 != "access_token")) ==>
          Token(items) == Some(Pair(items[i]).1)
  {
    var r := Pairs(items);
    if r.Some? {
      var ps := r.value;
      var key := "access_token";
      KeyIn(ps, key);
      assert forall i :: 0 <= i < |items| ==> (Pair(items[i]).0 == key <==> ps[i].0 == key);
      forall i | 0 <= i < |items| && Pair(items[i]).0 == key && (forall j :: i < j < |items| ==> Pair(items[j]).0 != key)
        ensures Token(items) == Some(Pair(items[i]).1)
      {
        LastPairWins(ps, key, i);
      }
    }
  }

  /** A trailing ';' leaves an empty last item, which has no '=': the file
      is rejected whatever it holds. */
  lemma TrailingSemicolonRejected(text: string)
    ensures AccessToken(text + ";") == None
  {
    SplitTrailing(text, ';');
    var items := Split(text + ";", ';');
    assert '=' !in items[|items| - 1];
  }

  /** Splitting text that ends with the separator ends with an empty piece. */
  lemma {:induction false} SplitTrailing(s: string, sep: char)
    ensures var parts := Split(s + [sep], sep); |parts| >= 2 && parts[|parts| - 1] == []
    decreases |s|
  {
    if s == [] {
      assert [] + [sep] == [sep] && [sep][1..] == [];
    } else {
      SplitTrailing(s[1..], sep);
      assert (s + [sep])[1..] == s[1..] + [sep];
    }
  }
}

=== FILE: curriculum.dfy ===
/** The course side of both downloaders: the flat list of curriculum items
    grouped into chapters, the window of chapters or lectures asked for on
    the command line, the stream picked for a video, and the course found by
    its published title. */
module Curriculum {
  import opened Common

  // ---------------------------------------------------------------------
  // Grouping

  /** One element of the curriculum listing; `kind` is its `_class`. */
  datatype Entry = Entry(kind: string, title: string)

  predicate IsChapter(e: Entry)
  {
    e.kind == "chapter"
  }

  predicate IsLecture(e: Entry)
  {
    e.kind == "lecture"
  }

  /** The chapters and lectures of `rs` in order; every other kind of item
      is ignored. */
  function Kept(rs: seq<Entry>): seq<Entry>
  {
    if rs == [] then []
    else Kept(rs[..|rs| - 1]) + (if IsChapter(rs[|rs| - 1]) || IsLecture(rs[|rs| - 1]) then [rs[|rs| - 1]] else [])
  }

  /** Some lecture comes before any chapter. */
  ghost predicate LectureBeforeChapter(rs: seq<Entry>)
  {
    exists i :: 0 <= i < |rs| && IsLecture(rs[i]) && forall j :: 0 <= j < i ==> !IsChapter(rs[j])
  }

  /** Groups as `chapters_and_lectures` holds them: none is empty, every
      group after the first starts with a chapter, and everything after a
      group's head is a lecture. */
  ghost predicate Shaped(gs: seq<seq<Entry>>)
  {
    forall i :: 0 <= i < |gs| ==> Group(gs[i], i == 0)
  }

  /** A nonempty group whose head is a chapter (unless it is the first
      group) and whose other entries are lectures. */
  ghost predicate Group(g: seq<Entry>, first: bool)
  {
    |g| >= 1 && (!first ==> IsChapter(g[0])) && forall j :: 1 <= j < |g| ==> IsLecture(g[j])
  }

  /** A grouping into chapters: shaped, and the first group too starts with
      a chapter. */
  ghost predicate Grouping(gs: seq<seq<Entry>>)
  {
    Shaped(gs) && (gs != [] ==> IsChapter(gs[0][0]))
  }

  lemma FlattenAppend<T>(gs: seq<seq<T>>, g: seq<T>)
    ensures Flatten(gs + [g]) == Flatten(gs) + g
  {
    assert (gs + [g])[..|gs|] == gs;
  }

  lemma FlattenExtendLast<T>(gs: seq<seq<T>>, x: T)
    requires gs != []
    ensures Flatten(gs[..|gs| - 1] + [gs[|gs| - 1] + [x]]) == Flatten(gs) + [x]
  {
    FlattenAppend(gs[..|gs| - 1], gs[|gs| - 1] + [x]);
  }

  /** Some chapter occurs in `rs`. */
  predicate HasChapter(rs: seq<Entry>)
  {
    rs != [] && (HasChapter(rs[..|rs| - 1]) || IsChapter(rs[|rs| - 1]))
  }

  /** Some lecture occurs before any chapter, read from the end of `rs`. */
  predicate Orphan(rs: seq<Entry>)
  {
    rs != [] && (Orphan(rs[..|rs| - 1]) || (IsLecture(rs[|rs| - 1]) && !HasChapter(rs[..|rs| - 1])))
  }

  lemma {:induction false} HasChapterMeans(rs: seq<Entry>)
    ensures HasChapter(rs) <==> exists j :: 0 <= j < |rs| && IsChapter(rs[j])
    decreases |rs|
  {
    if rs != [] {
      var init := rs[..|rs| - 1];
      HasChapterMeans(init);
      assert forall j :: 0 <= j < |init| ==> init[j] == rs[j];
    }
  }

  /** The recursive reading of a leading lecture is the plain one. */
  lemma {:induction false} OrphanMeans(rs: seq<Entry>)
    ensures Orphan(rs) <==> LectureBeforeChapter(rs)
    decreases |rs|
  {
    if rs != [] {
      var n := |rs| - 1;
      var init := rs[..n];
      OrphanMeans(init);
      HasChapterMeans(init);
      assert forall j :: 0 <= j < |init| ==> init[j] == rs[j];
      if LectureBeforeChapter(rs) {
        var i :| 0 <= i < |rs| && IsLecture(rs[i]) && forall j :: 0 <= j < i ==> !IsChapter(rs[j]);
        if i < n {
          assert IsLecture(init[i]);
        }
      }
      if Orphan(init) {
        var i :| 0 <= i < |init| && IsLecture(init[i]) && forall j :: 0 <= j < i ==> !IsChapter(init[j]);
        assert IsLecture(rs[i]);
      }
    }
  }

  /** The loop of `fill_course_chapters_and_lectures` (and the `reduce`
      callback of `get_course_detail`) run over `rs` on top of `groups`: a
      chapter opens a new group, a lecture joins the last group, anything
      else is skipped.  A lecture arriving while there is no group at all
      makes `chapters_and_lectures[-1]` raise `IndexError`, reported as
      `None`. */
  method Extend(groups: seq<seq<Entry>>, rs: seq<Entry>) returns (r: Option<seq<seq<Entry>>>)
    requires Shaped(groups)
    ensures r.None? <==> groups == [] && Orphan(rs)
    ensures r.Some? ==> Shaped(r.value) && Flatten(r.value) == Flatten(groups) + Kept(rs)
    ensures r.Some? && groups != [] ==> |r.value| >= |groups| && r.value[0][0] == groups[0][0]
    ensures r.Some? && groups == [] && r.value != [] ==> IsChapter(r.value[0][0])
  {
    var gs := groups;
    var i := 0;
    while i < |rs|
      invariant 0 <= i <= |rs|
      invariant Progress(groups, rs[..i], gs)
    {
      var next := Place(gs, rs[i]);
      if next.None? {
        PrefixStep(rs, i);
        OrphanPrefix(rs, i + 1);
        return None;
      }
      ProgressStep(groups, rs, i, gs, next.value);
      gs := next.value;
      i := i + 1;
    }
    assert rs[..i] == rs;
    return Some(gs);
  }

  /** What `Extend` promises about the groups `gs` built on top of `groups`
      from the entries `rs`. */
  ghost predicate Progress(groups: seq<seq<Entry>>, rs: seq<Entry>, gs: seq<seq<Entry>>)
  {
    && Shaped(groups) && Shaped(gs) && Flatten(gs) == Flatten(groups) + Kept(rs)
    && (groups != [] ==> |gs| >= |groups| && gs[0][0] == groups[0][0])
    && (groups == [] ==> !Orphan(rs) && (gs == [] <==> !HasChapter(rs)))
    && (groups == [] && gs != [] ==> IsChapter(gs[0][0]))
  }

  /** What one turn of the loop does to the groups. */
  ghost predicate Placed(gs: seq<seq<Entry>>, e: Entry, gs': seq<seq<Entry>>)
  {
    && Shaped(gs) && Shaped(gs') && Flatten(gs') == Flatten(gs) + (if IsChapter(e) || IsLecture(e) then [e] else [])
    && (gs != [] ==> |gs'| >= |gs| && gs'[0][0] == gs[0][0])
    && (gs == [] ==> (gs' == [] <==> !IsChapter(e)) && (gs' != [] ==> IsChapter(gs'[0][0])))
  }

  lemma ProgressStep(groups: seq<seq<Entry>>, rs: seq<Entry>, i: nat, gs: seq<seq<Entry>>, gs': seq<seq<Entry>>)
    requires i < |rs| && Progress(groups, rs[..i], gs) && Placed(gs, rs[i], gs')
    requires gs == [] ==> !IsLecture(rs[i]) || IsChapter(rs[i])
    ensures Progress(groups, rs[..i + 1], gs')
  {
    PrefixStep(rs, i);
    var x := if IsChapter(rs[i]) || IsLecture(rs[i]) then [rs[i]] else [];
    assert Flatten(groups) + Kept(rs[..i + 1]) == Flatten(groups) + Kept(rs[..i]) + x;
  }

  /** One turn of the loop: a chapter opens a new group, a lecture joins
      the last one (`None` when there is none yet), anything else is
      skipped. */
  method Place(gs: seq<seq<Entry>>, e: Entry) returns (r: Option<seq<seq<Entry>>>)
    requires Shaped(gs)
    ensures r.None? <==> gs == [] && IsLecture(e) && !IsChapter(e)
    ensures r.Some? ==> Placed(gs, e, r.value)
  {
    if IsChapter(e) {
      AddChapter(gs, e);
      return Some(gs + [[e]]);
    } else if IsLecture(e) {
      if gs == [] {
        return None;
      }
      AddLecture(gs, e);
      return Some(gs[..|gs| - 1] + [gs[|gs| - 1] + [e]]);
    }
    assert gs + [] == gs;
    return Some(gs);
  }

  /** How the prefix summaries grow by one entry. */
  lemma PrefixStep(rs: seq<Entry>, i: nat)
    requires i < |rs|
    ensures Kept(rs[..i + 1]) == Kept(rs[..i]) + (if IsChapter(rs[i]) || IsLecture(rs[i]) then [rs[i]] else [])
    ensures HasChapter(rs[..i + 1]) == (HasChapter(rs[..i]) || IsChapter(rs[i]))
    ensures Orphan(rs[..i + 1]) == (Orphan(rs[..i]) || (IsLecture(rs[i]) && !HasChapter(rs[..i])))
  {
    assert rs[..i + 1][..i] == rs[..i] && rs[..i + 1][i] == rs[i];
  }

  /** A chapter opens a new group. */
  lemma AddChapter(gs: seq<seq<Entry>>, e: Entry)
    requires Shaped(gs) && IsChapter(e)
    ensures Shaped(gs + [[e]]) && Flatten(gs + [[e]]) == Flatten(gs) + [e]
    ensures (gs + [[e]])[0][0] == if gs == [] then e else gs[0][0]
  {
    FlattenAppend(gs, [e]);
  }

  /** A lecture joins the last group. */
  lemma AddLecture(gs: seq<seq<Entry>>, e: Entry)
    requires Shaped(gs) && gs != [] && IsLecture(e)
    ensures var gs' := gs[..|gs| - 1] + [gs[|gs| - 1] + [e]];
      Shaped(gs') && Flatten(gs') == Flatten(gs) + [e] && |gs'| == |gs| && gs'[0][0] == gs[0][0]
  {
    var n := |gs| - 1;
    var g := gs[n] + [e];
    var gs' := gs[..n] + [g];
    assert Group(gs[n], n == 0);
    assert Group(g, n == 0) by {
      assert g[0] == gs[n][0];
      assert forall j :: 1 <= j < |gs[n]| ==> g[j] == gs[n][j];
    }
    forall i | 0 <= i < |gs'|
      ensures Group(gs'[i], i == 0)
    {
      if i < n {
        assert gs'[i] == gs[i];
      }
    }
    FlattenExtendLast(gs, e);
  }

  /** A leading lecture in a prefix is one in the whole listing. */
  lemma {:induction false} OrphanPrefix(rs: seq<Entry>, k: nat)
    requires k <= |rs| && Orphan(rs[..k])
    ensures Orphan(rs)
    decreases |rs| - k
  {
    if k < |rs| {
      assert rs[..k + 1][..k] == rs[..k];
      OrphanPrefix(rs, k + 1);
    } else {
      assert rs[..k] == rs;
    }
  }

  /** `fill_course_chapters_and_lectures`: the items grouped into chapters,
      each chapter followed by its lectures, or `None` when a lecture comes
      before every chapter. */
  method GroupChapters(resources: seq<Entry>) returns (r: Option<seq<seq<Entry>>>)
    ensures r.None? <==> LectureBeforeChapter(resources)
    ensures r.Some? ==> Grouping(r.value) && Flatten(r.value) == Kept(resources)
  {
    r := Extend([], resources);
    OrphanMeans(resources);
  }

  /** `get_course_detail` of the older downloader: `resources[0]` heads the
      first group whatever its kind (an empty listing raises `IndexError`,
      reported as `None`), and the `reduce` over the rest groups as above,
      so a leading lecture is never an error. */
  method LegacyGroupChapters(resources: seq<Entry>) returns (r: Option<seq<seq<Entry>>>)
    ensures r.None? <==> resources == []
    ensures r.Some? ==> Shaped(r.value) && r.value != [] && r.value[0][0] == resources[0]
    ensures r.Some? ==> Flatten(r.value) == [resources[0]] + Kept(resources[1..])
  {
    if resources == [] {
      return None;
    }
    var first := [[resources[0]]];
    assert Flatten(first) == [resources[0]] by {
      FlattenAppend([], [resources[0]]);
    }
    r := Extend(first, resources[1..]);
  }

  lemma FlattenEmpty<T>(gs: seq<seq<T>>)
    requires forall i :: 0 <= i < |gs| ==> |gs[i]| >= 1
    ensures Flatten(gs) == [] <==> gs == []
  {
    if gs != [] {
      assert |gs[|gs| - 1]| >= 1;
    }
  }

  /** A grouping is determined by the entries it holds: the groups start
      exactly at the chapters.  So the contract of `GroupChapters` fixes
      its result completely. */
  lemma {:induction false} GroupingUnique(gs: seq<seq<Entry>>, hs: seq<seq<Entry>>)
    requires Grouping(gs) && Grouping(hs) && Flatten(gs) == Flatten(hs)
    ensures gs == hs
    decreases |gs|
  {
    FlattenEmpty(gs);
    FlattenEmpty(hs);
    if gs != [] && hs != [] {
      var g, h := gs[|gs| - 1], hs[|hs| - 1];
      var gs', hs' := gs[..|gs| - 1], hs[..|hs| - 1];
      var f := Flatten(gs);
      assert f == Flatten(gs') + g && f == Flatten(hs') + h;
      assert g == f[|f| - |g|..] && h == f[|f| - |h|..];
      LastGroupsAgree(g, h, f);
      assert Flatten(gs') == Flatten(hs') by {
        assert Flatten(gs') == f[..|f| - |g|];
        assert Flatten(hs') == f[..|f| - |h|];
      }
      GroupingUnique(gs', hs');
      assert gs == gs' + [g] && hs == hs' + [h];
    }
  }

  /** Two suffixes of `f` that each start with a chapter followed only by
      lectures are the same suffix. */
  lemma LastGroupsAgree(g: seq<Entry>, h: seq<Entry>, f: seq<Entry>)
    requires |g| >= 1 && IsChapter(g[0]) && forall j :: 1 <= j < |g| ==> IsLecture(g[j])
    requires |h| >= 1 && IsChapter(h[0]) && forall j :: 1 <= j < |h| ==> IsLecture(h[j])
    requires |g| <= |f| && |h| <= |f| && g == f[|f| - |g|..] && h == f[|f| - |h|..]
    ensures g == h
  {
  }

  /** Kept items of a listing that starts with a chapter. */
  lemma {:induction false} KeptCons(rs: seq<Entry>)
    requires rs != [] && IsChapter(rs[0])
    ensures Kept(rs) == [rs[0]] + Kept(rs[1..])
    decreases |rs|
  {
    if |rs| > 1 {
      var init := rs[..|rs| - 1];
      KeptCons(init);
      assert init[1..] == rs[1..][..|rs[1..]| - 1];
    } else {
      assert rs[..0] == [] && rs[1..] == [];
    }
  }

  /** When the listing starts with a chapter, the older grouping meets the
      newer one's contract, so by `GroupingUnique` the two agree. */
  lemma LegacyAgreesWhenChapterFirst(resources: seq<Entry>, gs: seq<seq<Entry>>)
    requires resources != [] && IsChapter(resources[0])
    requires Shaped(gs) && gs != [] && gs[0][0] == resources[0]
    requires Flatten(gs) == [resources[0]] + Kept(resources[1..])
    ensures Grouping(gs) && Flatten(gs) == Kept(resources)
    ensures !LectureBeforeChapter(resources)
  {
    KeptCons(resources);
    assert forall i :: 0 <= i < |resources| && IsLecture(resources[i]) ==> i > 0;
  }

  // ---------------------------------------------------------------------
  // Windows

  /** Where a Python slice bound `i` lands in a list of length `n`: a
      negative bound counts from the end, and either kind is clamped to the
      list. */
  function SliceIndex(i: int, n: nat): (k: nat)
    ensures k <= n
    ensures 0 <= i <= n ==> k == i
  {
    if i < 0 then (if i + n < 0 then 0 else i + n) else if i > n then n else i
  }

  /** `xs[a:b]` with Python's rules. */
  function Slice<T>(xs: seq<T>, a: int, b: int): seq<T>
  {
    var lo, hi := SliceIndex(a, |xs|), SliceIndex(b, |xs|);
    if lo < hi then xs[lo..hi] else []
  }

  /** The 0-based inclusive bounds `download` computes from the 1-based
      options: `one` (`chapter` or `lecture`) overrides both bounds, a
      missing start is the first element and a missing end the last. */
  function Bounds(n: nat, one: Option<int>, first: Option<int>, last: Option<int>): (int, int)
  {
    var lo := if one.Some? then one.value - 1 else if first.None? then 0 else first.value - 1;
    var hi := if one.Some? then one.value - 1 else if last.None? then n - 1 else last.value - 1;
    (lo, hi)
  }

  /** The chapters (or lectures) `download` hands on: `xs[lo:hi + 1]`. */
  function Window<T>(xs: seq<T>, one: Option<int>, first: Option<int>, last: Option<int>): seq<T>
  {
    var (lo, hi) := Bounds(|xs|, one, first, last);
    Slice(xs, lo, hi + 1)
  }

  /** The older downloader's window has only the two bounds. */
  function LegacyWindow<T>(xs: seq<T>, first: Option<int>, last: Option<int>): seq<T>
  {
    var lo := if first.None? then 0 else first.value - 1;
    var hi := if last.None? then |xs| - 1 else last.value - 1;
    Slice(xs, lo, hi + 1)
  }

  /** `chapter = n` (or `lecture = n`) picks element `n - 1` alone when `n`
      is a valid 1-based position, and nothing for 0 or past the end. */
  lemma WindowOne<T>(xs: seq<T>, n: int, first: Option<int>, last: Option<int>)
    ensures 1 <= n <= |xs| ==> Window(xs, Some(n), first, last) == [xs[n - 1]]
    ensures n == 0 || n > |xs| ==> Window(xs, Some(n), first, last) == []
  {
    if n == 0 && |xs| > 0 {
      assert SliceIndex(-1, |xs|) == |xs| - 1;
    }
  }

  /** With no option at all, every element is selected. */
  lemma WindowAll<T>(xs: seq<T>)
    ensures Window(xs, None, None, None) == xs
  {
  }

  /** Both bounds given: the 1-based inclusive range `s..e`, empty when
      `e < s`. */
  lemma WindowRange<T>(xs: seq<T>, s: int, e: int)
    requires 1 <= s && 0 <= e <= |xs|
    ensures Window(xs, None, Some(s), Some(e)) == if s <= e then xs[s - 1 .. e] else []
  {
  }

  /** Only the start given: everything from the 1-based position `s` on. */
  lemma WindowFrom<T>(xs: seq<T>, s: int)
    requires 1 <= s <= |xs| + 1
    ensures Window(xs, None, Some(s), None) == xs[s - 1 ..]
  {
  }

  /** Only the end given: everything up to the 1-based position `e`. */
  lemma WindowUpTo<T>(xs: seq<T>, e: int)
    requires 0 <= e <= |xs|
    ensures Window(xs, None, None, Some(e)) == xs[..e]
  {
  }

  /** The window is always one contiguous run of the list, in order. */
  lemma WindowContiguous<T>(xs: seq<T>, one: Option<int>, first: Option<int>, last: Option<int>) returns (lo: nat, hi: nat)
    ensures lo <= hi <= |xs| && Window(xs, one, first, last) == xs[lo..hi]
  {
    var (a, b) := Bounds(|xs|, one, first, last);
    lo, hi := SliceIndex(a, |xs|), SliceIndex(b + 1, |xs|);
    if hi <= lo {
      hi := lo;
    }
  }

  /** The older window is the newer one without the override. */
  lemma LegacyWindowSelects<T>(xs: seq<T>, first: Option<int>, last: Option<int>)
    ensures LegacyWindow(xs, first, last) == Window(xs, None, first, last)
  {
  }

  // ---------------------------------------------------------------------
  // Stream choice

  /** A stream of a video: its content type and its label (the height,
      already read as an integer). */
  datatype StreamInfo = StreamInfo(mimeType: string, height: int)

  /** Python's `sub in s` on strings. */
  predicate Contains(s: string, sub: string)
  {
    sub <= s || (s != [] && Contains(s[1..], sub))
  }

  /** An HLS playlist, which the downloader cannot fetch in ranges. */
  predicate IsHls(s: StreamInfo)
  {
    Contains(s.mimeType, "x-mpegURL")
  }

  /** The position of the stream `max([s for s in streams if 'x-mpegURL'
      not in s.type], key=int(label))` returns: the first non-HLS stream
      with the highest label, or `None` when there is no non-HLS stream. */
  function Best(streams: seq<StreamInfo>): (r: Option<nat>)
    ensures r.None? <==> forall j :: 0 <= j < |streams| ==> IsHls(streams[j])
    ensures r.Some? ==> r.value < |streams| && !IsHls(streams[r.value])
    ensures r.Some? ==> forall j :: 0 <= j < |streams| && !IsHls(streams[j]) ==> streams[j].height <= streams[r.value].height
    ensures r.Some? ==> forall j :: 0 <= j < r.value && !IsHls(streams[j]) ==> streams[j].height < streams[r.value].height
  {
    if streams == [] then None
    else
      var n := |streams| - 1;
      var b := Best(streams[..n]);
      if IsHls(streams[n]) then b
      else if b.None? || streams[n].height > streams[b.value].height then Some(n)
      else b
  }

  /** `UdemyAssetVideo.download`'s choice; `None` stands for the
      `ValueError` that `max` raises on an empty list. */
  function ChooseStream(streams: seq<StreamInfo>): (r: Option<StreamInfo>)
    ensures r.None? <==> forall j :: 0 <= j < |streams| ==> IsHls(streams[j])
    ensures r.Some? ==> r.value in streams && !IsHls(r.value)
    ensures r.Some? ==> forall s :: s in streams && !IsHls(s) ==> s.height <= r.value.height
  {
    match Best(streams)
    case None => None
    case Some(i) => Some(streams[i])
  }

  // ---------------------------------------------------------------------
  // Course lookup

  /** What the subscribed-courses listing says about a course. */
  datatype CourseInfo = CourseInfo(id: int, url: string, publishedTitle: string)

  /** `get_udemy_course_info_by_course_name`'s search: the position of the
      first course whose `published_title` is `name`, or `None`. */
  function FindCourse(infos: seq<CourseInfo>, name: string): (r: Option<nat>)
    ensures r.None? <==> forall i :: 0 <= i < |infos| ==> infos[i].publishedTitle != name
    ensures r.Some? ==> r.value < |infos| && infos[r.value].publishedTitle == name
    ensures r.Some? ==> forall i :: 0 <= i < r.value ==> infos[i].publishedTitle != name
  {
    if infos == [] then None
    else if infos[0].publishedTitle == name then Some(0)
    else match FindCourse(infos[1..], name)
      case None => None
      case Some(k) => Some(k + 1)
  }

  /** The course itself, as the search returns it. */
  function CourseByName(infos: seq<CourseInfo>, name: string): (r: Option<CourseInfo>)
    ensures r.Some? ==> r.value in infos && r.value.publishedTitle == name
    ensures r.None? <==> forall c :: c in infos ==> c.publishedTitle != name
  {
    match FindCourse(infos, name)
    case None => None
    case Some(i) => Some(infos[i])
  }
}

=== FILE: files.dfy ===
/** The outside world both downloaders touch: a directory of files and an
    HTTP server holding one resource that answers byte-range requests. */
module Files {
  import opened Common

  // ---------------------------------------------------------------------
  // Files

  /** What the audit trail of the file system remembers: the contents of a
      file were appended to another (`dst.write(open(src, 'rb').read())`),
      or a file was removed (`os.remove`). */
  datatype Event = Copied(src: string, dst: string) | Removed(path: string)

  /** Some event before position `i` copied the file `path` somewhere. */
  ghost predicate CopiedBefore(log: seq<Event>, i: int, path: string)
  {
    exists j :: 0 <= j < i && j < |log| && log[j].Copied? && log[j].src == path
  }

  /** No file was removed unless its contents had been copied earlier. */
  ghost predicate CopiedBeforeRemoved(log: seq<Event>)
  {
    forall i :: 0 <= i < |log| && log[i].Removed? ==> CopiedBefore(log, i, log[i].path)
  }

  lemma CopiedBeforeGrows(log: seq<Event>, more: seq<Event>, i: int, path: string)
    requires CopiedBefore(log, i, path)
    ensures CopiedBefore(log + more, i, path)
    ensures CopiedBefore(log, i + |more|, path)
  {
    var j :| 0 <= j < i && j < |log| && log[j].Copied? && log[j].src == path;
    assert (log + more)[j] == log[j];
  }

  /** Appending a copy, or the removal of a file copied before, keeps the
      trail in order. */
  lemma CopiedBeforeRemovedStep(log: seq<Event>, e: Event)
    requires CopiedBeforeRemoved(log)
    requires e.Removed? ==> CopiedBefore(log, |log|, e.path)
    ensures CopiedBeforeRemoved(log + [e])
  {
    var log' := log + [e];
    forall i | 0 <= i < |log'| && log'[i].Removed?
      ensures CopiedBefore(log', i, log'[i].path)
    {
      if i < |log| {
        assert log'[i] == log[i];
        CopiedBeforeGrows(log, [e], i, log[i].path);
      } else {
        CopiedBeforeGrows(log, [e], |log|, e.path);
      }
    }
  }

  /** The trail left by appending the files `srcs` to `dst`, in order. */
  function CopyAll(srcs: seq<string>, dst: string): seq<Event>
  {
    if srcs == [] then [] else CopyAll(srcs[..|srcs| - 1], dst) + [Copied(srcs[|srcs| - 1], dst)]
  }

  /** The trail left by removing the files `paths`, in order. */
  function RemoveAll(paths: seq<string>): seq<Event>
  {
    if paths == [] then [] else RemoveAll(paths[..|paths| - 1]) + [Removed(paths[|paths| - 1])]
  }

  lemma {:induction false} CopyAllAt(srcs: seq<string>, dst: string)
    ensures |CopyAll(srcs, dst)| == |srcs|
    ensures forall k :: 0 <= k < |srcs| ==> CopyAll(srcs, dst)[k] == Copied(srcs[k], dst)
  {
    if srcs != [] {
      CopyAllAt(srcs[..|srcs| - 1], dst);
    }
  }

  lemma {:induction false} RemoveAllAt(paths: seq<string>)
    ensures |RemoveAll(paths)| == |paths|
    ensures forall k :: 0 <= k < |paths| ==> RemoveAll(paths)[k] == Removed(paths[k])
  {
    if paths != [] {
      RemoveAllAt(paths[..|paths| - 1]);
    }
  }

  /** Appending every temporary file to its destination and only then
      removing them all never removes a file whose contents were not copied. */
  lemma CopyThenRemove(log: seq<Event>, srcs: seq<string>, dst: string)
    requires CopiedBeforeRemoved(log)
    ensures CopiedBeforeRemoved(log + CopyAll(srcs, dst) + RemoveAll(srcs))
  {
    CopyAllAt(srcs, dst);
    RemoveAllAt(srcs);
    var full := log + CopyAll(srcs, dst) + RemoveAll(srcs);
    var n := |srcs|;
    forall i | 0 <= i < |full| && full[i].Removed?
      ensures CopiedBefore(full, i, full[i].path)
    {
      if i < |log| {
        assert full[i] == log[i];
        CopiedBeforeGrows(log, CopyAll(srcs, dst) + RemoveAll(srcs), i, log[i].path);
        assert log + (CopyAll(srcs, dst) + RemoveAll(srcs)) == full;
      } else {
        assert i >= |log| + n;
        var k := i - |log| - n;
        assert full[i] == Removed(srcs[k]);
        assert full[|log| + k] == Copied(srcs[k], dst);
      }
    }
  }

  /** The contents of the files `srcs` one after another, as appending them
      in order produces it (a missing file contributes nothing). */
  function Concatenation(files: map<string, seq<byte>>, srcs: seq<string>): seq<byte>
  {
    if srcs == [] then []
    else Concatenation(files, srcs[..|srcs| - 1]) + (if srcs[|srcs| - 1] in files then files[srcs[|srcs| - 1]] else [])
  }

  /** The directory the downloader works in: file name to contents. */
  class FileSystem {
    var files: map<string, seq<byte>>
    /** Copies and removals so far, oldest first. */
    ghost var log: seq<Event>

    constructor (initial: map<string, seq<byte>>)
      ensures files == initial && log == []
    {
      files := initial;
      log := [];
    }

    /** `os.path.exists(path)` */
    predicate Exists(path: string)
      reads this
    {
      path in files
    }

    /** `os.stat(path).st_size` */
    function Size(path: string): (n: nat)
      reads this
      requires Exists(path)
      ensures n == |files[path]|
    {
      |files[path]|
    }

    /** `open(path, 'ab')`: creates an empty file when there is none, and
        never truncates one that exists. */
    method Open(path: string)
      modifies this
      ensures files == if path in old(files) then old(files) else old(files)[path := []]
      ensures log == old(log)
    {
      if path !in files {
        files := files[path := []];
      }
    }

    /** `f.write(data)` on a file opened for appending. */
    method Write(path: string, data: seq<byte>)
      requires path in files
      modifies this
      ensures files == old(files)[path := old(files)[path] + data]
      ensures log == old(log)
    {
      files := files[path := files[path] + data];
    }

    /** `with open(src, 'rb') as s: dst.write(s.read())` on a destination
        opened for appending; opening a missing source raises
        `FileNotFoundError`, reported here as `ok == false`. */
    method AppendFrom(dst: string, src: string) returns (ok: bool)
      requires dst in files
      modifies this
      ensures ok <==> src in old(files)
      ensures ok ==> files == old(files)[dst := old(files)[dst] + old(files)[src]]
      ensures ok ==> log == old(log) + [Copied(src, dst)]
      ensures !ok ==> files == old(files) && log == old(log)
    {
      ok := src in files;
      if ok {
        files := files[dst := files[dst] + files[src]];
        log := log + [Copied(src, dst)];
      }
    }

    /** `with open(dst, 'ab') as f:` followed by appending every file of
        `srcs`, in order. */
    method Concatenate(dst: string, srcs: seq<string>)
      requires Sources(files, srcs, dst)
      modifies this
      ensures files == old(files)[dst := (if dst in old(files) then old(files)[dst] else []) + Concatenation(old(files), srcs)]
      ensures log == old(log) + CopyAll(srcs, dst)
    {
      Open(dst);
      ghost var start := files[dst];
      assert files == old(files)[dst := start] by {
        if dst in old(files) {
          assert old(files)[dst := old(files)[dst]] == old(files);
        }
      }
      assert srcs[..0] == [] && start + [] == start;
      var i := 0;
      while i < |srcs|
        invariant 0 <= i <= |srcs|
        invariant files == old(files)[dst := start + Concatenation(old(files), srcs[..i])]
        invariant log == old(log) + CopyAll(srcs[..i], dst)
      {
        assert srcs[..i + 1][..i] == srcs[..i] && srcs[..i + 1][i] == srcs[i];
        assert Concatenation(old(files), srcs[..i + 1]) == Concatenation(old(files), srcs[..i]) + old(files)[srcs[i]];
        assert srcs[i] != dst && files[srcs[i]] == old(files)[srcs[i]];
        var copied := AppendFrom(dst, srcs[i]);
        assert copied;
        assert start + Concatenation(old(files), srcs[..i]) + old(files)[srcs[i]] == start + Concatenation(old(files), srcs[..i + 1]);
        i := i + 1;
      }
      assert srcs[..i] == srcs;
    }

    /** `os.remove` of every file of `paths`, in order; each is present and
        named once. */
    method RemoveEach(paths: seq<string>)
      requires forall j :: 0 <= j < |paths| ==> paths[j] in files
      requires forall j, k :: 0 <= j < k < |paths| ==> paths[j] != paths[k]
      modifies this
      ensures files == old(files) - NameSet(paths)
      ensures log == old(log) + RemoveAll(paths)
    {
      var i := 0;
      while i < |paths|
        invariant 0 <= i <= |paths|
        invariant files == old(files) - NameSet(paths[..i])
        invariant log == old(log) + RemoveAll(paths[..i])
      {
        assert paths[i] !in paths[..i];
        var removed := Remove(paths[i]);
        assert removed;
        assert paths[..i + 1] == paths[..i] + [paths[i]];
        assert NameSet(paths[..i + 1]) == NameSet(paths[..i]) + {paths[i]};
        i := i + 1;
      }
      assert paths[..i] == paths;
    }

    /** `os.remove(path)`; a missing file raises `FileNotFoundError`. */
    method Remove(path: string) returns (ok: bool)
      modifies this
      ensures ok <==> path in old(files)
      ensures files == old(files) - {path}
      ensures log == old(log) + if ok then [Removed(path)] else []
    {
      ok := path in files;
      if ok {
        files := files - {path};
        log := log + [Removed(path)];
      }
    }
  }

  /** The names listed in `paths`. */
  ghost function NameSet(paths: seq<string>): set<string>
  {
    set j | 0 <= j < |paths| :: paths[j]
  }

  /** Every name in `srcs` is present and none of them is `dst`. */
  ghost predicate Sources(files: map<string, seq<byte>>, srcs: seq<string>, dst: string)
  {
    forall j :: 0 <= j < |srcs| ==> srcs[j] in files && srcs[j] != dst
  }

  // ---------------------------------------------------------------------
  // The server

  /** A request for the resource: the plain GET that only reads
      `content_length`, or a GET with `Range: bytes=first-last`. */
  datatype Request = Probe | Range(first: nat, last: nat)

  /** How the server meets one request: it answers in full, or the
      connection drops after `after` bytes of the body. */
  datatype Reply = Deliver | Cut(after: nat)

  /** The bytes a server sends for `Range: bytes=first-last`, following
      section 2.1 of RFC 7233: positions count from zero, `last` is
      inclusive and is clipped to the end of the resource.  A range whose
      last position is below its first is invalid and the header is ignored
      (section 3.1), so the whole resource is sent; a range starting past the
      end is unsatisfiable and no bytes of the resource are sent. */
  function Served(resource: seq<byte>, first: nat, last: nat): (body: seq<byte>)
  {
    if last < first then resource
    else if first >= |resource| then []
    else resource[first .. Min(last + 1, |resource|)]
  }

  /** A satisfiable range gets exactly the requested bytes, clipped at the
      end of the resource. */
  lemma ServedSatisfiable(resource: seq<byte>, first: nat, last: nat)
    requires first <= last && first < |resource|
    ensures |Served(resource, first, last)| == Min(last, |resource| - 1) - first + 1
    ensures forall k :: 0 <= k < |Served(resource, first, last)| ==> Served(resource, first, last)[k] == resource[first + k]
  {
  }

  /** The next reply; once the script is used up the server answers in full. */
  function Next(replies: seq<Reply>): Reply
  {
    if replies == [] then Deliver else replies[0]
  }

  function Rest(replies: seq<Reply>): seq<Reply>
  {
    if replies == [] then [] else replies[1..]
  }

  /** The body that reaches the client and whether the read completed. */
  function Delivered(reply: Reply, whole: seq<byte>): (seq<byte>, bool)
  {
    match reply
    case Deliver => (whole, true)
    case Cut(n) => (whole[..Min(n, |whole|)], false)
  }

  /** What is delivered is always a prefix of the response, and all of it
      exactly when the read completes. */
  lemma DeliveredPrefix(reply: Reply, whole: seq<byte>)
    ensures Delivered(reply, whole).0 <= whole
    ensures Delivered(reply, whole).1 <==> reply == Deliver
    ensures Delivered(reply, whole).1 ==> Delivered(reply, whole).0 == whole
  {
  }

  /** The origin server of one video stream. */
  class Server {
    /** The bytes of the stream; `content_length` is their number. */
    const resource: seq<byte>
    /** How the coming requests will be met, in order. */
    var replies: seq<Reply>
    /** Every request received so far, oldest first. */
    var requests: seq<Request>

    constructor (resource: seq<byte>, replies: seq<Reply>)
      ensures this.resource == resource && this.replies == replies && requests == []
    {
      this.resource := resource;
      this.replies := replies;
      requests := [];
    }

    /** From now on every request is answered in full. */
    predicate Faithful()
      reads this
    {
      forall i :: 0 <= i < |replies| ==> replies[i] == Deliver
    }

    /** `session.get(url)` read only for its `content_length`; a dropped
        connection raises and yields nothing. */
    method Head() returns (contentLength: Option<nat>)
      modifies this
      ensures requests == old(requests) + [Probe]
      ensures replies == Rest(old(replies))
      ensures contentLength == if Next(old(replies)) == Deliver then Some(|resource|) else None
      ensures old(Faithful()) ==> Faithful() && contentLength == Some(|resource|)
    {
      requests := requests + [Probe];
      contentLength := if Next(replies) == Deliver then Some(|resource|) else None;
      replies := Rest(replies);
    }

    /** `session.get(url, headers={'Range': f'bytes={first}-{last}'})` with
        its body read to the end: the bytes that arrived, and whether the
        read completed or raised. */
    method Get(first: nat, last: nat) returns (body: seq<byte>, complete: bool)
      modifies this
      ensures requests == old(requests) + [Range(first, last)]
      ensures replies == Rest(old(replies))
      ensures (body, complete) == Delivered(Next(old(replies)), Served(resource, first, last))
      ensures old(Faithful()) ==> Faithful() && complete
    {
      requests := requests + [Range(first, last)];
      body, complete := Delivered(Next(replies), Served(resource, first, last)).0, Next(replies) == Deliver;
      replies := Rest(replies);
    }
  }
}

=== FILE: legacy_stream.dfy ===
/** `UdemyStream` of the older downloader (udemy-dl.py).  It splits a video
    the same way as the newer one but numbers bytes from 0, names a chunk
    file by gluing the part number and the chunk number together, retries a
    chunk by recursion with a counter, and retries the whole download by a
    recursion that resets that counter. */
module LegacyStream {
  import opened Common
  import opened Naming
  import opened Partition
  import opened Files
  import opened Ranges
  import Paths

  /** The default `retry` argument of `download` and `_download_part`. */
  const RETRY: nat := 5
  /** Seconds slept before every retry. */
  const PAUSE: nat := 3

  /** How a call of `download` ends: the video is in place, the last error
      escaped, or (only because the model bounds the recursion by `fuel`)
      the download was still retrying. */
  datatype Ending = Finished | Reraised | Unfinished

  /** A part of at most `CHUNKSIZE * PART_NUMBER` bytes has at most ten
      chunks. */
  lemma AtMostTenChunks(lo: int, hi: int)
    requires hi - lo < PART_SIZE
    ensures |Intervals(lo, hi, CHUNK_SIZE)| <= 10
  {
    ChopCount(0, lo, hi, CHUNK_SIZE);
    var n := |Intervals(lo, hi, CHUNK_SIZE)|;
    if n > 0 {
      MulMonotone(10, n - 1, CHUNK_SIZE);
    }
  }

  /** One attempt of `_download_part` as the source runs it: the reply the
      request meets, and how many of the bytes received had already left the
      buffer of the file object when the connection dropped (`f.flush()` is
      commented out, so small writes can still sit in the buffer). */
  datatype Attempt = Attempt(reply: Reply, flushed: nat)

  /** `_download_part` as written, for a chunk whose bytes are `want` and
      whose file holds `stored`: the file it leaves behind and whether it
      returned.  The retry is awaited inside the failed attempt's `with`
      block, so it reads the size of the file without the buffered bytes,
      asks for them again, and those bytes are appended once more when the
      outer handle finally closes.  Each attempt meets the next reply of
      `script`. */
  function BufferedFetch(want: seq<byte>, stored: seq<byte>, script: seq<Attempt>, retry: nat): (r: (seq<byte>, bool))
    ensures stored <= r.0
    decreases retry
  {
    if |stored| >= |want| then (stored, true)
    else
      var a := if script == [] then Attempt(Deliver, 0) else script[0];
      var (body, complete) := Delivered(a.reply, want[|stored|..]);
      if complete then (stored + body, true)
      else if retry == 0 then (stored + body, false)
      else
        var k := Min(a.flushed, |body|);
        var (inner, ok) := BufferedFetch(want, stored + body[..k], if script == [] then [] else script[1..], retry - 1);
        (inner + body[k..], ok)
  }

  /** A chunk of four bytes, nothing stored: the first connection drops after
      two bytes that are still buffered, the retry receives all four, and the
      outer handle then appends the two buffered bytes.  The call returns
      normally with six bytes in the chunk file. */
  lemma BufferedRetryDuplicatesTail()
    ensures var want: seq<byte> := [1, 2, 3, 4];
      var r := BufferedFetch(want, [], [Attempt(Cut(2), 0), Attempt(Deliver, 0)], 1);
      && r == ([1, 2, 3, 4, 1, 2], true)
      && |r.0| > |want| && !(r.0 <= want)
  {
    var want: seq<byte> := [1, 2, 3, 4];
    var script := [Attempt(Cut(2), 0), Attempt(Deliver, 0)];
    var body := want[..2];
    assert want[0..] == want && body == [1, 2];
    assert BufferedFetch(want, [], script[1..], 0) == (want, true) by {
      assert script[1..][0] == Attempt(Deliver, 0);
      assert [] + want == want;
    }
    assert BufferedFetch(want, [], script, 1) == (want + body, true) by {
      assert [] + body[..0] == [];
      assert body[0..] == body;
    }
    assert want + body == [1, 2, 3, 4, 1, 2];
  }

  /** When every byte an attempt received is in the file before the retry
      reads its size (the handle closed first, as the newer downloader does),
      the file stays a prefix of the chunk and holds the whole chunk exactly
      when the call returns: the promise of `Stream.FetchChunk`. */
  lemma {:induction false} ClosedBeforeRetry(want: seq<byte>, stored: seq<byte>, script: seq<Attempt>, retry: nat)
    requires stored <= want
    requires forall i :: 0 <= i < |script| ==> script[i].flushed >= |want|
    ensures var r := BufferedFetch(want, stored, script, retry);
      && r.0 <= want
      && (r.1 ==> r.0 == want)
    decreases retry
  {
    if |stored| < |want| {
      var a := if script == [] then Attempt(Deliver, 0) else script[0];
      var whole := want[|stored|..];
      var (body, complete) := Delivered(a.reply, whole);
      DeliveredPrefix(a.reply, whole);
      assert want == stored + whole;
      if !complete && retry > 0 {
        assert Min(a.flushed, |body|) == |body|;
        assert body[..|body|] == body;
        assert stored + body <= want;
        ClosedBeforeRetry(want, stored + body, if script == [] then [] else script[1..], retry - 1);
        assert body[|body|..] == [];
      }
    }
  }

  class Stream {
    /** `file_path`: where the finished video goes. */
    const filePath: string
    /** `temp_file_path`: the stem of every temporary file. */
    const tempFilePath: string
    const fs: FileSystem
    const server: Server
    /** Every `asyncio.sleep` taken so far, by duration. */
    var naps: seq<nat>

    ghost predicate Valid()
    {
      tempFilePath == filePath + ".part"
    }

    constructor (directory: string, objectIndex: nat, title: string, contentType: string, fs: FileSystem, server: Server)
      ensures filePath == Paths.VideoPath(directory, objectIndex, title, contentType)
      ensures tempFilePath == Paths.PartPath(directory, objectIndex, title, contentType)
      ensures Valid()
      ensures this.fs == fs && this.server == server && naps == []
    {
      filePath := Paths.VideoPath(directory, objectIndex, title, contentType);
      tempFilePath := Paths.PartPath(directory, objectIndex, title, contentType);
      this.fs := fs;
      this.server := server;
      naps := [];
      Paths.PartPathExtendsVideoPath(directory, objectIndex, title, contentType);
    }

    /** Bytes `lo..hi` of the stream, numbered from 0. */
    ghost function Bytes(lo: int, hi: int): seq<byte>
    {
      Want(server.resource, 0, lo, hi)
    }

    /** The file of chunk `b` of part `a`. */
    function ChunkFile(a: nat, b: nat): string
    {
      LegacyChunkName(tempFilePath, a, b)
    }

    // -------------------------------------------------------------------
    // Chunks

    /** `_download_part(a, b, lo, hi, retry)`: on a read error it sleeps and
        calls itself with `retry - 1`, and re-raises once `retry` is 0, so
        it makes at most `retry + 1` attempts. */
    method FetchChunk(a: nat, b: nat, lo: int, hi: int, retry: nat) returns (ok: bool, attempts: nat)
      requires 0 <= lo <= hi < |server.resource|
      requires ChunkFile(a, b) in fs.files ==> fs.files[ChunkFile(a, b)] <= Bytes(lo, hi)
      modifies this, fs, server
      ensures 1 <= attempts <= retry + 1
      ensures !ok ==> attempts == retry + 1
      ensures naps == old(naps) + Repeat(PAUSE, attempts - 1)
      ensures var path := ChunkFile(a, b);
        var stored := if path in old(fs.files) then old(fs.files)[path] else [];
        && path in fs.files
        && fs.files == old(fs.files)[path := fs.files[path]]
        && stored <= fs.files[path] <= Bytes(lo, hi)
        && (ok ==> fs.files[path] == Bytes(lo, hi))
        && (|stored| >= hi - lo + 1 ==> ok && attempts == 1 && fs.files == old(fs.files) && server.requests == old(server.requests))
        && (forall i :: |old(server.requests)| <= i < |server.requests| ==>
              server.requests[i].Range? && server.requests[i].last == hi && server.requests[i].first >= lo + |stored|)
      ensures old(server.Faithful()) ==> ok && attempts == 1 && server.Faithful()
      ensures old(server.requests) <= server.requests
      ensures fs.log == old(fs.log)
      decreases retry
    {
      ok := ResumeChunk(fs, server, ChunkFile(a, b), 0, lo, hi);
      attempts := 1;
      if !ok && retry > 0 {
        naps := naps + [PAUSE];
        var more;
        ok, more := FetchChunk(a, b, lo, hi, retry - 1);
        attempts := 1 + more;
      }
    }

    // -------------------------------------------------------------------
    // Parts

    /** The chunk files of part `a` numbered below `n`, in ascending order. */
    function ChunkFiles(a: nat, n: nat): (names: seq<string>)
      ensures |names| == n
    {
      if n == 0 then [] else ChunkFiles(a, n - 1) + [ChunkFile(a, n - 1)]
    }

    ghost function ChunkSet(a: nat, n: nat): set<string>
    {
      set b | 0 <= b < n :: ChunkFile(a, b)
    }

    /** Every chunk file of part `a` present holds a prefix of its chunk. */
    ghost predicate ChunksOk(files: map<string, seq<byte>>, a: nat, chunks: seq<Interval>)
    {
      forall b :: 0 <= b < |chunks| && ChunkFile(a, b) in files ==>
        files[ChunkFile(a, b)] <= Bytes(chunks[b].start, chunks[b].stop)
    }

    /** Chunk files of one part with at most ten chunks are all distinct,
        and none is the part's own file. */
    lemma ChunkFilesDistinct(a: nat, n: nat)
      requires n <= 10
      ensures forall b, b' :: 0 <= b < n && 0 <= b' < n && b != b' ==> ChunkFile(a, b) != ChunkFile(a, b')
      ensures forall b :: ChunkFile(a, b) != PartName(tempFilePath, a)
    {
      forall b, b' | 0 <= b < n && 0 <= b' < n && b != b' ensures ChunkFile(a, b) != ChunkFile(a, b') {
        LegacyChunkNameInjectiveBelowTen(tempFilePath, a, b, a, b');
      }
      forall b ensures ChunkFile(a, b) != PartName(tempFilePath, a) {
        LegacyChunkNameIsNotEarlierPartName(tempFilePath, a, b, a);
      }
    }

    /** Storing a prefix of chunk `i` in its file keeps part `a` sound and
        leaves every other chunk file and the part file as they were. */
    lemma ChunkWrite(files: map<string, seq<byte>>, a: nat, chunks: seq<Interval>, i: nat, x: seq<byte>)
      requires |chunks| <= 10 && ChunksOk(files, a, chunks) && i < |chunks|
      requires x <= Bytes(chunks[i].start, chunks[i].stop)
      ensures ChunksOk(files[ChunkFile(a, i) := x], a, chunks)
      ensures forall b :: 0 <= b < |chunks| && b != i ==> ChunkFile(a, b) != ChunkFile(a, i)
      ensures ChunkFile(a, i) != PartName(tempFilePath, a)
      ensures ChunkFile(a, i) in ChunkSet(a, |chunks|)
    {
      ChunkFilesDistinct(a, |chunks|);
    }

    /** The `gather` of `download_part`, one chunk after another, stopping at
        the first chunk whose retries are used up. */
    method GatherChunks(a: nat, lo: int, hi: int, chunks: seq<Interval>) returns (ok: bool)
      requires 0 <= lo <= hi < |server.resource| && hi - lo < PART_SIZE
      requires chunks == Intervals(lo, hi, CHUNK_SIZE)
      requires ChunksOk(fs.files, a, chunks) && PartName(tempFilePath, a) !in fs.files
      modifies this, fs, server
      ensures ChunksOk(fs.files, a, chunks) && PartName(tempFilePath, a) !in fs.files
      ensures AgreeOutside(old(fs.files), fs.files, ChunkSet(a, |chunks|))
      ensures ok ==> forall b :: 0 <= b < |chunks| ==>
        ChunkFile(a, b) in fs.files && fs.files[ChunkFile(a, b)] == Bytes(chunks[b].start, chunks[b].stop)
      ensures fs.log == old(fs.log)
      ensures old(server.requests) <= server.requests && old(naps) <= naps
      ensures old(server.Faithful()) ==> ok && server.Faithful() && naps == old(naps)
    {
      AtMostTenChunks(lo, hi);
      var i := 0;
      while i < |chunks|
        invariant 0 <= i <= |chunks|
        invariant ChunksOk(fs.files, a, chunks) && PartName(tempFilePath, a) !in fs.files
        invariant AgreeOutside(old(fs.files), fs.files, ChunkSet(a, |chunks|))
        invariant forall b :: 0 <= b < i ==>
          ChunkFile(a, b) in fs.files && fs.files[ChunkFile(a, b)] == Bytes(chunks[b].start, chunks[b].stop)
        invariant fs.log == old(fs.log)
        invariant old(server.requests) <= server.requests && old(naps) <= naps
        invariant old(server.Faithful()) ==> server.Faithful() && naps == old(naps)
      {
        IntervalAt(lo, hi, CHUNK_SIZE, i);
        var chunkOk := ChunkStep(a, chunks, i);
        if !chunkOk {
          return false;
        }
        i := i + 1;
      }
      ok := true;
    }

    /** One chunk of the `gather`: only chunk file `i` changes, and it holds
        the whole chunk when the fetch succeeds. */
    method ChunkStep(a: nat, chunks: seq<Interval>, i: nat) returns (ok: bool)
      requires |chunks| <= 10 && i < |chunks| && 0 <= chunks[i].start <= chunks[i].stop < |server.resource|
      requires ChunksOk(fs.files, a, chunks) && PartName(tempFilePath, a) !in fs.files
      modifies this, fs, server
      ensures ChunksOk(fs.files, a, chunks) && PartName(tempFilePath, a) !in fs.files
      ensures ChunkFile(a, i) in fs.files && ChunkFile(a, i) in ChunkSet(a, |chunks|)
      ensures fs.files == old(fs.files)[ChunkFile(a, i) := fs.files[ChunkFile(a, i)]]
      ensures forall b :: 0 <= b < |chunks| && b != i ==> ChunkFile(a, b) != ChunkFile(a, i)
      ensures ok ==> fs.files[ChunkFile(a, i)] == Bytes(chunks[i].start, chunks[i].stop)
      ensures fs.log == old(fs.log)
      ensures old(server.requests) <= server.requests && old(naps) <= naps
      ensures old(server.Faithful()) ==> ok && server.Faithful() && naps == old(naps)
    {
      var name := ChunkFile(a, i);
      ghost var before := fs.files;
      var attempts;
      ok, attempts := FetchChunk(a, i, chunks[i].start, chunks[i].stop, RETRY);
      ChunkWrite(before, a, chunks, i, fs.files[name]);
    }

    lemma {:induction false} ChunkFilesAt(a: nat, n: nat)
      ensures forall b :: 0 <= b < n ==> ChunkFiles(a, n)[b] == ChunkFile(a, b)
    {
      if n > 0 {
        ChunkFilesAt(a, n - 1);
        assert ChunkFiles(a, n)[..n - 1] == ChunkFiles(a, n - 1);
      }
    }

    /** `with open(part_temp_path, 'ab')`, appending the chunk files in
        ascending order. */
    method ConcatChunks(a: nat, chunks: seq<Interval>)
      requires PartName(tempFilePath, a) !in fs.files
      requires forall b :: 0 <= b < |chunks| ==>
        ChunkFile(a, b) in fs.files && fs.files[ChunkFile(a, b)] == Bytes(chunks[b].start, chunks[b].stop)
      modifies fs
      ensures fs.files == old(fs.files)[PartName(tempFilePath, a) := Joined(server.resource, 0, chunks)]
      ensures fs.log == old(fs.log) + CopyAll(ChunkFiles(a, |chunks|), PartName(tempFilePath, a))
    {
      var names := ChunkFiles(a, |chunks|);
      ChunkFilesAt(a, |chunks|);
      forall b | 0 <= b < |chunks| ensures names[b] != PartName(tempFilePath, a) {
        LegacyChunkNameIsNotEarlierPartName(tempFilePath, a, b, a);
      }
      ConcatenationJoined(fs.files, names, server.resource, 0, chunks);
      fs.Concatenate(PartName(tempFilePath, a), names);
      assert [] + Joined(server.resource, 0, chunks) == Joined(server.resource, 0, chunks);
    }

    /** `os.remove` of every chunk file, in ascending order. */
    method RemoveChunks(a: nat, n: nat)
      requires n <= 10
      requires forall b :: 0 <= b < n ==> ChunkFile(a, b) in fs.files
      modifies fs
      ensures fs.files == old(fs.files) - ChunkSet(a, n)
      ensures fs.log == old(fs.log) + RemoveAll(ChunkFiles(a, n))
    {
      var names := ChunkFiles(a, n);
      ChunkFilesAt(a, n);
      ChunkFilesDistinct(a, n);
      forall b | 0 <= b < n ensures ChunkFile(a, b) in NameSet(names) {
        assert names[b] == ChunkFile(a, b);
      }
      assert NameSet(names) == ChunkSet(a, n);
      fs.RemoveEach(names);
    }

    /** Writing the part file and then removing the chunk files undoes every
        change the chunks made. */
    lemma PartDone(files: map<string, seq<byte>>, gathered: map<string, seq<byte>>, a: nat, n: nat, x: seq<byte>)
      requires n <= 10 && AgreeOutside(files, gathered, ChunkSet(a, n))
      ensures gathered[PartName(tempFilePath, a) := x] - ChunkSet(a, n) == (files - ChunkSet(a, n))[PartName(tempFilePath, a) := x]
    {
      ChunkFilesDistinct(a, n);
      assert PartName(tempFilePath, a) !in ChunkSet(a, n);
      assert gathered - ChunkSet(a, n) == files - ChunkSet(a, n) by {
        forall name | name !in ChunkSet(a, n) ensures Lookup(files, name) == Lookup(gathered, name) {
        }
      }
    }

    /** `download_part(a, lo, hi)`: an existing part file is trusted and
        nothing is done; otherwise every chunk is fetched, the part file
        becomes their concatenation in ascending order, and only then are
        the chunk files removed.  It has no retry of its own. */
    method PartOnce(a: nat, lo: int, hi: int) returns (ok: bool)
      requires 0 <= lo <= hi < |server.resource| && hi - lo < PART_SIZE
      requires PartName(tempFilePath, a) !in fs.files ==> ChunksOk(fs.files, a, Intervals(lo, hi, CHUNK_SIZE))
      modifies this, fs, server
      ensures PartName(tempFilePath, a) in old(fs.files) ==>
        ok && fs.files == old(fs.files) && fs.log == old(fs.log) && server.requests == old(server.requests) && naps == old(naps)
      ensures PartName(tempFilePath, a) !in old(fs.files) ==>
        var n := |Intervals(lo, hi, CHUNK_SIZE)|;
        if ok then
          && fs.files == (old(fs.files) - ChunkSet(a, n))[PartName(tempFilePath, a) := Bytes(lo, hi)]
          && fs.log == old(fs.log) + CopyAll(ChunkFiles(a, n), PartName(tempFilePath, a)) + RemoveAll(ChunkFiles(a, n))
        else
          && PartName(tempFilePath, a) !in fs.files
          && AgreeOutside(old(fs.files), fs.files, ChunkSet(a, n))
          && ChunksOk(fs.files, a, Intervals(lo, hi, CHUNK_SIZE))
          && fs.log == old(fs.log)
      ensures CopiedBeforeRemoved(old(fs.log)) ==> CopiedBeforeRemoved(fs.log)
      ensures old(server.Faithful()) ==> ok && server.Faithful() && naps == old(naps)
      ensures old(server.requests) <= server.requests
      ensures old(naps) <= naps
    {
      var path := PartName(tempFilePath, a);
      if fs.Exists(path) {
        return true;
      }
      var chunks := EnumeratedRange(lo, hi + 1, CHUNK_SIZE, hi);
      EnumeratedRangeIsPartition(lo, hi, CHUNK_SIZE);
      ok := GatherChunks(a, lo, hi, chunks);
      if !ok {
        return;
      }
      ghost var gathered := fs.files;
      ConcatChunks(a, chunks);
      JoinedIntervals(server.resource, 0, lo, hi, CHUNK_SIZE);
      AtMostTenChunks(lo, hi);
      RemoveChunks(a, |chunks|);
      PartDone(old(fs.files), gathered, a, |chunks|, Bytes(lo, hi));
      if CopiedBeforeRemoved(old(fs.log)) {
        CopyThenRemove(old(fs.log), ChunkFiles(a, |chunks|), path);
      }
    }
  
    // -------------------------------------------------------------------
    // The whole stream

    /** The parts of the stream: `(i, s, min(s + PART - 1, L - 1))` for `s`
        in `range(0, L, PART)`, bytes numbered from 0. */
    ghost function Parts(): seq<Interval>
    {
      Intervals(0, |server.resource| - 1, PART_SIZE)
    }

    /** How many chunk files part `k` has (none past the last part). */
    ghost function ChunkCount(k: nat): nat
    {
      if k < |Parts()| then |Intervals(Parts()[k].start, Parts()[k].stop, CHUNK_SIZE)| else 0
    }

    /** The part files numbered below `n`, in ascending order. */
    function PartFiles(n: nat): (names: seq<string>)
      ensures |names| == n
    {
      if n == 0 then [] else PartFiles(n - 1) + [PartName(tempFilePath, n - 1)]
    }

    ghost function PartSet(n: nat): set<string>
    {
      set q | 0 <= q < n :: PartName(tempFilePath, q)
    }

    /** The directory as the downloader leaves it while parts `0..k-1` are
        done: the video file is absent, those part files hold their parts,
        and the only other temporary files are chunk files of part `k`,
        each holding a prefix of its chunk.  Because of the ambiguous
        naming, nothing weaker is safe: a stray chunk file of an earlier
        part could be mistaken for a later part file. */
    ghost predicate Stage(files: map<string, seq<byte>>, k: nat)
    {
      && filePath !in files
      && k <= |Parts()|
      && (forall j :: 0 <= j < k ==>
            PartName(tempFilePath, j) in files && files[PartName(tempFilePath, j)] == Bytes(Parts()[j].start, Parts()[j].stop))
      && (forall name :: name in files && tempFilePath <= name ==>
            name in PartSet(k) || name in ChunkSet(k, ChunkCount(k)))
      && (k < |Parts()| ==> ChunksOk(files, k, Intervals(Parts()[k].start, Parts()[k].stop, CHUNK_SIZE)))
    }

    /** What a call of `download` may start from and leaves behind: a video
        file holding the whole stream, or the stage reached so far. */
    ghost predicate Resumable(files: map<string, seq<byte>>, k: nat)
    {
      if filePath in files then files[filePath] == server.resource else Stage(files, k)
    }

    /** Every temporary name is longer than the video path. */
    lemma TempLonger(name: string)
      requires Valid()
      ensures tempFilePath <= name ==> filePath <= name && name != filePath
    {
    }

    /** A directory without any name starting with the video path is where
        a first download starts. */
    lemma FreshDirectory(files: map<string, seq<byte>>)
      requires Valid()
      requires forall name :: name in files ==> !(filePath <= name)
      ensures Resumable(files, 0)
    {
      assert filePath <= filePath;
      forall name | name in files ensures !(tempFilePath <= name) {
        TempLonger(name);
      }
      forall b ensures tempFilePath <= ChunkFile(0, b) {
      }
    }

    /** At stage `k` the file of part `k` is absent. */
    lemma PartAbsent(files: map<string, seq<byte>>, k: nat)
      requires Stage(files, k) && k < |Parts()|
      ensures PartName(tempFilePath, k) !in files
    {
      var name := PartName(tempFilePath, k);
      assert tempFilePath <= name;
      forall q | 0 <= q < k ensures PartName(tempFilePath, q) != name {
        PartNameInjective(tempFilePath, q, k);
      }
      forall b ensures ChunkFile(k, b) != name {
        LegacyChunkNameIsNotEarlierPartName(tempFilePath, k, b, k);
      }
    }

    /** Parts tile the stream, each at most `PART_SIZE` bytes. */
    lemma PartBounds(k: nat)
      requires k < |Parts()|
      ensures 0 <= Parts()[k].start <= Parts()[k].stop < |server.resource|
      ensures Parts()[k].stop - Parts()[k].start < PART_SIZE
      ensures ChunkCount(k) <= 10
    {
      ChopTiles(0, 0, |server.resource| - 1, PART_SIZE);
      ChopInside(0, 0, |server.resource| - 1, PART_SIZE);
      assert Length(Parts()[k]) <= PART_SIZE;
      AtMostTenChunks(Parts()[k].start, Parts()[k].stop);
    }

    /** Finishing part `k` moves the directory to stage `k + 1`. */
    lemma PartSuccess(files: map<string, seq<byte>>, k: nat)
      requires Valid() && Stage(files, k) && k < |Parts()|
      ensures var n := ChunkCount(k);
        Stage((files - ChunkSet(k, n))[PartName(tempFilePath, k) := Bytes(Parts()[k].start, Parts()[k].stop)], k + 1)
    {
      var n := ChunkCount(k);
      var path := PartName(tempFilePath, k);
      var files' := (files - ChunkSet(k, n))[path := Bytes(Parts()[k].start, Parts()[k].stop)];
      assert tempFilePath <= path;
      TempLonger(path);
      ChunksAvoidParts(k, n);
      assert forall j :: 0 <= j < k + 1 ==>
        PartName(tempFilePath, j) in files' && files'[PartName(tempFilePath, j)] == Bytes(Parts()[j].start, Parts()[j].stop)
      by {
        forall j | 0 <= j < k ensures PartName(tempFilePath, j) != path {
          PartNameInjective(tempFilePath, j, k);
        }
      }
      assert forall name :: name in files' && tempFilePath <= name ==> name in PartSet(k + 1) by {
        assert path in PartSet(k + 1);
        assert PartSet(k) <= PartSet(k + 1);
      }
      if k + 1 < |Parts()| {
        NoLaterChunks(files', k + 1, Intervals(Parts()[k + 1].start, Parts()[k + 1].stop, CHUNK_SIZE));
      }
    }

    /** No chunk file of part `k` is the file of part `k` or of an earlier
        part. */
    lemma ChunksAvoidParts(k: nat, n: nat)
      ensures forall j :: 0 <= j <= k ==> PartName(tempFilePath, j) !in ChunkSet(k, n)
    {
      forall j, b | 0 <= j <= k ensures ChunkFile(k, b) != PartName(tempFilePath, j) {
        LegacyChunkNameIsNotEarlierPartName(tempFilePath, k, b, j);
      }
    }

    /** While the only temporary files are part files below `m`, no chunk
        file of part `m` is present. */
    lemma NoLaterChunks(files: map<string, seq<byte>>, m: nat, chunks: seq<Interval>)
      requires forall name :: name in files && tempFilePath <= name ==> name in PartSet(m)
      ensures ChunksOk(files, m, chunks)
    {
      forall b, j | 0 <= j < m ensures ChunkFile(m, b) != PartName(tempFilePath, j) {
        LegacyChunkNameIsNotEarlierPartName(tempFilePath, m, b, j);
      }
      forall b ensures tempFilePath <= ChunkFile(m, b) {
      }
    }

    /** A failed attempt at part `k` that touched only its chunk files,
        kept each a prefix of its chunk and wrote no part file stays at
        stage `k`. */
    lemma PartFailure(files: map<string, seq<byte>>, files': map<string, seq<byte>>, k: nat)
      requires Valid() && Stage(files, k) && k < |Parts()|
      requires PartName(tempFilePath, k) !in files'
      requires AgreeOutside(files, files', ChunkSet(k, ChunkCount(k)))
      requires ChunksOk(files', k, Intervals(Parts()[k].start, Parts()[k].stop, CHUNK_SIZE))
      ensures Stage(files', k)
    {
      var n := ChunkCount(k);
      assert filePath !in ChunkSet(k, n) by {
        forall b ensures ChunkFile(k, b) != filePath {
          assert tempFilePath <= ChunkFile(k, b);
          TempLonger(ChunkFile(k, b));
        }
      }
      ChunksAvoidParts(k, n);
      forall name | name in files' && tempFilePath <= name && name !in ChunkSet(k, n)
        ensures name in PartSet(k)
      {
        assert Lookup(files, name) == Lookup(files', name);
      }
    }

    /** With every part file in place, writing the video file and removing
        the part files leaves the whole stream in the video file and no
        temporary file behind. */
    lemma StreamDone(files: map<string, seq<byte>>)
      requires Valid() && Stage(files, |Parts()|)
      ensures var after := files[filePath := server.resource] - PartSet(|Parts()|);
        && filePath in after && after[filePath] == server.resource
        && forall name :: name in after ==> !(tempFilePath <= name)
    {
      var after := files[filePath := server.resource] - PartSet(|Parts()|);
      assert filePath !in PartSet(|Parts()|) by {
        forall q ensures PartName(tempFilePath, q) != filePath {
          assert tempFilePath <= PartName(tempFilePath, q);
          TempLonger(PartName(tempFilePath, q));
        }
      }
      forall name | name in after ensures !(tempFilePath <= name) {
        TempLonger(name);
      }
    }
  
    /** The `for` loop of `download`: `download_part` for every part in
        ascending order, stopping at the first whose chunk retries are used
        up.  Parts below `k` are already in place and are skipped. */
    method GatherParts(ghost k: nat, parts: seq<Interval>) returns (ok: bool, ghost k': nat)
      requires Valid() && parts == Parts() && Stage(fs.files, k)
      modifies this, fs, server
      ensures Stage(fs.files, k')
      ensures ok ==> k' == |parts|
      ensures CopiedBeforeRemoved(old(fs.log)) ==> CopiedBeforeRemoved(fs.log)
      ensures old(server.Faithful()) ==> ok && server.Faithful() && naps == old(naps)
      ensures old(server.requests) <= server.requests
      ensures old(naps) <= naps
    {
      var i := 0;
      ghost var stage := k;
      while i < |parts|
        invariant 0 <= i <= |parts|
        invariant stage == Max(i, k) && Stage(fs.files, stage)
        invariant CopiedBeforeRemoved(old(fs.log)) ==> CopiedBeforeRemoved(fs.log)
        invariant old(server.Faithful()) ==> server.Faithful() && naps == old(naps)
        invariant old(server.requests) <= server.requests
        invariant old(naps) <= naps
      {
        var partOk;
        partOk, stage := PartStep(k, i, parts[i], stage);
        if !partOk {
          return false, stage;
        }
        i := i + 1;
      }
      return true, stage;
    }

    /** One part of the `gather`: a part already on disk leaves the stage
        as it is, a fetched part moves it on, and a failed one keeps it. */
    method PartStep(ghost k: nat, i: nat, part: Interval, ghost stage: nat) returns (ok: bool, ghost stage': nat)
      requires Valid() && i < |Parts()| && part == Parts()[i]
      requires stage == Max(i, k) && Stage(fs.files, stage)
      modifies this, fs, server
      ensures Stage(fs.files, stage')
      ensures stage' == if ok then Max(i + 1, k) else i
      ensures !ok ==> k <= i
      ensures CopiedBeforeRemoved(old(fs.log)) ==> CopiedBeforeRemoved(fs.log)
      ensures old(server.Faithful()) ==> ok && server.Faithful() && naps == old(naps)
      ensures old(server.requests) <= server.requests
      ensures old(naps) <= naps
    {
      ghost var before := fs.files;
      PartBounds(i);
      if i >= k {
        PartAbsent(fs.files, i);
      }
      ok := PartOnce(i, part.start, part.stop);
      if i >= k {
        if ok {
          PartSuccess(before, i);
        } else {
          PartFailure(before, fs.files, i);
        }
      }
      stage' := if ok then Max(i + 1, k) else i;
    }

    lemma {:induction false} PartFilesAt(n: nat)
      ensures forall j :: 0 <= j < n ==> PartFiles(n)[j] == PartName(tempFilePath, j)
    {
      if n > 0 {
        PartFilesAt(n - 1);
        assert PartFiles(n)[..n - 1] == PartFiles(n - 1);
      }
    }

    /** `with open(self.file_path, 'ab')`, appending the part files in
        ascending order. */
    method ConcatParts(n: nat)
      requires Valid() && filePath !in fs.files && n == |Parts()|
      requires forall j :: 0 <= j < n ==>
        PartName(tempFilePath, j) in fs.files && fs.files[PartName(tempFilePath, j)] == Bytes(Parts()[j].start, Parts()[j].stop)
      modifies fs
      ensures fs.files == old(fs.files)[filePath := server.resource]
      ensures fs.log == old(fs.log) + CopyAll(PartFiles(n), filePath)
    {
      var names := PartFiles(n);
      PartFilesAt(n);
      forall j | 0 <= j < n ensures names[j] != filePath {
        TempLonger(names[j]);
      }
      ghost var whole := Concatenation(fs.files, names);
      ConcatenationJoined(fs.files, names, server.resource, 0, Parts());
      assert whole == server.resource by {
        JoinedIntervals(server.resource, 0, 0, |server.resource| - 1, PART_SIZE);
        WantAll(server.resource, 0);
      }
      fs.Concatenate(filePath, names);
      assert [] + whole == whole;
    }

    /** `os.remove` of every part file, in ascending order. */
    method RemoveParts(n: nat)
      requires forall j :: 0 <= j < n ==> PartName(tempFilePath, j) in fs.files
      modifies fs
      ensures fs.files == old(fs.files) - PartSet(n)
      ensures fs.log == old(fs.log) + RemoveAll(PartFiles(n))
    {
      var names := PartFiles(n);
      PartFilesAt(n);
      forall j, j' | 0 <= j < j' < n ensures names[j] != names[j'] {
        PartNameInjective(tempFilePath, j, j');
      }
      forall j | 0 <= j < n ensures PartName(tempFilePath, j) in NameSet(names) {
        assert names[j] == PartName(tempFilePath, j);
      }
      assert NameSet(names) == PartSet(n);
      fs.RemoveEach(names);
    }

    /** The end of a successful `download`: the video file becomes the
        parts in ascending order, then the part files are removed. */
    method Finish(n: nat)
      requires Valid() && Stage(fs.files, n) && n == |Parts()|
      modifies fs
      ensures filePath in fs.files && fs.files[filePath] == server.resource
      ensures forall name :: name in fs.files ==> !(tempFilePath <= name)
      ensures CopiedBeforeRemoved(old(fs.log)) ==> CopiedBeforeRemoved(fs.log)
    {
      ConcatParts(n);
      RemoveParts(n);
      StreamDone(old(fs.files));
      if CopiedBeforeRemoved(old(fs.log)) {
        CopyThenRemove(old(fs.log), PartFiles(n), filePath);
      }
    }

    /** One call of `download` up to its `except`: an existing video file is
        trusted; otherwise the length is asked for and every part fetched;
        the video file becomes the parts in ascending order and only then are
        the part files removed.  For an empty stream the loop binds no index,
        so the video file is created empty and the concatenation raises
        `UnboundLocalError`: that attempt fails, and the next one finds the
        (correct, empty) video file.  `ok` is false when the attempt raised. */
    method DownloadOnce(ghost k: nat) returns (ok: bool, ghost k': nat)
      requires Valid() && (filePath !in fs.files ==> Stage(fs.files, k))
      modifies this, fs, server
      ensures filePath !in old(fs.files) ==> Resumable(fs.files, k')
      ensures Resumable(old(fs.files), k) ==> Resumable(fs.files, k')
      ensures ok ==> filePath in fs.files
      ensures filePath in old(fs.files) ==>
        ok && fs.files == old(fs.files) && fs.log == old(fs.log) && server.requests == old(server.requests) && naps == old(naps)
      ensures filePath !in old(fs.files) ==>
        |old(server.requests)| < |server.requests| && server.requests[|old(server.requests)|] == Probe
      ensures ok && filePath !in old(fs.files) ==> forall name :: name in fs.files ==> !(tempFilePath <= name)
      ensures |server.resource| == 0 && filePath !in old(fs.files) ==> !ok
      ensures CopiedBeforeRemoved(old(fs.log)) ==> CopiedBeforeRemoved(fs.log)
      ensures old(server.Faithful()) ==>
        server.Faithful() && naps == old(naps) && filePath in fs.files && (|server.resource| > 0 ==> ok)
      ensures old(server.requests) <= server.requests
      ensures old(naps) <= naps
    {
      if fs.Exists(filePath) {
        return true, k;
      }
      var contentLength := server.Head();
      if contentLength.None? {
        return false, k;
      }
      ok, k' := FetchAll(k, contentLength.value);
    }

    /** The rest of `download` once the length is known: the parts are
        fetched, joined into the video file and removed. */
    method FetchAll(ghost k: nat, contentLength: nat) returns (ok: bool, ghost k': nat)
      requires Valid() && Stage(fs.files, k) && contentLength == |server.resource|
      modifies this, fs, server
      ensures Resumable(fs.files, k')
      ensures ok ==> filePath in fs.files && forall name :: name in fs.files ==> !(tempFilePath <= name)
      ensures contentLength == 0 ==> !ok
      ensures CopiedBeforeRemoved(old(fs.log)) ==> CopiedBeforeRemoved(fs.log)
      ensures old(server.Faithful()) ==>
        server.Faithful() && naps == old(naps) && filePath in fs.files && (contentLength > 0 ==> ok)
      ensures old(server.requests) <= server.requests
      ensures old(naps) <= naps
    {
      var parts := EnumeratedRange(0, contentLength, PART_SIZE, contentLength as int - 1);
      LegacyPartRanges(contentLength);
      if |parts| == 0 {
        fs.Open(filePath);
        return false, k;
      }
      ok, k' := GatherParts(k, parts);
      if !ok {
        return;
      }
      Finish(|parts|);
    }

    /** `download(session, retry)` with its `except` branch: a failed attempt
        sleeps and calls `download(session)`, whose `retry` is back at its
        default, so the counter never runs down and only an initial
        `retry == 0` lets an error escape.  The recursion is bounded here by
        `fuel`, the number of attempts the model follows. */
    method Download(ghost k: nat, retry: nat, fuel: nat) returns (ending: Ending, attempts: nat, ghost k': nat)
      requires Valid() && (filePath !in fs.files ==> Stage(fs.files, k))
      modifies this, fs, server
      ensures filePath !in old(fs.files) ==> Resumable(fs.files, k')
      ensures Resumable(old(fs.files), k) ==> Resumable(fs.files, k')
      ensures ending == Finished ==> filePath in fs.files
      ensures ending == Finished && filePath !in old(fs.files) ==> fs.files[filePath] == server.resource
      ensures attempts <= fuel && (fuel > 0 ==> attempts >= 1)
      ensures ending == Unfinished ==> attempts == fuel
      ensures ending == Reraised ==> retry == 0 && attempts == 1
      ensures filePath in old(fs.files) && fuel > 0 ==> ending == Finished && attempts == 1 && fs.files == old(fs.files)
      ensures old(server.Faithful()) && fuel > 0 && |server.resource| > 0 ==> ending == Finished && attempts == 1
      ensures old(server.Faithful()) && fuel > 1 && retry > 0 ==> ending == Finished
      ensures CopiedBeforeRemoved(old(fs.log)) ==> CopiedBeforeRemoved(fs.log)
      decreases fuel
    {
      if fuel == 0 {
        return Unfinished, 0, k;
      }
      var ok;
      ok, k' := DownloadOnce(k);
      if ok {
        return Finished, 1, k';
      }
      if retry == 0 {
        return Reraised, 1, k';
      }
      naps := naps + [PAUSE];
      var more;
      ending, more, k' := Download(k', RETRY, fuel - 1);
      attempts := 1 + more;
    }

    /** `download` with the counter passed down as `_download_part` does it
        (`self.download(session, retry - 1)`): at most `retry + 1` attempts,
        and the last error escapes once they are used up. */
    method DownloadWithCountdown(ghost k: nat, retry: nat) returns (ending: Ending, attempts: nat, ghost k': nat)
      requires Valid() && (filePath !in fs.files ==> Stage(fs.files, k))
      modifies this, fs, server
      ensures filePath !in old(fs.files) ==> Resumable(fs.files, k')
      ensures Resumable(old(fs.files), k) ==> Resumable(fs.files, k')
      ensures ending != Unfinished
      ensures 1 <= attempts <= retry + 1
      ensures ending == Finished ==> filePath in fs.files
      ensures ending == Finished && filePath !in old(fs.files) ==> fs.files[filePath] == server.resource
      ensures ending == Reraised ==> attempts == retry + 1
      ensures filePath in old(fs.files) ==> ending == Finished && attempts == 1 && fs.files == old(fs.files)
      ensures old(server.Faithful()) && |server.resource| > 0 ==> ending == Finished && attempts == 1
      ensures old(server.Faithful()) && retry > 0 ==> ending == Finished
      ensures CopiedBeforeRemoved(old(fs.log)) ==> CopiedBeforeRemoved(fs.log)
      decreases retry
    {
      var ok;
      ok, k' := DownloadOnce(k);
      if ok {
        return Finished, 1, k';
      }
      if retry == 0 {
        return Reraised, 1, k';
      }
      naps := naps + [PAUSE];
      var more;
      ending, more, k' := DownloadWithCountdown(k', retry - 1);
      attempts := 1 + more;
    }

    /** A directory left by a run stopped after the file of part 0 was
        written but before its chunk files were removed still holds chunk
        file (0, 0), whose name is that of part 10.  For a stream of at least
        eleven parts, `download_part` then finds "part 10" present and
        trusts it, although it holds one chunk of part 0 instead of part 10's
        bytes. */
    lemma StaleChunkPoisonsPart(files: map<string, seq<byte>>)
      requires |server.resource| >= 11 * PART_SIZE
      requires ChunkFile(0, 0) in files && files[ChunkFile(0, 0)] == Bytes(0, CHUNK_SIZE - 1)
      ensures 10 < |Parts()|
      ensures PartName(tempFilePath, 10) in files
      ensures files[PartName(tempFilePath, 10)] != Bytes(Parts()[10].start, Parts()[10].stop)
    {
      var L := |server.resource|;
      LegacyPartChunkCollision(tempFilePath);
      ChopCount(0, 0, L - 1, PART_SIZE);
      var n := |Parts()|;
      MulMonotone(n, 10, PART_SIZE);
      ChopAt(0, 0, L - 1, PART_SIZE, 10);
      assert Parts()[10] == Interval(10, 10 * PART_SIZE, 11 * PART_SIZE - 1);
      WantLength(server.resource, 0, 10 * PART_SIZE, 11 * PART_SIZE - 1);
      WantLength(server.resource, 0, 0, CHUNK_SIZE - 1);
    }
  }
}

=== FILE: naming.dfy ===
/** Decimal rendering of indices (Python's `str(n)` and `f'{n:0Wd}'` on
    non-negative integers) and the temporary file names both downloaders
    derive from them. */
module Naming {
  import opened Common

  predicate IsDigit(ch: char)
  {
    '0' <= ch <= '9'
  }

  predicate AllDigits(s: string)
  {
    forall i :: 0 <= i < |s| ==> IsDigit(s[i])
  }

  function Digit(d: nat): (ch: char)
    requires d < 10
    ensures IsDigit(ch)
  {
    (('0' as int) + d) as char
  }

  function DigitValue(ch: char): nat
    requires IsDigit(ch)
  {
    (ch as int) - ('0' as int)
  }

  /** Python's `str(n)` for a non-negative integer: no sign, no leading zero. */
  function Str(n: nat): (s: string)
    ensures 1 <= |s| && AllDigits(s)
    ensures (s[0] == '0') == (n == 0)
    decreases n
  {
    if n < 10 then [Digit(n)] else Str(n / 10) + [Digit(n % 10)]
  }

  /** The number a string of decimal digits denotes (Python's `int(s)` on such a string). */
  function Value(s: string): nat
    requires AllDigits(s)
  {
    if s == [] then 0 else Value(s[..|s| - 1]) * 10 + DigitValue(s[|s| - 1])
  }

  /** Reading back what `Str` wrote gives the number again. */
  lemma {:induction false} StrValue(n: nat)
    ensures Value(Str(n)) == n
    decreases n
  {
    if n >= 10 {
      var s := Str(n);
      assert s[..|s| - 1] == Str(n / 10);
      StrValue(n / 10);
    }
  }

  lemma StrInjective(m: nat, n: nat)
    ensures Str(m) == Str(n) <==> m == n
  {
    if Str(m) == Str(n) {
      StrValue(m);
      StrValue(n);
    }
  }

  /** Longer numbers are never written with fewer digits. */
  lemma {:induction false} StrLengthMonotone(m: nat, n: nat)
    requires m <= n
    ensures |Str(m)| <= |Str(n)|
    decreases n
  {
    if m >= 10 {
      StrLengthMonotone(m / 10, n / 10);
    }
  }

  /** Leading zeros do not change the value of a digit string. */
  lemma {:induction false} LeadingZerosValue(k: nat, s: string)
    requires AllDigits(s)
    ensures AllDigits(Repeat('0', k) + s)
    ensures Value(Repeat('0', k) + s) == Value(s)
    decreases |s|
  {
    var z := Repeat('0', k);
    if s == [] {
      assert z + s == z;
      ZerosValue(k);
    } else {
      var t := z + s;
      assert t[..|t| - 1] == z + s[..|s| - 1];
      LeadingZerosValue(k, s[..|s| - 1]);
    }
  }

  lemma {:induction false} ZerosValue(k: nat)
    ensures AllDigits(Repeat('0', k))
    ensures Value(Repeat('0', k)) == 0
  {
    if k > 0 {
      var z := Repeat('0', k);
      assert z[..k - 1] == Repeat('0', k - 1);
      ZerosValue(k - 1);
    }
  }

  /** A digit string left-padded with zeros to at least `width` characters. */
  function PadLeft(s: string, width: nat): string
  {
    if |s| < width then Repeat('0', width - |s|) + s else s
  }

  /** `f'{n:0{width}d}'` for a non-negative `n`. */
  function ZeroPad(n: nat, width: nat): string
  {
    PadLeft(Str(n), width)
  }

  /** The padded index has the requested width (or more, never truncating)
      and still denotes `n`. */
  lemma ZeroPadSound(n: nat, width: nat)
    ensures |ZeroPad(n, width)| == Max(width, |Str(n)|)
    ensures AllDigits(ZeroPad(n, width))
    ensures Value(ZeroPad(n, width)) == n
  {
    PadLeftSound(Str(n), width);
    StrValue(n);
  }

  /** Padding keeps the digits and their value and never truncates. */
  lemma PadLeftSound(s: string, width: nat)
    requires AllDigits(s)
    ensures |PadLeft(s, width)| == Max(width, |s|)
    ensures AllDigits(PadLeft(s, width))
    ensures Value(PadLeft(s, width)) == Value(s)
  {
    if |s| < width {
      LeadingZerosValue(width - |s|, s);
    }
  }

  // ---------------------------------------------------------------------
  // Temporary names of the segmented downloader (async_udemy_dl.py).

  /** Temp file of part `p` (0-based): `part_file_path + str(p + 1)`. */
  function PartName(base: string, p: nat): string
  {
    base + Str(p + 1)
  }

  /** Temp file of chunk `c` of part `p`:
      `part_file_path + str(p + 1) + '.chunk' + str(c + 1)`. */
  function ChunkName(base: string, p: nat, c: nat): string
  {
    base + Str(p + 1) + ".chunk" + Str(c + 1)
  }

  lemma DropCommonPrefix(base: string, x: string, y: string)
    requires base + x == base + y
    ensures x == y
  {
    assert x == (base + x)[|base|..];
    assert y == (base + y)[|base|..];
  }

  /** A digit string followed by a dot determines where the dot is. */
  lemma DigitsThenDot(x: string, y: string, u: string, v: string)
    requires AllDigits(x) && AllDigits(y)
    requires x + "." + u == y + "." + v
    ensures x == y && u == v
  {
    var s := x + "." + u;
    var t := y + "." + v;
    assert s[|x|] == '.' && t[|y|] == '.';
    assert |x| < |y| ==> t[|x|] == y[|x|] && IsDigit(y[|x|]);
    assert |y| < |x| ==> s[|y|] == x[|y|] && IsDigit(x[|y|]);
    assert x == s[..|x|];
    assert y == t[..|y|];
    assert u == s[|x| + 1..];
    assert v == t[|y| + 1..];
  }

  lemma PartNameInjective(base: string, p: nat, q: nat)
    ensures PartName(base, p) == PartName(base, q) <==> p == q
  {
    if PartName(base, p) == PartName(base, q) {
      DropCommonPrefix(base, Str(p + 1), Str(q + 1));
      StrInjective(p + 1, q + 1);
    }
  }

  /** Distinct (part, chunk) pairs get distinct chunk files. */
  lemma ChunkNameInjective(base: string, p: nat, c: nat, q: nat, d: nat)
    ensures ChunkName(base, p, c) == ChunkName(base, q, d) <==> p == q && c == d
  {
    if ChunkName(base, p, c) == ChunkName(base, q, d) {
      ChunkNameSplits(base, Str(p + 1), Str(c + 1), Str(q + 1), Str(d + 1));
      StrInjective(p + 1, q + 1);
      StrInjective(c + 1, d + 1);
    }
  }

  /** `base + x + ".chunk" + u` determines the digit string `x` and the rest `u`. */
  lemma ChunkNameSplits(base: string, x: string, u: string, y: string, v: string)
    requires AllDigits(x) && AllDigits(y)
    requires base + x + ".chunk" + u == base + y + ".chunk" + v
    ensures x == y && u == v
  {
    assert base + x + ".chunk" + u == base + (x + "." + ("chunk" + u));
    assert base + y + ".chunk" + v == base + (y + "." + ("chunk" + v));
    DropCommonPrefix(base, x + "." + ("chunk" + u), y + "." + ("chunk" + v));
    DigitsThenDot(x, y, "chunk" + u, "chunk" + v);
    DropCommonPrefix("chunk", u, v);
  }

  /** No chunk file is ever named like a part file. */
  lemma ChunkNameIsNotPartName(base: string, p: nat, c: nat, q: nat)
    ensures ChunkName(base, p, c) != PartName(base, q)
  {
    var x, y := Str(p + 1), Str(q + 1);
    var u := "chunk" + Str(c + 1);
    assert ChunkName(base, p, c) == base + (x + "." + u);
    var s := x + "." + u;
    assert s[|x|] == '.';
    assert ChunkName(base, p, c) == PartName(base, q) ==> s == y && IsDigit(y[|x|]) by {
      if ChunkName(base, p, c) == PartName(base, q) {
        DropCommonPrefix(base, s, y);
      }
    }
  }

  /** What every chunk file name of part `p` begins with. */
  function ChunkPrefix(base: string, p: nat): string
  {
    base + Str(p + 1) + ".chunk"
  }

  /** The names that belong to part `p`: its part file and its chunk files. */
  predicate Owned(base: string, p: nat, name: string)
  {
    name == PartName(base, p) || ChunkPrefix(base, p) <= name
  }

  lemma ChunkNameOwned(base: string, p: nat, c: nat)
    ensures ChunkName(base, p, c) == ChunkPrefix(base, p) + Str(c + 1)
    ensures Owned(base, p, ChunkName(base, p, c)) && Owned(base, p, PartName(base, p))
  {
  }

  /** The number of decimal digits `s` begins with. */
  function DigitRun(s: string): nat
  {
    if s == [] || !IsDigit(s[0]) then 0 else 1 + DigitRun(s[1..])
  }

  /** A digit string followed by a non-digit at the head of `s` is exactly
      the run of digits `s` begins with. */
  lemma {:induction false} DigitRunHead(x: string, sep: char, s: string)
    requires AllDigits(x) && !IsDigit(sep) && x + [sep] <= s
    ensures |x| == DigitRun(s) && x == s[..DigitRun(s)]
    decreases |x|
  {
    if x != [] {
      assert s[0] == x[0];
      assert x[1..] + [sep] <= s[1..];
      DigitRunHead(x[1..], sep, s[1..]);
    } else {
      assert s[0] == sep;
    }
  }

  /** Two digit strings each followed by the same non-digit at the head of
      the same string are the same digit string. */
  lemma DigitsSepHead(x: string, y: string, sep: char, s: string)
    requires AllDigits(x) && AllDigits(y) && !IsDigit(sep)
    requires x + [sep] <= s && y + [sep] <= s
    ensures x == y
  {
    DigitRunHead(x, sep, s);
    DigitRunHead(y, sep, s);
  }

  /** A digit string followed by a dot never begins a digit string. */
  lemma DigitsDotNotDigits(x: string, y: string)
    requires AllDigits(x) && AllDigits(y)
    ensures !(x + "." <= y)
  {
    var t := x + ".";
    assert t[|x|] == '.';
    assert t <= y ==> y[|x|] == '.' && IsDigit(y[|x|]);
  }

  /** Distinct parts own disjoint sets of names. */
  lemma OwnedDisjoint(base: string, p: nat, q: nat, c: nat)
    requires p != q
    ensures !Owned(base, p, PartName(base, q))
    ensures !Owned(base, p, ChunkName(base, q, c))
  {
    PartNameInjective(base, p, q);
    ChunkNameIsNotPartName(base, q, c, p);
    PrefixIsNotPartName(base, Str(p + 1), Str(q + 1));
    PrefixHeads(base, Str(p + 1), Str(q + 1), Str(c + 1));
    StrInjective(p + 1, q + 1);
  }

  /** Prefixes compare the same after a common head. */
  lemma PrefixAfterHead(base: string, a: string, b: string)
    ensures base + a <= base + b <==> a <= b
  {
    if base + a <= base + b {
      assert a == (base + a)[|base|..];
      assert b[..|a|] == (base + b)[|base|..|base| + |a|];
    }
  }

  lemma PrefixOfPrefix(a: string, b: string, c: string)
    ensures a + b <= c ==> a <= c
  {
    if a + b <= c {
      assert a == (a + b)[..|a|];
    }
  }

  /** `base + x + ".chunk"` never begins `base + y` for digit strings `x`, `y`. */
  lemma PrefixIsNotPartName(base: string, x: string, y: string)
    requires AllDigits(x) && AllDigits(y)
    ensures !(base + x + ".chunk" <= base + y)
  {
    assert base + x + ".chunk" == base + ((x + ".") + "chunk");
    PrefixAfterHead(base, (x + ".") + "chunk", y);
    PrefixOfPrefix(x + ".", "chunk", y);
    DigitsDotNotDigits(x, y);
  }

  /** `base + x + ".chunk"` begins `base + y + ".chunk" + w` only when `x == y`. */
  lemma PrefixHeads(base: string, x: string, y: string, w: string)
    requires AllDigits(x) && AllDigits(y)
    ensures base + x + ".chunk" <= base + y + ".chunk" + w ==> x == y
  {
    var t := y + "." + ("chunk" + w);
    assert base + y + ".chunk" + w == base + t;
    assert base + x + ".chunk" == base + ((x + ".") + "chunk");
    PrefixAfterHead(base, (x + ".") + "chunk", t);
    PrefixOfPrefix(x + ".", "chunk", t);
    assert y + "." <= t;
    if x + "." <= t {
      DigitsSepHead(x, y, '.', t);
    }
  }

  /** A name no longer than `base` belongs to no part. */
  lemma ShortNameNotOwned(base: string, p: nat, name: string)
    requires |name| <= |base|
    ensures !Owned(base, p, name)
  {
  }

  // ---------------------------------------------------------------------
  // Temporary names of the older downloader (udemy-dl.py): the part index
  // and the chunk index are written next to each other with no separator.

  /** Temp file of chunk `b` of part `a`: `temp_file_path + str(a + 1) + str(b + 1)`.
      (Part files use `PartName`, exactly as in the newer downloader.) */
  function LegacyChunkName(base: string, a: nat, b: nat): string
  {
    base + Str(a + 1) + Str(b + 1)
  }

  /** Part index 10 and chunk (0, 0) are both written to `base + "11"`. */
  lemma LegacyPartChunkCollision(base: string)
    ensures LegacyChunkName(base, 0, 0) == PartName(base, 10)
  {
    assert Str(1) == "1";
    assert Str(11) == Str(1) + [Digit(1)];
  }

  /** Chunk (0, 10) and chunk (10, 0) are both written to `base + "111"`. */
  lemma LegacyChunkChunkCollision(base: string)
    ensures LegacyChunkName(base, 0, 10) == LegacyChunkName(base, 10, 0)
    ensures (0, 10) != (10, 0)
  {
    assert Str(1) == "1";
    assert Str(11) == Str(1) + [Digit(1)];
  }

  /** With at most ten chunks per part (the older downloader's parts are ten
      chunks long), chunk names are distinct after all. */
  lemma LegacyChunkNameInjectiveBelowTen(base: string, a: nat, b: nat, a': nat, b': nat)
    requires b < 10 && b' < 10
    ensures LegacyChunkName(base, a, b) == LegacyChunkName(base, a', b') <==> a == a' && b == b'
  {
    if LegacyChunkName(base, a, b) == LegacyChunkName(base, a', b') {
      var u, v := Str(b + 1), Str(b' + 1);
      SmallStr(b + 1);
      SmallStr(b' + 1);
      assert |u| == |v| by {
        LegacyChunkNameEnds(base, Str(a + 1), u, Str(a' + 1), v);
      }
      EqualTails(base, Str(a + 1), u, Str(a' + 1), v);
      StrInjective(a + 1, a' + 1);
      StrInjective(b + 1, b' + 1);
    }
  }

  /** Equal names end in the same character. */
  lemma LegacyChunkNameEnds(base: string, x: string, u: string, y: string, v: string)
    requires u != [] && v != [] && base + x + u == base + y + v
    ensures u[|u| - 1] == v[|v| - 1]
  {
    var s := base + x + u;
    assert s[|s| - 1] == u[|u| - 1];
  }

  /** Equal names whose tails have the same length have equal heads and tails. */
  lemma EqualTails(base: string, x: string, u: string, y: string, v: string)
    requires |u| == |v| && base + x + u == base + y + v
    ensures x == y && u == v
  {
    var s := base + x + u;
    var t := base + y + v;
    assert u == s[|s| - |u|..] && v == t[|t| - |v|..];
    assert base + x == s[..|s| - |u|] && base + y == t[..|t| - |v|];
    DropCommonPrefix(base, x, y);
  }

  /** The numbers one to ten: a single non-zero digit, or "10". */
  lemma SmallStr(k: nat)
    requires 1 <= k <= 10
    ensures |Str(k)| == if k == 10 then 2 else 1
    ensures (Str(k)[|Str(k)| - 1] == '0') == (k == 10)
  {
    if k == 10 {
      assert Str(10) == Str(1) + [Digit(0)];
    }
  }

  /** A chunk of part `a` is never named like the file of part `a` or of any
      earlier part: its name is strictly longer. */
  lemma LegacyChunkNameIsNotEarlierPartName(base: string, a: nat, b: nat, p: nat)
    requires p <= a
    ensures LegacyChunkName(base, a, b) != PartName(base, p)
  {
    StrLengthMonotone(p + 1, a + 1);
  }
}

=== FILE: partition.dfy ===
/** The range partitioner `partition(start, stop, interval_size)` and the
    list comprehensions the older downloader uses for the same job. */
module Partition {
  import opened Common

  /** Bytes fetched by one chunk request (`CHUNKSIZE`). */
  const CHUNK_SIZE: nat := 1024 * 512
  /** Chunks per part (`PART_NUMBER`). */
  const PART_NUMBER: nat := 10
  /** Bytes per part: `CHUNKSIZE * PART_NUMBER`. */
  const PART_SIZE: nat := CHUNK_SIZE * PART_NUMBER

  /** One yielded triple `(index, start, stop)`; both bounds inclusive. */
  datatype Interval = Interval(index: nat, start: int, stop: int)

  function Length(iv: Interval): int
  {
    iv.stop - iv.start + 1
  }

  /** What the generator yields once its loop variables hold `index` and `start`. */
  function Chop(index: nat, start: int, stop: int, size: int): seq<Interval>
    requires size > 0
    decreases stop - start + 1
  {
    if start > stop then []
    else [Interval(index, start, Min(start + size - 1, stop))] + Chop(index + 1, start + size, stop, size)
  }

  /** Everything `partition(start, stop, size)` yields, in order. */
  function Intervals(start: int, stop: int, size: int): seq<Interval>
    requires size > 0
  {
    Chop(0, start, stop, size)
  }

  /** `r` tiles `[start, stop]` as the docstring promises: indices count up
      from `first`, the intervals are contiguous, the first starts at `start`,
      the last ends at `stop`, and all but the last are exactly `size` long. */
  ghost predicate TilesFrom(r: seq<Interval>, first: nat, start: int, stop: int, size: int)
  {
    && (r == [] <==> start > stop)
    && (r != [] ==> r[0].start == start && r[|r| - 1].stop == stop)
    && (forall k :: 0 <= k < |r| ==> r[k].index == first + k)
    && (forall k :: 0 <= k < |r| ==> 1 <= Length(r[k]) <= size)
    && (forall k :: 0 <= k < |r| - 1 ==> Length(r[k]) == size)
    && (forall i, j :: 0 <= i && j == i + 1 && j < |r| ==> r[j].start == r[i].stop + 1)
  }

  ghost predicate Tiles(r: seq<Interval>, start: int, stop: int, size: int)
  {
    TilesFrom(r, 0, start, stop, size)
  }

  /** The generator's loop, collected into a list. */
  method Partition(start: int, stop: int, size: int) returns (r: seq<Interval>)
    requires size > 0
    ensures r == Intervals(start, stop, size)
    ensures Tiles(r, start, stop, size)
  {
    var index: nat := 0;
    var lo := start;
    r := [];
    while lo <= stop
      invariant index == |r|
      invariant r + Chop(index, lo, stop, size) == Intervals(start, stop, size)
      decreases stop - lo + 1
    {
      r := r + [Interval(index, lo, Min(lo + size - 1, stop))];
      lo := lo + size;
      index := index + 1;
    }
    ChopTiles(0, start, stop, size);
  }

  lemma ChopTiles(index: nat, start: int, stop: int, size: int)
    requires size > 0
    ensures TilesFrom(Chop(index, start, stop, size), index, start, stop, size)
  {
    ChopIndices(index, start, stop, size);
    ChopLengths(index, start, stop, size);
    ChopLinks(index, start, stop, size);
  }

  lemma {:induction false} ChopIndices(index: nat, start: int, stop: int, size: int)
    requires size > 0
    ensures forall k :: 0 <= k < |Chop(index, start, stop, size)| ==> Chop(index, start, stop, size)[k].index == index + k
    decreases stop - start + 1
  {
    if start <= stop {
      ChopIndices(index + 1, start + size, stop, size);
      var r, rest := Chop(index, start, stop, size), Chop(index + 1, start + size, stop, size);
      assert r == [Interval(index, start, Min(start + size - 1, stop))] + rest;
      forall k | 0 <= k < |r|
        ensures r[k].index == index + k
      {
        if k > 0 {
          assert r[k] == rest[k - 1];
        }
      }
    }
  }

  lemma {:induction false} ChopLengths(index: nat, start: int, stop: int, size: int)
    requires size > 0
    ensures forall k :: 0 <= k < |Chop(index, start, stop, size)| ==> 1 <= Length(Chop(index, start, stop, size)[k]) <= size
    ensures forall k :: 0 <= k < |Chop(index, start, stop, size)| - 1 ==> Length(Chop(index, start, stop, size)[k]) == size
    decreases stop - start + 1
  {
    if start <= stop {
      ChopLengths(index + 1, start + size, stop, size);
      var r, rest := Chop(index, start, stop, size), Chop(index + 1, start + size, stop, size);
      assert r == [Interval(index, start, Min(start + size - 1, stop))] + rest;
      assert rest != [] ==> start + size <= stop;
      forall k | 0 <= k < |r|
        ensures 1 <= Length(r[k]) <= size && (k < |r| - 1 ==> Length(r[k]) == size)
      {
        if k > 0 {
          assert r[k] == rest[k - 1];
        }
      }
    }
  }

  lemma {:induction false} ChopLinks(index: nat, start: int, stop: int, size: int)
    requires size > 0
    ensures Chop(index, start, stop, size) == [] <==> start > stop
    ensures Chop(index, start, stop, size) != [] ==> Chop(index, start, stop, size)[0].start == start && Chop(index, start, stop, size)[|Chop(index, start, stop, size)| - 1].stop == stop
    ensures forall i, j :: 0 <= i && j == i + 1 && j < |Chop(index, start, stop, size)| ==> Chop(index, start, stop, size)[j].start == Chop(index, start, stop, size)[i].stop + 1
    decreases stop - start + 1
  {
    if start <= stop {
      ChopLinks(index + 1, start + size, stop, size);
      var r, rest := Chop(index, start, stop, size), Chop(index + 1, start + size, stop, size);
      assert r == [Interval(index, start, Min(start + size - 1, stop))] + rest;
      assert rest != [] ==> r[|r| - 1] == rest[|rest| - 1] && start + size <= stop;
      forall i, j | 0 <= i && j == i + 1 && j < |r|
        ensures r[j].start == r[i].stop + 1
      {
        assert r[j] == rest[i];
        assert i > 0 ==> r[i] == rest[i - 1];
      }
    }
  }

  /** The number of triples: `(n - 1) * size <= stop - start < n * size`. */
  lemma {:induction false} ChopCount(index: nat, start: int, stop: int, size: int)
    requires size > 0
    ensures var n := |Chop(index, start, stop, size)|;
      if start > stop then n == 0 else (n - 1) * size <= stop - start < n * size
    decreases stop - start + 1
  {
    if start <= stop {
      ChopCount(index + 1, start + size, stop, size);
      var n' := |Chop(index + 1, start + size, stop, size)|;
      if start + size <= stop {
        assert (n' - 1) * size + size == n' * size;
        assert n' * size + size == (n' + 1) * size;
      }
    }
  }

  /** A quotient is determined by the bounds it satisfies. */
  lemma DivUnique(x: int, size: int, q: int)
    requires size > 0 && q * size <= x < q * size + size
    ensures x / size == q
  {
    var q', r' := x / size, x % size;
    assert x == q' * size + r';
    assert (q' + 1) * size == q' * size + size;
    assert (q + 1) * size == q * size + size;
    MulMonotone(q' + 1, q, size);
    MulMonotone(q + 1, q', size);
  }

  lemma DivStep(x: int, size: int)
    requires size > 0 && x >= size
    ensures (x - size) / size + 1 == x / size
  {
    var q := (x - size) / size;
    assert q * size <= x - size < q * size + size;
    assert (q + 1) * size == q * size + size;
    DivUnique(x, size, q + 1);
  }

  /** `partition(start, stop, size)` yields `ceil((stop - start + 1) / size)` triples. */
  lemma IntervalsCount(start: int, stop: int, size: int)
    requires size > 0
    ensures start > stop ==> |Intervals(start, stop, size)| == 0
    ensures start <= stop ==> |Intervals(start, stop, size)| == (stop - start + size) / size
  {
    ChopCount(0, start, stop, size);
    if start <= stop {
      var n := |Intervals(start, stop, size)|;
      assert (n - 1) * size + size == n * size;
      DivUnique(stop - start + size, size, n);
    }
  }

  /** The k-th triple in closed form. */
  lemma {:induction false} ChopAt(index: nat, start: int, stop: int, size: int, k: nat)
    requires size > 0 && k < |Chop(index, start, stop, size)|
    ensures Chop(index, start, stop, size)[k]
         == Interval(index + k, start + k * size, Min(start + k * size + size - 1, stop))
    decreases k
  {
    if k > 0 {
      ChopAt(index + 1, start + size, stop, size, k - 1);
      assert start + size + (k - 1) * size == start + k * size;
    }
  }

  /** What the tiling says about one interval: it lies inside
      `[start, stop]`, is nonempty and is at most `size` long. */
  lemma IntervalAt(start: int, stop: int, size: int, k: nat)
    requires size > 0 && k < |Intervals(start, stop, size)|
    ensures var iv := Intervals(start, stop, size)[k];
      start <= iv.start <= iv.stop <= stop && iv.stop - iv.start < size
  {
    ChopTiles(0, start, stop, size);
    ChopInside(0, start, stop, size);
  }

  /** Every triple lies inside `[start, stop]`. */
  ghost predicate Within(r: seq<Interval>, start: int, stop: int)
  {
    forall k :: 0 <= k < |r| ==> start <= r[k].start && r[k].stop <= stop
  }

  lemma {:induction false} ChopInside(index: nat, start: int, stop: int, size: int)
    requires size > 0
    ensures Within(Chop(index, start, stop, size), start, stop)
    decreases stop - start + 1
  {
    if start <= stop {
      var r := Chop(index, start, stop, size);
      var rest := Chop(index + 1, start + size, stop, size);
      ChopInside(index + 1, start + size, stop, size);
      forall k | 1 <= k < |r|
        ensures start <= r[k].start && r[k].stop <= stop
      {
        assert r[k] == rest[k - 1];
        assert start + size <= rest[k - 1].start;
      }
    }
  }

  /** Every point of `[start, stop]` lies in exactly one triple. */
  lemma {:induction false} ChopCover(index: nat, start: int, stop: int, size: int, x: int) returns (k: nat)
    requires size > 0 && start <= x <= stop
    ensures var r := Chop(index, start, stop, size);
      && k < |r|
      && r[k].start <= x <= r[k].stop
      && forall j :: 0 <= j < |r| && j != k ==> !(r[j].start <= x <= r[j].stop)
    decreases stop - start + 1
  {
    var r := Chop(index, start, stop, size);
    var rest := Chop(index + 1, start + size, stop, size);
    assert r == [r[0]] + rest;
    if x <= r[0].stop {
      k := 0;
      ChopInside(index + 1, start + size, stop, size);
      forall j | 1 <= j < |r|
        ensures !(r[j].start <= x <= r[j].stop)
      {
        assert r[j] == rest[j - 1];
        assert start + size <= rest[j - 1].start;
      }
    } else {
      var k' := ChopCover(index + 1, start + size, stop, size, x);
      k := k' + 1;
      forall j | 1 <= j < |r| && j != k
        ensures !(r[j].start <= x <= r[j].stop)
      {
        assert r[j] == rest[j - 1];
      }
      assert r[k] == rest[k'];
    }
  }

  /** The point `x` of `[start, stop]` lies in the triple numbered
      `(x - start) / size`, and in no other. */
  lemma IntervalsCover(start: int, stop: int, size: int, x: int)
    requires size > 0 && start <= x <= stop
    ensures var r := Intervals(start, stop, size);
      var k := (x - start) / size;
      && k < |r|
      && r[k].start <= x <= r[k].stop
      && forall j :: 0 <= j < |r| && j != k ==> !(r[j].start <= x <= r[j].stop)
  {
    var k := ChopCover(0, start, stop, size, x);
    ChopAt(0, start, stop, size, k);
    DivUnique(x - start, size, k);
  }

  lemma MulMonotone(a: int, b: int, size: int)
    requires size > 0
    ensures a <= b ==> a * size <= b * size
  {
  }

  // ---------------------------------------------------------------------
  // udemy-dl.py builds the same triples with list comprehensions over
  // Python's `range`.

  /** `len(range(lo, bound, step))` for a positive step. */
  function RangeLength(lo: int, bound: int, step: int): nat
    requires step > 0
  {
    if lo >= bound then 0 else (bound - lo - 1) / step + 1
  }

  /** `[(i, s, min(s + step - 1, cap)) for i, s in enumerate(range(lo, bound, step))]` */
  function EnumeratedRange(lo: int, bound: int, step: int, cap: int): seq<Interval>
    requires step > 0
  {
    seq(RangeLength(lo, bound, step), i requires 0 <= i => Interval(i, lo + i * step, Min(lo + i * step + step - 1, cap)))
  }

  /** The comprehension over `range(lo, hi + 1, step)` capped at `hi` yields
      exactly what `partition(lo, hi, step)` yields. */
  lemma EnumeratedRangeIsPartition(lo: int, hi: int, step: int)
    requires step > 0
    ensures EnumeratedRange(lo, hi + 1, step, hi) == Intervals(lo, hi, step)
  {
    var a := EnumeratedRange(lo, hi + 1, step, hi);
    var b := Intervals(lo, hi, step);
    IntervalsCount(lo, hi, step);
    assert |a| == |b| by {
      if lo <= hi {
        DivStep(hi - lo + step, step);
      }
    }
    forall k | 0 <= k < |a|
      ensures a[k] == b[k]
    {
      ChopAt(0, lo, hi, step, k);
    }
  }

  /** The older downloader's parts, `(i, s, min(s + PART - 1, L - 1))` for `s`
      in `range(0, L, PART)`: a tiling of the 0-based interval `[0, L - 1]`. */
  lemma LegacyPartRanges(contentLength: nat)
    ensures EnumeratedRange(0, contentLength, PART_SIZE, contentLength - 1)
         == Intervals(0, contentLength - 1, PART_SIZE)
    ensures Tiles(EnumeratedRange(0, contentLength, PART_SIZE, contentLength - 1), 0, contentLength - 1, PART_SIZE)
  {
    EnumeratedRangeIsPartition(0, contentLength - 1, PART_SIZE);
    ChopTiles(0, 0, contentLength - 1, PART_SIZE);
  }

  /** Worked example: 2500 bytes in chunks of 1000. */
  lemma SmallExample()
    ensures Intervals(1, 2500, 1000) == [Interval(0, 1, 1000), Interval(1, 1001, 2000), Interval(2, 2001, 2500)]
  {
  }

  /** Worked example: 12000 bytes, chunks of 1000, ten chunks per part:
      two parts, of ten chunks and of two chunks. */
  lemma TwoLevelExample()
    ensures Intervals(1, 12000, 10000) == [Interval(0, 1, 10000), Interval(1, 10001, 12000)]
    ensures |Intervals(1, 10000, 1000)| == 10
    ensures Intervals(10001, 12000, 1000) == [Interval(0, 10001, 11000), Interval(1, 11001, 12000)]
  {
    IntervalsCount(1, 10000, 1000);
  }
}

=== FILE: paths.dfy ===
/** Where downloaded lectures go: directory joining, the extension taken
    from a stream's content type, and the zero-padded chapter and lecture
    prefixes. */
module Paths {
  import opened Naming

  /** `os.path.join(directory, name)` on POSIX: an absolute `name` replaces
      the directory; otherwise a separator is inserted unless the directory is
      empty or already ends with one. */
  function Join(directory: string, name: string): string
  {
    if |name| > 0 && name[0] == '/' then name
    else if directory == [] || directory[|directory| - 1] == '/' then directory + name
    else directory + "/" + name
  }

  /** Joining a relative name and then extending it is the same as joining
      the extended name. */
  lemma JoinExtends(directory: string, name: string, suffix: string)
    requires |name| > 0 && name[0] != '/'
    ensures Join(directory, name + suffix) == Join(directory, name) + suffix
  {
    assert (name + suffix)[0] == name[0];
    assert directory + (name + suffix) == directory + name + suffix;
    assert directory + "/" + (name + suffix) == directory + "/" + name + suffix;
  }

  /** `s.split('/')[-1]`: everything after the last '/', or all of `s`. */
  function LastSegment(s: string): string
  {
    if s == [] then []
    else if s[|s| - 1] == '/' then []
    else LastSegment(s[..|s| - 1]) + [s[|s| - 1]]
  }

  /** The last segment is a suffix of `s` without '/', and it is either all
      of `s` or follows a '/'. */
  lemma {:induction false} LastSegmentSound(s: string)
    ensures var e := LastSegment(s);
      && |e| <= |s|
      && e == s[|s| - |e|..]
      && (forall i :: 0 <= i < |e| ==> e[i] != '/')
      && (|e| < |s| ==> s[|s| - |e| - 1] == '/')
    decreases |s|
  {
    if s != [] && s[|s| - 1] != '/' {
      var t := s[..|s| - 1];
      LastSegmentSound(t);
      var e := LastSegment(t);
      var e' := e + [s[|s| - 1]];
      assert LastSegment(s) == e';
      var m := |t| - |e|;
      assert s[m..] == t[m..] + [s[|s| - 1]];
      assert forall i :: 0 <= i < |e| ==> e'[i] == e[i];
      assert m > 0 ==> s[m - 1] == t[m - 1];
    }
  }

  /** The extension of a content type such as 'video/mp4'. */
  function Extension(contentType: string): string
  {
    LastSegment(contentType)
  }

  /** `f'{object_index:02d}'` */
  function ChapterIndex(objectIndex: nat): string
  {
    ZeroPad(objectIndex, 2)
  }

  /** `f'{object_index:03d}'` */
  function LectureIndex(objectIndex: nat): string
  {
    ZeroPad(objectIndex, 3)
  }

  /** A chapter's directory: `join(course_directory, chapter_index + " " + title)`. */
  function ChapterDirectory(courseDirectory: string, objectIndex: nat, title: string): string
  {
    Join(courseDirectory, ChapterIndex(objectIndex) + " " + title)
  }

  /** The name of a lecture's video: `lecture_index + " " + title + "." + extension`. */
  function VideoName(objectIndex: nat, title: string, contentType: string): string
  {
    LectureIndex(objectIndex) + " " + title + "." + Extension(contentType)
  }

  /** `UdemyStream.file_path` */
  function VideoPath(directory: string, objectIndex: nat, title: string, contentType: string): string
  {
    Join(directory, VideoName(objectIndex, title, contentType))
  }

  /** `UdemyStream.part_file_path` (`temp_file_path` in the older downloader). */
  function PartPath(directory: string, objectIndex: nat, title: string, contentType: string): string
  {
    Join(directory, VideoName(objectIndex, title, contentType) + ".part")
  }

  /** The temporary path is the video path with ".part" appended, so every
      temporary name is longer than the video path and never equals it. */
  lemma PartPathExtendsVideoPath(directory: string, objectIndex: nat, title: string, contentType: string)
    ensures PartPath(directory, objectIndex, title, contentType)
         == VideoPath(directory, objectIndex, title, contentType) + ".part"
  {
    var name := VideoName(objectIndex, title, contentType);
    ZeroPadSound(objectIndex, 3);
    assert name[0] == LectureIndex(objectIndex)[0];
    JoinExtends(directory, name, ".part");
  }

  /** Lectures with different indices never share a video name: the padded
      index is read back up to the first space. */
  lemma VideoNamesDistinct(i: nat, j: nat, title: string, title': string, contentType: string, contentType': string)
    ensures VideoName(i, title, contentType) == VideoName(j, title', contentType') <==> i == j && title + "." + Extension(contentType) == title' + "." + Extension(contentType')
  {
    var x, y := LectureIndex(i), LectureIndex(j);
    var u, v := title + "." + Extension(contentType), title' + "." + Extension(contentType');
    assert VideoName(i, title, contentType) == x + [' '] + u;
    assert VideoName(j, title', contentType') == y + [' '] + v;
    if VideoName(i, title, contentType) == VideoName(j, title', contentType') {
      var s := x + [' '] + u;
      ZeroPadSound(i, 3);
      ZeroPadSound(j, 3);
      assert x + [' '] <= s && y + [' '] <= s;
      DigitsSepHead(x, y, ' ', s);
      assert u == s[|x| + 1..];
    }
  }
}

=== FILE: ranges.dfy ===
/** Byte positions as both downloaders count them.  The newer one numbers
    the bytes of a stream from 1, the older one from 0; `origin` is the
    number of the first byte, and the wire range of section 2.1 of RFC 7233
    is always counted from 0. */
module Ranges {
  import opened Common
  import opened Partition
  import opened Files

  /** Bytes `lo..hi` (inclusive) of the resource, numbered from `origin`. */
  function Want(resource: seq<byte>, origin: nat, lo: int, hi: int): seq<byte>
  {
    if origin <= lo <= hi + 1 <= |resource| + origin then resource[lo - origin .. hi - origin + 1] else []
  }

  lemma WantLength(resource: seq<byte>, origin: nat, lo: int, hi: int)
    requires origin <= lo <= hi + 1 <= |resource| + origin
    ensures |Want(resource, origin, lo, hi)| == hi - lo + 1
  {
  }

  /** Adjacent ranges join up. */
  lemma WantSplit(resource: seq<byte>, origin: nat, lo: int, mid: int, hi: int)
    requires origin <= lo <= mid + 1 <= hi + 1 <= |resource| + origin
    ensures Want(resource, origin, lo, mid) + Want(resource, origin, mid + 1, hi) == Want(resource, origin, lo, hi)
  {
    assert resource[lo - origin .. hi - origin + 1]
        == resource[lo - origin .. mid - origin + 1] + resource[mid - origin + 1 .. hi - origin + 1];
  }

  /** The wire range asked for when `stored` bytes of the chunk `lo..hi`
      are already on disk: it starts at the first byte not yet stored and
      ends at the chunk's last byte. */
  function ResumeRange(origin: nat, lo: int, hi: int, stored: nat): Request
    requires origin <= lo <= hi
  {
    Range(lo - origin + stored, hi - origin)
  }

  /** Resuming is sound: a stored prefix of the chunk followed by what the
      server delivers for the resumed range is still a prefix of the chunk,
      and the whole chunk when the read completes.  No stored byte is asked
      for again. */
  lemma Resume(resource: seq<byte>, origin: nat, lo: int, hi: int, stored: seq<byte>, reply: Reply)
    requires origin <= lo <= hi < |resource| + origin
    requires stored <= Want(resource, origin, lo, hi) && |stored| < hi - lo + 1
    ensures var r := ResumeRange(origin, lo, hi, |stored|);
      var (body, complete) := Delivered(reply, Served(resource, r.first, r.last));
      && lo - origin + |stored| == r.first <= r.last < |resource|
      && stored + body <= Want(resource, origin, lo, hi)
      && (complete ==> stored + body == Want(resource, origin, lo, hi))
  {
    var first := lo - origin + |stored|;
    var whole := Served(resource, first, hi - origin);
    assert ResumeRange(origin, lo, hi, |stored|) == Range(first, hi - origin);
    ResumeSplit(resource, origin, lo, hi, stored);
    DeliveredPrefix(reply, whole);
    PrefixAppend(stored, Delivered(reply, whole).0, whole);
  }

  /** The chunk is its stored prefix followed by what the resumed range
      serves. */
  lemma ResumeSplit(resource: seq<byte>, origin: nat, lo: int, hi: int, stored: seq<byte>)
    requires origin <= lo <= hi < |resource| + origin
    requires stored <= Want(resource, origin, lo, hi) && |stored| < hi - lo + 1
    ensures Want(resource, origin, lo, hi) == stored + Served(resource, lo - origin + |stored|, hi - origin)
  {
    var first := lo - origin + |stored|;
    var w := Want(resource, origin, lo, hi);
    assert w == resource[lo - origin .. hi - origin + 1];
    assert Served(resource, first, hi - origin) == resource[first .. hi - origin + 1] == w[|stored|..];
    assert stored == w[..|stored|];
  }

  lemma PrefixAppend<T>(a: seq<T>, b: seq<T>, c: seq<T>)
    requires b <= c
    ensures a + b <= a + c
  {
    assert a + b == (a + c)[..|a| + |b|];
  }

  /** The bytes of consecutive ranges, concatenated in ascending order. */
  function Joined(resource: seq<byte>, origin: nat, ivs: seq<Interval>): seq<byte>
  {
    if ivs == [] then []
    else Joined(resource, origin, ivs[..|ivs| - 1]) + Want(resource, origin, ivs[|ivs| - 1].start, ivs[|ivs| - 1].stop)
  }

  /** Nonempty intervals inside `[lo, hi]`, each starting right after the
      previous one ends, the first at `lo`. */
  ghost predicate Adjacent(ivs: seq<Interval>, lo: int, hi: int)
  {
    && |ivs| > 0 && ivs[0].start == lo
    && (forall k :: 0 <= k < |ivs| ==> lo <= ivs[k].start <= ivs[k].stop <= hi)
    && (forall i, j :: 0 <= i && j == i + 1 && j < |ivs| ==> ivs[j].start == ivs[i].stop + 1)
  }

  /** The first `k` intervals of an adjacent run join up to one range. */
  lemma {:induction false} JoinedAdjacent(resource: seq<byte>, origin: nat, ivs: seq<Interval>, lo: int, hi: int, k: nat)
    requires Adjacent(ivs, lo, hi) && origin <= lo && hi < |resource| + origin
    requires 1 <= k <= |ivs|
    ensures Joined(resource, origin, ivs[..k]) == Want(resource, origin, lo, ivs[k - 1].stop)
    decreases k
  {
    var last := ivs[k - 1];
    var pre := ivs[..k - 1];
    assert ivs[..k][..k - 1] == pre && ivs[..k][k - 1] == last;
    assert Joined(resource, origin, ivs[..k]) == Joined(resource, origin, pre) + Want(resource, origin, last.start, last.stop);
    if k == 1 {
      assert pre == [];
    } else {
      var mid := ivs[k - 2].stop;
      assert last.start == mid + 1 && lo <= mid;
      JoinedAdjacent(resource, origin, ivs, lo, hi, k - 1);
      WantSplit(resource, origin, lo, mid, last.stop);
    }
  }

  /** Files holding consecutive ranges, appended in order, hold the ranges
      joined. */
  lemma {:induction false} ConcatenationJoined(files: map<string, seq<byte>>, names: seq<string>, resource: seq<byte>, origin: nat, ivs: seq<Interval>)
    requires |names| == |ivs|
    requires forall j :: 0 <= j < |ivs| ==> names[j] in files && files[names[j]] == Want(resource, origin, ivs[j].start, ivs[j].stop)
    ensures Concatenation(files, names) == Joined(resource, origin, ivs)
    decreases |ivs|
  {
    if ivs != [] {
      var n := |ivs| - 1;
      assert forall j :: 0 <= j < n ==> names[..n][j] == names[j] && ivs[..n][j] == ivs[j];
      ConcatenationJoined(files, names[..n], resource, origin, ivs[..n]);
      assert Concatenation(files, names) == Concatenation(files, names[..n]) + files[names[n]];
    }
  }

  /** Concatenating the pieces of `partition(lo, hi, size)` in ascending
      index gives back bytes `lo..hi`. */
  lemma JoinedIntervals(resource: seq<byte>, origin: nat, lo: int, hi: int, size: int)
    requires size > 0 && origin <= lo && hi < |resource| + origin
    ensures Joined(resource, origin, Intervals(lo, hi, size)) == Want(resource, origin, lo, hi)
  {
    var ivs := Intervals(lo, hi, size);
    ChopTiles(0, lo, hi, size);
    ChopInside(0, lo, hi, size);
    if lo <= hi {
      assert forall k :: 0 <= k < |ivs| ==> 1 <= Length(ivs[k]);
      JoinedAdjacent(resource, origin, ivs, lo, hi, |ivs|);
      assert ivs[..|ivs|] == ivs;
    }
  }

  /** The whole resource, numbered from either origin, is one range. */
  lemma WantAll(resource: seq<byte>, origin: nat)
    ensures Want(resource, origin, origin, |resource| + origin - 1) == resource
  {
  }

  /** The read loop `while True: chunk = await resp.content.read(CHUNKSIZE)`
      with `f.write(chunk)` until an empty read: the body is written in
      pieces of at most `CHUNKSIZE` bytes, which together append it whole. */
  method AppendBody(fs: FileSystem, path: string, body: seq<byte>)
    requires path in fs.files
    modifies fs
    ensures fs.files == old(fs.files)[path := old(fs.files)[path] + body]
    ensures fs.log == old(fs.log)
  {
    var k := 0;
    assert old(fs.files)[path] + body[..0] == old(fs.files)[path];
    assert old(fs.files)[path := old(fs.files)[path] + body[..0]] == old(fs.files);
    while k < |body|
      invariant 0 <= k <= |body|
      invariant fs.files == old(fs.files)[path := old(fs.files)[path] + body[..k]]
      invariant fs.log == old(fs.log)
      decreases |body| - k
    {
      var n := Min(CHUNK_SIZE, |body| - k);
      fs.Write(path, body[k .. k + n]);
      assert body[..k] + body[k .. k + n] == body[..k + n];
      assert old(fs.files)[path] + body[..k] + body[k .. k + n] == old(fs.files)[path] + body[..k + n];
      k := k + n;
    }
    assert body[..k] == body;
  }

  /** One attempt at a chunk stored in the file `path`, as the body of
      `download_chunk` and of `_download_part` do it: a file already holding
      the whole chunk (bytes `lo..hi`, numbered from `origin`) is kept and
      nothing is asked; otherwise the request resumes after the bytes the
      file holds, and the body is appended in reads of at most `CHUNKSIZE`
      bytes as it arrives.  `ok` is false when the read broke off. */
  method ResumeOnce(fs: FileSystem, server: Server, path: string, origin: nat, lo: int, hi: int) returns (ok: bool)
    requires origin <= lo <= hi
    modifies fs, server
    ensures var stored := if path in old(fs.files) then old(fs.files)[path] else [];
      var r := ResumeRange(origin, lo, hi, |stored|);
      if path in old(fs.files) && |stored| >= hi - lo + 1 then
        && ok
        && fs.files == old(fs.files)
        && server.requests == old(server.requests) && server.replies == old(server.replies)
      else
        && server.requests == old(server.requests) + [r]
        && server.replies == Rest(old(server.replies))
        && var (body, complete) := Delivered(Next(old(server.replies)), Served(server.resource, r.first, r.last));
        && fs.files == old(fs.files)[path := stored + body]
        && ok == complete
    ensures fs.log == old(fs.log)
  {
    var offset: nat := 0;
    if fs.Exists(path) {
      offset := fs.Size(path);
      if offset >= hi - lo + 1 {
        return true;
      }
    }
    var r := ResumeRange(origin, lo, hi, offset);
    fs.Open(path);
    var body, complete := server.Get(r.first, r.last);
    AppendBody(fs, path, body);
    ok := complete;
  }

  /** One attempt at a chunk whose file holds a prefix of it, described by
      what it achieves: the file still holds a prefix of the chunk, at least
      as long as before, and the whole chunk when the attempt succeeds; no
      other file changes; at most one request is made, for the bytes not yet
      stored; and a server that answers in full makes the attempt succeed. */
  method ResumeChunk(fs: FileSystem, server: Server, path: string, origin: nat, lo: int, hi: int) returns (ok: bool)
    requires origin <= lo <= hi < |server.resource| + origin
    requires path in fs.files ==> fs.files[path] <= Want(server.resource, origin, lo, hi)
    modifies fs, server
    ensures var stored := if path in old(fs.files) then old(fs.files)[path] else [];
      && path in fs.files
      && fs.files == old(fs.files)[path := fs.files[path]]
      && stored <= fs.files[path] <= Want(server.resource, origin, lo, hi)
      && (ok ==> fs.files[path] == Want(server.resource, origin, lo, hi))
      && (|stored| >= hi - lo + 1 ==> ok && fs.files == old(fs.files) && server.requests == old(server.requests))
      && (|stored| < hi - lo + 1 ==> server.requests == old(server.requests) + [ResumeRange(origin, lo, hi, |stored|)])
    ensures old(server.Faithful()) ==> ok && server.Faithful()
    ensures fs.log == old(fs.log)
  {
    ghost var stored := if path in fs.files then fs.files[path] else [];
    ghost var reply := Next(server.replies);
    WantLength(server.resource, origin, lo, hi);
    ok := ResumeOnce(fs, server, path, origin, lo, hi);
    if |stored| < hi - lo + 1 {
      Resume(server.resource, origin, lo, hi, stored, reply);
    } else {
      assert old(fs.files)[path := old(fs.files)[path]] == old(fs.files);
    }
  }
}

=== FILE: retry.dfy ===
/** The retry decorator `coroutine_retry(retry_times, sleep)`.

    The wrapped coroutine is modelled by what its successive calls do:
    `op(i)` is the outcome of the call numbered `i` (from 0).  `asyncio.sleep`
    is an observable step that does nothing but take time. */
module Retry {
  import opened Common

  /** One call of the wrapped coroutine: it returns a value or raises. */
  datatype Outcome<+T, +E> = Ok(value: T) | Raised(error: E)

  /** How the wrapper ends: with the first value returned, by re-raising the
      last error, or by falling out of an empty `for` loop (Python then returns
      `None`), which happens when `retry_times + 1 <= 0`. */
  datatype Verdict<+T, +E> = Returned(value: T) | Reraised(error: E) | FellThrough

  /** What the wrapper does, in order: call attempt `attempt`, or sleep. */
  datatype Step = Call(attempt: nat) | Nap(seconds: nat)

  /** The wrapper's loop from iteration `i` on: its verdict and its steps. */
  function Attempts<T, E>(retryTimes: int, pause: nat, op: nat -> Outcome<T, E>, i: nat): (Verdict<T, E>, seq<Step>)
    decreases retryTimes + 1 - i
  {
    if i > retryTimes then (FellThrough, [])
    else match op(i)
      case Ok(v) => (Returned(v), [Call(i)])
      case Raised(e) =>
        if i == retryTimes then (Reraised(e), [Call(i)])
        else
          var (verdict, steps) := Attempts(retryTimes, pause, op, i + 1);
          (verdict, [Call(i), Nap(pause)] + steps)
  }

  /** `wrap2`: `for i in range(retry_times + 1)`, return on success, re-raise
      on the last failure, otherwise sleep and go round again. */
  method CoroutineRetry<T, E>(retryTimes: int, pause: nat, op: nat -> Outcome<T, E>)
    returns (verdict: Verdict<T, E>, steps: seq<Step>)
    ensures (verdict, steps) == Attempts(retryTimes, pause, op, 0)
  {
    verdict, steps := FellThrough, [];
    var i: nat := 0;
    while i < retryTimes + 1
      invariant i == 0 || i <= retryTimes
      invariant Attempts(retryTimes, pause, op, 0).0 == Attempts(retryTimes, pause, op, i).0
      invariant Attempts(retryTimes, pause, op, 0).1 == steps + Attempts(retryTimes, pause, op, i).1
      decreases retryTimes + 1 - i
    {
      match op(i)
      case Ok(v) =>
        verdict, steps := Returned(v), steps + [Call(i)];
        return;
      case Raised(e) =>
        steps := steps + [Call(i)];
        if i == retryTimes {
          verdict := Reraised(e);
          return;
        }
        steps := steps + [Nap(pause)];
        i := i + 1;
    }
  }

  /** The first successful attempt among `i..last`, as an independent
      reference for what the wrapper returns. */
  function FirstOk<T, E>(op: nat -> Outcome<T, E>, i: nat, last: int): (k: Option<nat>)
    ensures k.Some? ==> i <= k.value <= last && op(k.value).Ok?
    ensures k.Some? ==> forall j :: i <= j < k.value ==> op(j).Raised?
    ensures k.None? ==> forall j :: i <= j <= last ==> op(j).Raised?
    decreases last + 1 - i
  {
    if i > last then None
    else if op(i).Ok? then Some(i)
    else FirstOk(op, i + 1, last)
  }

  /** Calls `i` to `j - 1` with a sleep of `pause` seconds between each two
      consecutive calls and none after the last. */
  function Schedule(pause: nat, i: nat, j: nat): seq<Step>
    decreases j - i
  {
    if j <= i then []
    else if j == i + 1 then [Call(i)]
    else [Call(i), Nap(pause)] + Schedule(pause, i + 1, j)
  }

  /** What the decorator is meant to do from call `i` on, stated without its
      loop: stop at the first success, or re-raise the error of the last
      allowed call. */
  function Expected<T, E>(retryTimes: int, pause: nat, op: nat -> Outcome<T, E>, i: nat): (Verdict<T, E>, seq<Step>)
    requires i <= retryTimes
  {
    match FirstOk(op, i, retryTimes)
    case Some(k) => (Returned(op(k).value), Schedule(pause, i, k + 1))
    case None =>
      var last := op(retryTimes);
      if last.Raised? then (Reraised(last.error), Schedule(pause, i, retryTimes + 1)) else (FellThrough, [])
  }

  /** The wrapper, completely: nothing when `retry_times < 0`; otherwise the
      first success within `retry_times + 1` calls is returned, and if every
      call fails the last call's error is re-raised unchanged. */
  lemma {:induction false} AttemptsCharacterised<T, E>(retryTimes: int, pause: nat, op: nat -> Outcome<T, E>, i: nat)
    ensures i > retryTimes ==> Attempts(retryTimes, pause, op, i) == (FellThrough, [])
    ensures i <= retryTimes ==> Attempts(retryTimes, pause, op, i) == Expected(retryTimes, pause, op, i)
    decreases retryTimes + 1 - i
  {
    if i < retryTimes && op(i).Raised? {
      AttemptsCharacterised(retryTimes, pause, op, i + 1);
    }
  }

  /** The steps of a schedule: exactly the calls `i..j-1` in order, one sleep
      between consecutive calls, never a sleep first or last. */
  lemma {:induction false} ScheduleShape(pause: nat, i: nat, j: nat)
    requires i < j
    ensures |Schedule(pause, i, j)| == 2 * (j - i) - 1
    ensures forall n :: 0 <= n < |Schedule(pause, i, j)| && n % 2 == 0 ==> Schedule(pause, i, j)[n] == Call(i + n / 2)
    ensures forall n :: 0 <= n < |Schedule(pause, i, j)| && n % 2 == 1 ==> Schedule(pause, i, j)[n] == Nap(pause)
    decreases j - i
  {
    if j > i + 1 {
      ScheduleShape(pause, i + 1, j);
      var s := Schedule(pause, i, j);
      var t := Schedule(pause, i + 1, j);
      forall n | 2 <= n < |s|
        ensures s[n] == t[n - 2]
      {
      }
    }
  }

  /** Counting the steps: the wrapper makes at most `retry_times + 1` calls
      and sleeps exactly once fewer than it calls. */
  function CallCount(steps: seq<Step>): nat
  {
    if steps == [] then 0 else (if steps[0].Call? then 1 else 0) + CallCount(steps[1..])
  }

  function NapCount(steps: seq<Step>): nat
  {
    if steps == [] then 0 else (if steps[0].Nap? then 1 else 0) + NapCount(steps[1..])
  }

  lemma {:induction false} ScheduleCounts(pause: nat, i: nat, j: nat)
    requires i < j
    ensures CallCount(Schedule(pause, i, j)) == j - i
    ensures NapCount(Schedule(pause, i, j)) == j - i - 1
    decreases j - i
  {
    if j > i + 1 {
      ScheduleCounts(pause, i + 1, j);
      var s := Schedule(pause, i, j);
      assert s[1..][1..] == Schedule(pause, i + 1, j);
    }
  }

  /** The durations of the sleeps among `steps`, in order. */
  function Naps(steps: seq<Step>): (r: seq<nat>)
    ensures |r| == NapCount(steps)
  {
    if steps == [] then [] else (if steps[0].Nap? then [steps[0].seconds] else []) + Naps(steps[1..])
  }

  /** Every sleep of a schedule lasts `pause` seconds. */
  lemma {:induction false} ScheduleNaps(pause: nat, i: nat, j: nat)
    requires i < j
    ensures Naps(Schedule(pause, i, j)) == Repeat(pause, j - i - 1)
    decreases j - i
  {
    if j > i + 1 {
      ScheduleNaps(pause, i + 1, j);
      var s := Schedule(pause, i, j);
      assert s[1..][1..] == Schedule(pause, i + 1, j);
      assert [pause] + Repeat(pause, j - i - 2) == Repeat(pause, j - i - 1);
    }
  }

  /** The shape every retried operation of the downloader has: with
      `retry_times >= 0` the coroutine is called at least once and at most
      `retry_times + 1` times, all of them unless a call returns, and the
      sleeps are `pause` seconds each, one fewer than the calls. */
  lemma RetryNaps<T, E>(retryTimes: nat, pause: nat, op: nat -> Outcome<T, E>)
    ensures var (verdict, steps) := Attempts(retryTimes, pause, op, 0);
      && 1 <= CallCount(steps) <= retryTimes + 1
      && (!verdict.Returned? ==> CallCount(steps) == retryTimes + 1)
      && Naps(steps) == Repeat(pause, CallCount(steps) - 1)
  {
    AttemptsCharacterised(retryTimes, pause, op, 0);
    var k := FirstOk(op, 0, retryTimes);
    var n := if k.Some? then k.value + 1 else retryTimes + 1;
    ScheduleCounts(pause, 0, n);
    ScheduleNaps(pause, 0, n);
  }

  /** The promises of the decorator, stated for the call made by the
      decorated coroutine. */
  lemma RetryBudget<T, E>(retryTimes: int, pause: nat, op: nat -> Outcome<T, E>)
    ensures var (verdict, steps) := Attempts(retryTimes, pause, op, 0);
      && CallCount(steps) <= (if retryTimes < 0 then 0 else retryTimes + 1)
      && (steps != [] ==> NapCount(steps) == CallCount(steps) - 1 && steps[|steps| - 1].Call?)
      && (verdict.Reraised? ==> CallCount(steps) == retryTimes + 1 && op(retryTimes) == Raised(verdict.error))
      && (verdict.Returned? ==> op(CallCount(steps) - 1) == Ok(verdict.value))
  {
    AttemptsCharacterised(retryTimes, pause, op, 0);
    if retryTimes >= 0 {
      var k := FirstOk(op, 0, retryTimes);
      var n := if k.Some? then k.value + 1 else retryTimes + 1;
      ScheduleCounts(pause, 0, n);
      ScheduleShape(pause, 0, n);
      var s := Schedule(pause, 0, n);
      assert (|s| - 1) % 2 == 0;
    }
  }

  /** The bare `except:` retries every error alike: two coroutines that fail on
      the same calls, whatever they raise, and return the same values lead to
      the same steps and the same kind of verdict. */
  lemma {:induction false} ErrorKindsAlike<T, E>(retryTimes: int, pause: nat, op: nat -> Outcome<T, E>, op': nat -> Outcome<T, E>, i: nat)
    requires forall j :: op(j).Ok? <==> op'(j).Ok?
    requires forall j :: op(j).Ok? ==> op(j).value == op'(j).value
    ensures Attempts(retryTimes, pause, op, i).1 == Attempts(retryTimes, pause, op', i).1
    ensures Attempts(retryTimes, pause, op, i).0.Returned? == Attempts(retryTimes, pause, op', i).0.Returned?
    ensures Attempts(retryTimes, pause, op, i).0.Returned? ==>
      Attempts(retryTimes, pause, op, i).0 == Attempts(retryTimes, pause, op', i).0
    decreases retryTimes + 1 - i
  {
    if i < retryTimes && op(i).Raised? {
      ErrorKindsAlike(retryTimes, pause, op, op', i + 1);
    }
  }

  /** With three retries and a coroutine that always fails, the coroutine is
      called exactly four times and its error is re-raised unchanged. */
  lemma AlwaysFailing<T, E>(pause: nat, e: E, op: nat -> Outcome<T, E>)
    requires forall j :: op(j) == Raised(e)
    ensures Attempts(3, pause, op, 0).0 == Reraised(e)
    ensures CallCount(Attempts(3, pause, op, 0).1) == 4
  {
    AttemptsCharacterised(3, pause, op, 0);
    ScheduleCounts(pause, 0, 4);
  }
}

=== FILE: stream.dfy ===
/** `UdemyStream` of the segmented downloader (async_udemy_dl.py): a video is
    fetched in parts of `PART_NUMBER` chunks, each chunk into its own
    temporary file that survives failures, so that a retry resumes where the
    last attempt stopped. */
module AsyncStream {
  import opened Common
  import opened Naming
  import opened Partition
  import opened Files
  import opened Ranges
  import Paths

  /** `coroutine_retry`'s default number of retries. */
  const RETRY_TIMES: nat := 5
  /** Seconds `download` and `download_part` sleep between attempts. */
  const STREAM_PAUSE: nat := 3
  /** Seconds `download_chunk` sleeps between attempts. */
  const CHUNK_PAUSE: nat := 5

  class Stream {
    /** `file_path`: where the finished video goes. */
    const filePath: string
    /** `part_file_path`: the stem of every temporary file. */
    const partFilePath: string
    const fs: FileSystem
    const server: Server
    /** Every `asyncio.sleep` taken so far, by duration. */
    var naps: seq<nat>

    ghost predicate Valid()
    {
      partFilePath == filePath + ".part"
    }

    constructor (directory: string, objectIndex: nat, title: string, contentType: string, fs: FileSystem, server: Server)
      ensures filePath == Paths.VideoPath(directory, objectIndex, title, contentType)
      ensures partFilePath == Paths.PartPath(directory, objectIndex, title, contentType)
      ensures Valid()
      ensures this.fs == fs && this.server == server && naps == []
    {
      filePath := Paths.VideoPath(directory, objectIndex, title, contentType);
      partFilePath := Paths.PartPath(directory, objectIndex, title, contentType);
      this.fs := fs;
      this.server := server;
      naps := [];
      Paths.PartPathExtendsVideoPath(directory, objectIndex, title, contentType);
    }

    ghost function Bytes(lo: int, hi: int): seq<byte>
    {
      Want(server.resource, 1, lo, hi)
    }

    /** `download_chunk` under `coroutine_retry(sleep=5)`. */
    method DownloadChunk(p: nat, c: nat, lo: int, hi: int) returns (ok: bool, attempts: nat)
      requires 1 <= lo <= hi <= |server.resource|
      requires ChunkName(partFilePath, p, c) in fs.files ==> fs.files[ChunkName(partFilePath, p, c)] <= Bytes(lo, hi)
      modifies this, fs, server
      ensures 1 <= attempts <= RETRY_TIMES + 1
      ensures !ok ==> attempts == RETRY_TIMES + 1
      ensures naps == old(naps) + Repeat(CHUNK_PAUSE, attempts - 1)
      ensures var path := ChunkName(partFilePath, p, c);
        var stored := if path in old(fs.files) then old(fs.files)[path] else [];
        && path in fs.files
        && fs.files == old(fs.files)[path := fs.files[path]]
        && stored <= fs.files[path] <= Bytes(lo, hi)
        && (ok ==> fs.files[path] == Bytes(lo, hi))
        && (|stored| >= hi - lo + 1 ==> ok && attempts == 1 && fs.files == old(fs.files) && server.requests == old(server.requests))
        && (forall i :: |old(server.requests)| <= i < |server.requests| ==>
              server.requests[i].Range? && server.requests[i].last == hi - 1 && server.requests[i].first >= lo - 1 + |stored|)
      ensures old(server.Faithful()) ==> ok && attempts == 1 && server.Faithful()
      ensures old(server.requests) <= server.requests
      ensures fs.log == old(fs.log)
    {
      var path := ChunkName(partFilePath, p, c);
      ghost var stored := if path in fs.files then fs.files[path] else [];
      ok, attempts := false, 0;
      while attempts < RETRY_TIMES + 1 && !ok
        invariant attempts <= RETRY_TIMES + 1
        invariant ok ==> attempts >= 1
        invariant naps == old(naps) + Repeat(CHUNK_PAUSE, if attempts == 0 then 0 else attempts - 1)
        invariant attempts == 0 ==> fs.files == old(fs.files) && server.requests == old(server.requests)
        invariant attempts > 0 ==> path in fs.files && fs.files == old(fs.files)[path := fs.files[path]] && stored <= fs.files[path]
        invariant path in fs.files ==> fs.files[path] <= Bytes(lo, hi)
        invariant ok ==> path in fs.files && fs.files[path] == Bytes(lo, hi)
        invariant |stored| >= hi - lo + 1 ==> (attempts > 0 ==> ok && attempts == 1) && server.requests == old(server.requests) && fs.files == old(fs.files)
        invariant old(server.Faithful()) ==> server.Faithful() && (attempts > 0 ==> ok && attempts == 1)
        invariant old(server.requests) <= server.requests
        invariant forall i :: |old(server.requests)| <= i < |server.requests| ==>
              server.requests[i].Range? && server.requests[i].last == hi - 1 && server.requests[i].first >= lo - 1 + |stored|
        invariant fs.log == old(fs.log)
        decreases RETRY_TIMES + 1 - attempts
      {
        if attempts > 0 {
          naps := naps + [CHUNK_PAUSE];
        }
        ok := ResumeChunk(fs, server, path, 1, lo, hi);
        attempts := attempts + 1;
      }
    }

    // -------------------------------------------------------------------
    // Parts

    /** The chunk files of part `p` numbered below `n`, in ascending order. */
    function ChunkNames(p: nat, n: nat): (names: seq<string>)
      ensures |names| == n
    {
      if n == 0 then [] else ChunkNames(p, n - 1) + [ChunkName(partFilePath, p, n - 1)]
    }

    /** Every chunk file of part `p` present holds a prefix of its chunk. */
    ghost predicate ChunksOk(files: map<string, seq<byte>>, p: nat, chunks: seq<Interval>)
    {
      forall c :: 0 <= c < |chunks| && ChunkName(partFilePath, p, c) in files ==>
        files[ChunkName(partFilePath, p, c)] <= Bytes(chunks[c].start, chunks[c].stop)
    }

    /** The files of part `p` (bytes `lo..hi`) are sound: the part file, if
        present, holds the whole part, and each chunk file a prefix of its
        chunk. */
    ghost predicate PartOk(files: map<string, seq<byte>>, p: nat, lo: int, hi: int)
    {
      && (PartName(partFilePath, p) in files ==> files[PartName(partFilePath, p)] == Bytes(lo, hi))
      && ChunksOk(files, p, Intervals(lo, hi, CHUNK_SIZE))
    }

    /** Only names belonging to part `p` differ. */
    ghost predicate Untouched(files: map<string, seq<byte>>, files': map<string, seq<byte>>, p: nat)
    {
      forall name :: !Owned(partFilePath, p, name) ==> Lookup(files, name) == Lookup(files', name)
    }

    lemma UntouchedStep(files: map<string, seq<byte>>, files': map<string, seq<byte>>, p: nat, name: string, x: seq<byte>)
      requires Untouched(files, files', p) && Owned(partFilePath, p, name)
      ensures Untouched(files, files'[name := x], p)
      ensures Untouched(files, files' - {name}, p)
    {
    }

    /** Storing a prefix of chunk `i` in its file keeps part `p` sound and
        leaves every other chunk file and the part file as they were. */
    lemma ChunkWrite(files: map<string, seq<byte>>, p: nat, chunks: seq<Interval>, i: nat, x: seq<byte>)
      requires ChunksOk(files, p, chunks) && i < |chunks|
      requires x <= Bytes(chunks[i].start, chunks[i].stop)
      ensures ChunksOk(files[ChunkName(partFilePath, p, i) := x], p, chunks)
      ensures forall c :: c != i ==> ChunkName(partFilePath, p, c) != ChunkName(partFilePath, p, i)
      ensures ChunkName(partFilePath, p, i) != PartName(partFilePath, p)
    {
      forall c ensures c != i ==> ChunkName(partFilePath, p, c) != ChunkName(partFilePath, p, i) {
        ChunkNameInjective(partFilePath, p, c, p, i);
      }
      ChunkNameIsNotPartName(partFilePath, p, i, p);
    }

    /** Writing the part file does not disturb its chunk files. */
    lemma PartWrite(files: map<string, seq<byte>>, p: nat, chunks: seq<Interval>, x: seq<byte>)
      requires ChunksOk(files, p, chunks)
      ensures ChunksOk(files[PartName(partFilePath, p) := x], p, chunks)
    {
      forall c ensures ChunkName(partFilePath, p, c) != PartName(partFilePath, p) {
        ChunkNameIsNotPartName(partFilePath, p, c, p);
      }
    }

    /** The chunk files of part `p` numbered below `n`, as a set. */
    ghost function ChunkSet(p: nat, n: nat): set<string>
    {
      set c | 0 <= c < n :: ChunkName(partFilePath, p, c)
    }

    /** The `gather` over the chunks of part `p`, one chunk after another:
        it stops at the first chunk whose retries are used up, and on success
        every chunk file holds its whole chunk. */
    method GatherChunks(p: nat, lo: int, hi: int, chunks: seq<Interval>) returns (ok: bool)
      requires 1 <= lo <= hi <= |server.resource|
      requires chunks == Intervals(lo, hi, CHUNK_SIZE) && Within(chunks, lo, hi)
      requires PartOk(fs.files, p, lo, hi) && PartName(partFilePath, p) !in fs.files
      modifies this, fs, server
      ensures PartOk(fs.files, p, lo, hi) && PartName(partFilePath, p) !in fs.files
      ensures Untouched(old(fs.files), fs.files, p)
      ensures ok ==> forall j :: 0 <= j < |chunks| ==>
        ChunkName(partFilePath, p, j) in fs.files && fs.files[ChunkName(partFilePath, p, j)] == Bytes(chunks[j].start, chunks[j].stop)
      ensures fs.log == old(fs.log)
      ensures old(server.requests) <= server.requests && old(naps) <= naps
      ensures GrownWith(old(naps), naps, CHUNK_PAUSE)
      ensures old(server.Faithful()) ==> ok && server.Faithful() && naps == old(naps)
    {
      ChopTiles(0, lo, hi, CHUNK_SIZE);
      var i := 0;
      while i < |chunks|
        invariant 0 <= i <= |chunks|
        invariant PartOk(fs.files, p, lo, hi) && PartName(partFilePath, p) !in fs.files
        invariant Untouched(old(fs.files), fs.files, p)
        invariant forall j :: 0 <= j < i ==>
          ChunkName(partFilePath, p, j) in fs.files && fs.files[ChunkName(partFilePath, p, j)] == Bytes(chunks[j].start, chunks[j].stop)
        invariant fs.log == old(fs.log)
        invariant old(server.requests) <= server.requests && old(naps) <= naps
        invariant GrownWith(old(naps), naps, CHUNK_PAUSE)
        invariant old(server.Faithful()) ==> server.Faithful() && naps == old(naps)
      {
        var name := ChunkName(partFilePath, p, i);
        ghost var before := fs.files;
        ghost var slept := naps;
        var chunkOk, attempts := DownloadChunk(p, i, chunks[i].start, chunks[i].stop);
        GrownWithTrans(old(naps), slept, naps, CHUNK_PAUSE);
        ChunkWrite(before, p, chunks, i, fs.files[name]);
        assert fs.files == before[name := fs.files[name]];
        ChunkNameOwned(partFilePath, p, i);
        UntouchedStep(old(fs.files), before, p, name, fs.files[name]);
        if !chunkOk {
          return false;
        }
        i := i + 1;
      }
      ok := true;
    }

    lemma {:induction false} ChunkNamesAt(p: nat, n: nat)
      ensures forall j :: 0 <= j < n ==> ChunkNames(p, n)[j] == ChunkName(partFilePath, p, j)
    {
      if n > 0 {
        ChunkNamesAt(p, n - 1);
        assert ChunkNames(p, n)[..n - 1] == ChunkNames(p, n - 1);
      }
    }

    /** The chunk files of part `p` numbered below `n` are as many distinct
        names as there are chunks, and as a set they are `ChunkSet(p, n)`. */
    lemma ChunkNamesDistinct(p: nat, n: nat)
      ensures forall j, k :: 0 <= j < k < n ==> ChunkNames(p, n)[j] != ChunkNames(p, n)[k]
      ensures NameSet(ChunkNames(p, n)) == ChunkSet(p, n)
    {
      ChunkNamesAt(p, n);
      forall j, k | 0 <= j < k < n ensures ChunkNames(p, n)[j] != ChunkNames(p, n)[k] {
        ChunkNameInjective(partFilePath, p, j, p, k);
      }
      forall c | 0 <= c < n ensures ChunkName(partFilePath, p, c) in NameSet(ChunkNames(p, n)) {
        assert ChunkNames(p, n)[c] == ChunkName(partFilePath, p, c);
      }
    }

    /** `with open(part_file_path, 'ab')`, appending every chunk file in
        ascending chunk order. */
    method ConcatChunks(p: nat, chunks: seq<Interval>)
      requires PartName(partFilePath, p) !in fs.files
      requires forall j :: 0 <= j < |chunks| ==>
        ChunkName(partFilePath, p, j) in fs.files && fs.files[ChunkName(partFilePath, p, j)] == Bytes(chunks[j].start, chunks[j].stop)
      modifies fs
      ensures fs.files == old(fs.files)[PartName(partFilePath, p) := Joined(server.resource, 1, chunks)]
      ensures fs.log == old(fs.log) + CopyAll(ChunkNames(p, |chunks|), PartName(partFilePath, p))
    {
      var names := ChunkNames(p, |chunks|);
      ChunkNamesAt(p, |chunks|);
      forall j | 0 <= j < |chunks| ensures names[j] != PartName(partFilePath, p) {
        ChunkNameIsNotPartName(partFilePath, p, j, p);
      }
      ConcatenationJoined(fs.files, names, server.resource, 1, chunks);
      fs.Concatenate(PartName(partFilePath, p), names);
      assert [] + Joined(server.resource, 1, chunks) == Joined(server.resource, 1, chunks);
    }

    /** `os.remove` of every chunk file, in ascending chunk order. */
    method RemoveChunks(p: nat, n: nat)
      requires forall j :: 0 <= j < n ==> ChunkName(partFilePath, p, j) in fs.files
      modifies fs
      ensures fs.files == old(fs.files) - ChunkSet(p, n)
      ensures fs.log == old(fs.log) + RemoveAll(ChunkNames(p, n))
    {
      ChunkNamesAt(p, n);
      ChunkNamesDistinct(p, n);
      fs.RemoveEach(ChunkNames(p, n));
    }

    /** Writing the part file and then removing its chunk files leaves part
        `p` sound, its part file present, its chunk files gone and every
        other name alone. */
    lemma PartDone(files: map<string, seq<byte>>, gathered: map<string, seq<byte>>, p: nat, lo: int, hi: int)
      requires Untouched(files, gathered, p) && ChunksOk(gathered, p, Intervals(lo, hi, CHUNK_SIZE))
      ensures var n := |Intervals(lo, hi, CHUNK_SIZE)|;
        var after := gathered[PartName(partFilePath, p) := Bytes(lo, hi)] - ChunkSet(p, n);
        && PartOk(after, p, lo, hi)
        && Untouched(files, after, p)
        && PartName(partFilePath, p) in after
        && forall c :: 0 <= c < n ==> ChunkName(partFilePath, p, c) !in after
    {
      var n := |Intervals(lo, hi, CHUNK_SIZE)|;
      var path := PartName(partFilePath, p);
      var joined := gathered[path := Bytes(lo, hi)];
      var after := joined - ChunkSet(p, n);
      forall c | 0 <= c < n ensures ChunkName(partFilePath, p, c) !in after {
        assert ChunkName(partFilePath, p, c) in ChunkSet(p, n);
      }
      assert path !in ChunkSet(p, n) by {
        forall c | 0 <= c < n ensures ChunkName(partFilePath, p, c) != path {
          ChunkNameIsNotPartName(partFilePath, p, c, p);
        }
      }
      ChunkNameOwned(partFilePath, p, 0);
      forall name | !Owned(partFilePath, p, name)
        ensures Lookup(files, name) == Lookup(after, name)
      {
        assert name != path;
        assert name !in ChunkSet(p, n) by {
          forall c | 0 <= c < n ensures ChunkName(partFilePath, p, c) != name {
            ChunkNameOwned(partFilePath, p, c);
          }
        }
      }
    }

    /** One attempt of `download_part` for part `p` (bytes `lo..hi`): an
        existing part file is trusted and nothing is done; otherwise every
        chunk is fetched in ascending order, the part file becomes their
        concatenation in ascending chunk order, and only then are the chunk
        files removed. */
    method PartOnce(p: nat, lo: int, hi: int) returns (ok: bool)
      requires 1 <= lo <= hi <= |server.resource|
      requires PartName(partFilePath, p) !in fs.files ==> ChunksOk(fs.files, p, Intervals(lo, hi, CHUNK_SIZE))
      modifies this, fs, server
      ensures PartName(partFilePath, p) !in old(fs.files) ==> PartOk(fs.files, p, lo, hi)
      ensures Untouched(old(fs.files), fs.files, p)
      ensures PartName(partFilePath, p) in old(fs.files) ==>
        ok && fs.files == old(fs.files) && fs.log == old(fs.log) && server.requests == old(server.requests) && naps == old(naps)
      ensures PartName(partFilePath, p) !in old(fs.files) ==>
        var n := |Intervals(lo, hi, CHUNK_SIZE)|;
        if ok then
          && PartName(partFilePath, p) in fs.files
          && (forall c :: 0 <= c < n ==> ChunkName(partFilePath, p, c) !in fs.files)
          && fs.log == old(fs.log) + CopyAll(ChunkNames(p, n), PartName(partFilePath, p)) + RemoveAll(ChunkNames(p, n))
        else
          PartName(partFilePath, p) !in fs.files && fs.log == old(fs.log)
      ensures old(server.Faithful()) ==> ok && server.Faithful() && naps == old(naps)
      ensures old(server.requests) <= server.requests
      ensures old(naps) <= naps
      ensures GrownWith(old(naps), naps, CHUNK_PAUSE)
    {
      var path := PartName(partFilePath, p);
      if fs.Exists(path) {
        return true;
      }
      var chunks := Partition.Partition(lo, hi, CHUNK_SIZE);
      ChopInside(0, lo, hi, CHUNK_SIZE);
      ok := GatherChunks(p, lo, hi, chunks);
      if !ok {
        return;
      }
      ghost var gathered := fs.files;
      ConcatChunks(p, chunks);
      JoinedIntervals(server.resource, 1, lo, hi, CHUNK_SIZE);
      RemoveChunks(p, |chunks|);
      PartDone(old(fs.files), gathered, p, lo, hi);
    }

    /** `download_part` under `coroutine_retry(sleep=3)`: at most six
        attempts, three seconds apart.  A failed attempt removes nothing, so
        the next one resumes from the chunk files left behind. */
    method DownloadPart(p: nat, lo: int, hi: int) returns (ok: bool, attempts: nat)
      requires 1 <= lo <= hi <= |server.resource|
      requires PartName(partFilePath, p) !in fs.files ==> ChunksOk(fs.files, p, Intervals(lo, hi, CHUNK_SIZE))
      modifies this, fs, server
      ensures 1 <= attempts <= RETRY_TIMES + 1
      ensures !ok ==> attempts == RETRY_TIMES + 1
      ensures PartName(partFilePath, p) !in old(fs.files) ==> PartOk(fs.files, p, lo, hi)
      ensures PartOk(old(fs.files), p, lo, hi) ==> PartOk(fs.files, p, lo, hi)
      ensures Untouched(old(fs.files), fs.files, p)
      ensures ok <==> PartName(partFilePath, p) in fs.files
      ensures ok && PartName(partFilePath, p) !in old(fs.files) ==> fs.files[PartName(partFilePath, p)] == Bytes(lo, hi)
      ensures PartName(partFilePath, p) in old(fs.files) ==>
        ok && attempts == 1 && fs.files == old(fs.files) && fs.log == old(fs.log) && server.requests == old(server.requests) && naps == old(naps)
      ensures var n := |Intervals(lo, hi, CHUNK_SIZE)|;
        fs.log == if ok && PartName(partFilePath, p) !in old(fs.files)
                  then old(fs.log) + CopyAll(ChunkNames(p, n), PartName(partFilePath, p)) + RemoveAll(ChunkNames(p, n))
                  else old(fs.log)
      ensures ok && PartName(partFilePath, p) !in old(fs.files) ==>
        forall c :: 0 <= c < |Intervals(lo, hi, CHUNK_SIZE)| ==> ChunkName(partFilePath, p, c) !in fs.files
      ensures CopiedBeforeRemoved(old(fs.log)) ==> CopiedBeforeRemoved(fs.log)
      ensures old(server.Faithful()) ==> ok && attempts == 1 && server.Faithful() && naps == old(naps)
      ensures old(server.requests) <= server.requests
      ensures old(naps) <= naps
      ensures multiset(naps)[STREAM_PAUSE] == multiset(old(naps))[STREAM_PAUSE] + attempts - 1
    {
      var path := PartName(partFilePath, p);
      ghost var n := |Intervals(lo, hi, CHUNK_SIZE)|;
      ok, attempts := false, 0;
      while attempts < RETRY_TIMES + 1 && !ok
        invariant attempts <= RETRY_TIMES + 1
        invariant ok ==> attempts >= 1
        invariant attempts == 0 ==> fs.files == old(fs.files) && naps == old(naps)
        invariant path !in old(fs.files) ==> PartOk(fs.files, p, lo, hi)
        invariant Untouched(old(fs.files), fs.files, p)
        invariant attempts > 0 ==> (ok <==> path in fs.files)
        invariant path in old(fs.files) ==>
          (attempts > 0 ==> ok && attempts == 1) && fs.files == old(fs.files) && fs.log == old(fs.log) && server.requests == old(server.requests) && naps == old(naps)
        invariant fs.log == if ok && path !in old(fs.files)
                  then old(fs.log) + CopyAll(ChunkNames(p, n), path) + RemoveAll(ChunkNames(p, n))
                  else old(fs.log)
        invariant ok && path !in old(fs.files) ==>
          forall c :: 0 <= c < n ==> ChunkName(partFilePath, p, c) !in fs.files
        invariant old(server.Faithful()) ==> server.Faithful() && naps == old(naps) && (attempts > 0 ==> ok && attempts == 1)
        invariant old(server.requests) <= server.requests
        invariant old(naps) <= naps
        invariant multiset(naps)[STREAM_PAUSE] == multiset(old(naps))[STREAM_PAUSE] + (if attempts == 0 then 0 else attempts - 1)
        decreases RETRY_TIMES + 1 - attempts
      {
        if attempts > 0 {
          naps := naps + [STREAM_PAUSE];
        }
        ghost var slept := naps;
        ok := PartOnce(p, lo, hi);
        OccurrencesKept(slept, naps, CHUNK_PAUSE, STREAM_PAUSE);
        attempts := attempts + 1;
      }
      if ok && path !in old(fs.files) && CopiedBeforeRemoved(old(fs.log)) {
        CopyThenRemove(old(fs.log), ChunkNames(p, n), path);
      }
    }

    // -------------------------------------------------------------------
    // The whole stream

    /** The parts of the stream: `partition(1, content_length, CHUNKSIZE * PART_NUMBER)`. */
    ghost function Parts(): seq<Interval>
    {
      Intervals(1, |server.resource|, PART_SIZE)
    }

    /** The part files numbered below `n`, in ascending order. */
    function PartNames(n: nat): (names: seq<string>)
      ensures |names| == n
    {
      if n == 0 then [] else PartNames(n - 1) + [PartName(partFilePath, n - 1)]
    }

    ghost function PartSet(n: nat): set<string>
    {
      set q | 0 <= q < n :: PartName(partFilePath, q)
    }

    /** Every file the downloader may trust holds what it should: the video
        file the whole resource, every part file its part, every chunk file a
        prefix of its chunk. */
    ghost predicate Consistent(files: map<string, seq<byte>>)
    {
      && (filePath in files ==> files[filePath] == server.resource)
      && forall p :: 0 <= p < |Parts()| ==> PartOk(files, p, Parts()[p].start, Parts()[p].stop)
    }

    /** The video file is shorter than every temporary name, so no part owns it. */
    lemma FileNotOwned(p: nat)
      requires Valid()
      ensures !Owned(partFilePath, p, filePath)
    {
      ShortNameNotOwned(partFilePath, p, filePath);
    }

    /** A directory without any file whose name starts with the video path is
        consistent: there is nothing in it to trust. */
    lemma FreshDirectory(files: map<string, seq<byte>>)
      requires Valid()
      requires forall name :: name in files ==> !(filePath <= name)
      ensures Consistent(files)
    {
      assert filePath <= filePath;
      forall p, c ensures PartName(partFilePath, p) !in files && ChunkName(partFilePath, p, c) !in files {
        assert filePath <= PartName(partFilePath, p);
        assert filePath <= ChunkName(partFilePath, p, c);
      }
    }

    /** Work confined to the names of part `i` that leaves part `i` sound
        keeps the whole directory consistent and every other part file as
        it was. */
    lemma PartStep(files: map<string, seq<byte>>, files': map<string, seq<byte>>, i: nat)
      requires Valid() && Consistent(files) && i < |Parts()|
      requires Untouched(files, files', i) && PartOk(files', i, Parts()[i].start, Parts()[i].stop)
      ensures Consistent(files')
      ensures forall j :: j != i ==> Lookup(files, PartName(partFilePath, j)) == Lookup(files', PartName(partFilePath, j))
      ensures Lookup(files, filePath) == Lookup(files', filePath)
    {
      FileNotOwned(i);
      forall j | j != i
        ensures Lookup(files, PartName(partFilePath, j)) == Lookup(files', PartName(partFilePath, j))
      {
        OwnedDisjoint(partFilePath, i, j, 0);
      }
      forall j, c | j != i
        ensures Lookup(files, ChunkName(partFilePath, j, c)) == Lookup(files', ChunkName(partFilePath, j, c))
      {
        OwnedDisjoint(partFilePath, i, j, c);
      }
      forall j | 0 <= j < |Parts()| && j != i
        ensures PartOk(files', j, Parts()[j].start, Parts()[j].stop)
      {
        assert PartOk(files, j, Parts()[j].start, Parts()[j].stop);
        var chunks := Intervals(Parts()[j].start, Parts()[j].stop, CHUNK_SIZE);
        forall c | 0 <= c < |chunks| && ChunkName(partFilePath, j, c) in files'
          ensures files'[ChunkName(partFilePath, j, c)] <= Bytes(chunks[c].start, chunks[c].stop)
        {
          assert Lookup(files, ChunkName(partFilePath, j, c)) == Lookup(files', ChunkName(partFilePath, j, c));
        }
      }
    }

    /** Writing the whole resource to the video file and then removing the
        part files numbered below `n` keeps the directory consistent and
        leaves none of those part files behind. */
    lemma StreamDone(files: map<string, seq<byte>>, n: nat)
      requires Valid() && Consistent(files)
      ensures var after := files[filePath := server.resource] - PartSet(n);
        && Consistent(after)
        && filePath in after
        && forall q :: 0 <= q < n ==> PartName(partFilePath, q) !in after
    {
      var joined := files[filePath := server.resource];
      var after := joined - PartSet(n);
      forall p, c
        ensures PartName(partFilePath, p) != filePath && ChunkName(partFilePath, p, c) != filePath
        ensures ChunkName(partFilePath, p, c) !in PartSet(n)
      {
        FileNotOwned(p);
        ChunkNameOwned(partFilePath, p, c);
        forall q | 0 <= q < n ensures ChunkName(partFilePath, p, c) != PartName(partFilePath, q) {
          ChunkNameIsNotPartName(partFilePath, p, c, q);
        }
      }
      assert filePath !in PartSet(n);
      forall q | 0 <= q < n ensures PartName(partFilePath, q) !in after {
        assert PartName(partFilePath, q) in PartSet(n);
      }
      forall p | 0 <= p < |Parts()|
        ensures PartOk(after, p, Parts()[p].start, Parts()[p].stop)
      {
        assert PartOk(files, p, Parts()[p].start, Parts()[p].stop);
      }
    }

    /** The list comprehension of `download`: every part in ascending order,
        stopping at the first whose retries are used up. */
    method GatherParts(parts: seq<Interval>) returns (ok: bool)
      requires Valid() && parts == Parts()
      requires Consistent(fs.files) && filePath !in fs.files
      modifies this, fs, server
      ensures Consistent(fs.files) && filePath !in fs.files
      ensures ok ==> forall j :: 0 <= j < |parts| ==> PartName(partFilePath, j) in fs.files
      ensures CopiedBeforeRemoved(old(fs.log)) ==> CopiedBeforeRemoved(fs.log)
      ensures old(server.Faithful()) ==> ok && server.Faithful() && naps == old(naps)
      ensures old(server.requests) <= server.requests
      ensures old(naps) <= naps
    {
      ChopTiles(0, 1, |server.resource|, PART_SIZE);
      ChopInside(0, 1, |server.resource|, PART_SIZE);
      var i := 0;
      while i < |parts|
        invariant 0 <= i <= |parts|
        invariant Consistent(fs.files) && filePath !in fs.files
        invariant forall j :: 0 <= j < i ==> PartName(partFilePath, j) in fs.files
        invariant CopiedBeforeRemoved(old(fs.log)) ==> CopiedBeforeRemoved(fs.log)
        invariant old(server.Faithful()) ==> server.Faithful() && naps == old(naps)
        invariant old(server.requests) <= server.requests
        invariant old(naps) <= naps
      {
        ghost var before := fs.files;
        assert PartOk(fs.files, i, parts[i].start, parts[i].stop);
        var partOk, attempts := DownloadPart(i, parts[i].start, parts[i].stop);
        PartStep(before, fs.files, i);
        FileNotOwned(i);
        if !partOk {
          return false;
        }
        forall j | 0 <= j < i ensures PartName(partFilePath, j) in fs.files {
          assert Lookup(before, PartName(partFilePath, j)) == Lookup(fs.files, PartName(partFilePath, j));
        }
        i := i + 1;
      }
      ok := true;
    }

    lemma {:induction false} PartNamesAt(n: nat)
      ensures forall j :: 0 <= j < n ==> PartNames(n)[j] == PartName(partFilePath, j)
    {
      if n > 0 {
        PartNamesAt(n - 1);
        assert PartNames(n)[..n - 1] == PartNames(n - 1);
      }
    }

    /** The part files numbered below `n` are distinct names, and as a set
        they are `PartSet(n)`. */
    lemma PartNamesDistinct(n: nat)
      ensures forall j, k :: 0 <= j < k < n ==> PartNames(n)[j] != PartNames(n)[k]
      ensures NameSet(PartNames(n)) == PartSet(n)
    {
      PartNamesAt(n);
      forall j, k | 0 <= j < k < n ensures PartNames(n)[j] != PartNames(n)[k] {
        PartNameInjective(partFilePath, j, k);
      }
      forall q | 0 <= q < n ensures PartName(partFilePath, q) in NameSet(PartNames(n)) {
        assert PartNames(n)[q] == PartName(partFilePath, q);
      }
    }

    /** `with open(self.file_path, 'ab')`, appending every part file in
        ascending order. */
    method ConcatParts(parts: seq<Interval>)
      requires Valid() && filePath !in fs.files
      requires forall j :: 0 <= j < |parts| ==>
        PartName(partFilePath, j) in fs.files && fs.files[PartName(partFilePath, j)] == Bytes(parts[j].start, parts[j].stop)
      modifies fs
      ensures fs.files == old(fs.files)[filePath := Joined(server.resource, 1, parts)]
      ensures fs.log == old(fs.log) + CopyAll(PartNames(|parts|), filePath)
    {
      var names := PartNames(|parts|);
      PartNamesAt(|parts|);
      forall j | 0 <= j < |parts| ensures names[j] != filePath {
        assert |filePath| < |PartName(partFilePath, j)|;
      }
      ConcatenationJoined(fs.files, names, server.resource, 1, parts);
      fs.Concatenate(filePath, names);
      assert [] + Joined(server.resource, 1, parts) == Joined(server.resource, 1, parts);
    }

    /** `os.remove` of every part file, in ascending order. */
    method RemoveParts(n: nat)
      requires forall j :: 0 <= j < n ==> PartName(partFilePath, j) in fs.files
      modifies fs
      ensures fs.files == old(fs.files) - PartSet(n)
      ensures fs.log == old(fs.log) + RemoveAll(PartNames(n))
    {
      PartNamesAt(n);
      PartNamesDistinct(n);
      fs.RemoveEach(PartNames(n));
    }

    /** One attempt of `download`: an existing video file is trusted;
        otherwise the length is asked for, every part is fetched, the video
        file becomes their concatenation and only then are the part files
        removed. */
    method DownloadOnce() returns (ok: bool)
      requires Valid() && (filePath !in fs.files ==> Consistent(fs.files))
      modifies this, fs, server
      ensures filePath !in old(fs.files) ==> Consistent(fs.files)
      ensures Consistent(old(fs.files)) ==> Consistent(fs.files)
      ensures ok <==> filePath in fs.files
      ensures filePath in old(fs.files) ==>
        ok && fs.files == old(fs.files) && fs.log == old(fs.log) && server.requests == old(server.requests) && naps == old(naps)
      ensures filePath !in old(fs.files) ==>
        |old(server.requests)| < |server.requests| && server.requests[|old(server.requests)|] == Probe
      ensures ok && filePath !in old(fs.files) ==> forall p :: 0 <= p < |Parts()| ==> PartName(partFilePath, p) !in fs.files
      ensures CopiedBeforeRemoved(old(fs.log)) ==> CopiedBeforeRemoved(fs.log)
      ensures old(server.Faithful()) ==> ok && server.Faithful() && naps == old(naps)
      ensures old(server.requests) <= server.requests
      ensures old(naps) <= naps
    {
      if fs.Exists(filePath) {
        return true;
      }
      var contentLength := server.Head();
      if contentLength.None? {
        return false;
      }
      ghost var probed := server.requests;
      var parts := Partition.Partition(1, contentLength.value, PART_SIZE);
      ok := GatherParts(parts);
      assert probed <= server.requests;
      if !ok {
        return;
      }
      ghost var log := fs.log;
      ghost var gathered := fs.files;
      forall j | 0 <= j < |parts|
        ensures gathered[PartName(partFilePath, j)] == Bytes(parts[j].start, parts[j].stop)
      {
        assert PartOk(gathered, j, Parts()[j].start, Parts()[j].stop);
      }
      ConcatParts(parts);
      JoinedIntervals(server.resource, 1, 1, |server.resource|, PART_SIZE);
      RemoveParts(|parts|);
      StreamDone(gathered, |parts|);
      if CopiedBeforeRemoved(old(fs.log)) {
        CopyThenRemove(log, PartNames(|parts|), filePath);
      }
    }

    /** `download` under `coroutine_retry(sleep=3)`.  When it reports
        success the video file holds exactly the bytes of the stream. */
    method Download() returns (ok: bool, attempts: nat)
      requires Valid() && (filePath !in fs.files ==> Consistent(fs.files))
      modifies this, fs, server
      ensures 1 <= attempts <= RETRY_TIMES + 1
      ensures !ok ==> attempts == RETRY_TIMES + 1
      ensures filePath !in old(fs.files) ==> Consistent(fs.files)
      ensures Consistent(old(fs.files)) ==> Consistent(fs.files)
      ensures ok <==> filePath in fs.files
      ensures ok && filePath !in old(fs.files) ==> fs.files[filePath] == server.resource
      ensures filePath in old(fs.files) ==>
        ok && attempts == 1 && fs.files == old(fs.files) && server.requests == old(server.requests) && naps == old(naps)
      ensures CopiedBeforeRemoved(old(fs.log)) ==> CopiedBeforeRemoved(fs.log)
      ensures old(server.Faithful()) ==> ok && attempts == 1 && naps == old(naps)
      ensures old(server.requests) <= server.requests
    {
      ok, attempts := false, 0;
      while attempts < RETRY_TIMES + 1 && !ok
        invariant attempts <= RETRY_TIMES + 1
        invariant ok ==> attempts >= 1
        invariant filePath !in old(fs.files) ==> Consistent(fs.files)
        invariant attempts > 0 ==> (ok <==> filePath in fs.files)
        invariant filePath in old(fs.files) ==>
          (attempts > 0 ==> ok && attempts == 1) && fs.files == old(fs.files) && server.requests == old(server.requests) && naps == old(naps)
        invariant CopiedBeforeRemoved(old(fs.log)) ==> CopiedBeforeRemoved(fs.log)
        invariant old(server.Faithful()) ==> server.Faithful() && naps == old(naps) && (attempts > 0 ==> ok && attempts == 1)
        invariant old(server.requests) <= server.requests
        decreases RETRY_TIMES + 1 - attempts
      {
        if attempts > 0 {
          naps := naps + [STREAM_PAUSE];
        }
        ok := DownloadOnce();
        attempts := attempts + 1;
      }
    }
  }
}
